=== FILE: README.md ===
# T3-Admin moderation core in Dafny

T3-Admin is a server-administration plugin for Counter-Strike 2. Admins
use chat and console commands to do the following:

- ban, mute, gag and silence players;
- kick, freeze, teleport and noclip players;
- change maps and run server commands.

Sanctions and admin grants live in four MySQL tables: `t3_bans`,
`t3_mutes`, `t3_gags` and `t3_admins`. Each table has a manager with a
five-minute in-memory cache. Event handlers do three jobs:

- enforce mutes and gags on voice and chat;
- kick banned players when they join;
- load admin permissions on join, and sweep expired sanctions.

This project models that core as pure functions over immutable data and
proves properties of it.

- **The clock.** Time is an integer count of seconds since
  0001-01-01, the same as `DateTime`. `MaxTime` is
  `DateTime.MaxValue`. Every `expires_at` column is a MySQL `TIMESTAMP`,
  whose range ends at 2038-01-19 03:14:07 UTC (`TimestampMax`). An insert
  whose expiry would pass `TimestampMax` fails. Past `MaxTime`,
  `AddMinutes` or `AddDays` throws. Below that, the column refuses the
  value. Either way the manager catches the error and returns false.
- **Records** (`records.dfy`). `Sanction` stands for the shared shape
  of `Ban`, `Mute` and `Gag`. `AdminRecord` stands for `Admin`. Each has
  the same `IsPermanent`, `IsExpired`, `IsActive` and `TimeRemaining` as
  the C# classes, with the strict `now > expiresAt` expiry test.
- **Stores.**
  - `sanction_store.dfy` models the store behind `BanManager`,
    `MuteManager` and `GagManager`. Those three differ only in table name
    and revoked-status name.
  - `ban_manager.dfy`, `mute_manager.dfy` and `gag_manager.dfy` give each
    manager its own entry points.
  - `admin_store.dfy` is `AdminDbManager`: an upsert on a unique
    `steamid`, a sorted listing and deletion of expired rows.
  - A store holds its table as a sequence of rows, a cache map with one
    freshness stamp, and an `online` flag. When `online` is false, every
    query or connection fails, and the managers catch that and log it.
- **The game** (`session.dfy`).
  - The connected players, the command sender (console or player), the
    permission grants and the configuration defaults.
  - The effects a handler has on the game: chat lines, voice flags,
    kicks, teleports, freezes and engine commands. They are recorded as a
    sequence in the order the handler causes them.
  - Localized texts are represented by their localization keys.
- **Parsers and resolvers** (`player_utils.dfy`). SteamID parsing in all
  three notations, with unchecked 64-bit wrap-around. Single-player and
  `@group` target resolution. Team names.
- **Handlers.**
  - `event_handlers.dfy`: the voice gate, the chat gate, the join flow,
    the join summary and the expiry sweep.
  - `ban_commands.dfy`, `mute_commands.dfy` and `admin_commands.dfy`.
  - `player_commands.dfy`: kick, goto, bring, noclip, freeze, unfreeze and
    disconnect, with the plugin's noclip and frozen slot sets.
  - `server_commands.dfy`: map, wsmap, restart, rcon and cvar.
  - `target_check.dfy`: the permission, usage and target checks shared by
    the commands.
- **Background work.** A background task (`Task.Run`, `NextTick`) is
  modelled as running to completion at the same clock reading as the
  command that starts it. A scheduled delay (`DelayBySeconds`) is
  recorded as an effect that carries its delay.

## Model

| member | source | states |
|---|---|---|
| Records.StatusColumnRoundTrip | src/Database/BanManager.cs:44 | Writing a status to the `status` ENUM column and reading it back gives the same status. A column text reads as a status exactly when it names that status, ignoring case. |
| Records.ExpiryAfter | src/Database/BanManager.cs:72 | A duration of zero or less means permanent. A positive duration gives `now + seconds`, strictly later than now. The expiry is out of range exactly when it would pass the MySQL `TIMESTAMP` maximum, 2038-01-19 03:14:07 UTC. That bound lies below `DateTime.MaxValue`. |
| Records.NewSanction | src/Models/Ban.cs:5-16 | A new sanction object is `Active`, carries no revocation data, and records the player, the acting admin and the reason it was built with. |
| Records.NewAdmin | src/Models/Admin.cs:5-13 | A new admin object has empty flags, immunity 0, no adder and no expiry, so it is permanent. |
| Records.SanctionActiveIff | src/Models/Ban.cs:18-20 | A sanction is active exactly when its status is `Active` and it is permanent or `now <= expiresAt`. Any other status is never active, and a permanent record never expires. |
| Records.SanctionExpiryBoundary | src/Models/Ban.cs:19-20 | An active timed sanction is still active at the second it expires and inactive one second later. |
| Records.SanctionInactiveStays | src/Models/Ban.cs:19-20 | Once inactive, a fixed record stays inactive as the clock advances. |
| Records.SanctionTimeRemaining | src/Models/Ban.cs:21 | `TimeRemaining` is absent exactly for permanent records. Otherwise it is `expiresAt - now`, which is positive or zero while the record is unexpired. |
| Records.AdminActiveIff | src/Models/Admin.cs:15-17 | An admin is active exactly when unexpired, with no status involved. A permanent admin is always active. A timed one is active at its expiry second and inactive one second later. |
| Records.AdminInactiveStays | src/Models/Admin.cs:16-17 | An expired admin grant never becomes active again. |
| SanctionStore.SetAdminContext | src/Database/BanManager.cs:22-29 | A missing admin name falls back to the console name, and a missing SteamID falls back to 0. |
| SanctionStore.Add | src/Database/BanManager.cs:67-111 | Appends exactly one `Active` row with the next id, the player, the reason, the acting admin, `created_at = now` and the computed expiry. No earlier row changes. The cache entry of that player is overwritten and no other entry changes. The answer is false, with nothing changed, on a fault or an expiry out of range. It is also false when the name, flags or `added_by` text is longer than its column (`VARCHAR(64)`, `VARCHAR(255)`, `VARCHAR(64)`). |
| SanctionStore.Revoke | src/Database/BanManager.cs:113-151 | Every `Active` row of the player, expired by the clock or not, becomes revoked with the revoking admin, reason and time. Other rows are untouched. The answer is whether any row changed, and only then is the player's cache entry evicted. |
| SanctionStore.GetActive | src/Database/BanManager.cs:153-210 | A reported sanction is always active. A fresh cached key is answered from the cache alone, and an inactive entry is evicted. Otherwise a hit is a live row of the table, which is cached and refreshes the stamp. A miss evicts the key. A fault answers nothing and changes nothing. The table is never written. |
| SanctionStore.GetActiveFromCache | src/Database/BanManager.cs:212-219 | Answers the cached entry exactly when it exists and is active, whatever the freshness stamp says. |
| SanctionStore.GetTotal | src/Database/BanManager.cs:221-238 | The number of rows of the player of every status, or 0 on a fault. |
| SanctionStore.CleanupExpired | src/Database/BanManager.cs:240-266 | Exactly the `Active` rows with `expires_at <= now` become `Expired`, and afterwards no row is due. The whole cache is cleared exactly when some row changed. |
| SanctionStore.ClearCache | src/Database/BanManager.cs:268-271 | Empties the cache and leaves the table as it was. |
| SanctionStore.AddPreservesValid | src/Database/BanManager.cs:92-101 | An insert keeps the cache invariant: every cached entry is an `Active` copy of a row of its own key. |
| SanctionStore.RevokePreservesValid | src/Database/BanManager.cs:113-151 | A revocation keeps the cache invariant. |
| SanctionStore.GetActivePreservesValid | src/Database/BanManager.cs:157-201 | A lookup keeps the cache invariant. |
| SanctionStore.CleanupPreservesValid | src/Database/BanManager.cs:240-266 | The expiry cleanup keeps the cache invariant. |
| SanctionStore.StepEvolves | src/Database/BanManager.cs:67-271 | Any single manager call keeps the cache invariant and the reachability flag. Rows are only appended, each row keeps its key, and a row leaves `Active` only for good. |
| SanctionStore.RunEvolves | src/Database/BanManager.cs:67-271 | The same holds over any sequence of manager calls. |
| SanctionStore.LiveVersusActive | src/Database/BanManager.cs:183-185 | A row the query treats as live is active by the record's own test. The two disagree only on a row expiring exactly now, which the cleanup then treats as due. |
| SanctionStore.RevokeThenGetActiveNone | src/Database/BanManager.cs:113-210 | After a revocation on a reachable store, no later lookup reports a sanction for that player. |
| SanctionStore.AddThenGetActiveSome | src/Database/BanManager.cs:67-210 | After a successful insert, the sanction is reported until its expiry. |
| SanctionStore.FromCacheAgreesWithGetActive | src/Database/BanManager.cs:157-219 | While the stamp is fresh, the synchronous cache lookup and the asynchronous lookup give the same answer for a cached key. |
| SanctionStore.GetActiveStable | src/Database/BanManager.cs:157-166 | A reported sanction is reported again at the same instant, and the second lookup changes nothing. |
| SanctionStore.GetActiveAfterMiss | src/Database/BanManager.cs:193-201 | After a miss, the next lookup at the same instant asks the table and gets the table's first live row. |
| SanctionStore.CleanupLeavesLiveRows | src/Database/BanManager.cs:244-249 | After a cleanup no row is due, and every row still `Active` is live for the query. |
| SanctionStore.CleanupIdempotent | src/Database/BanManager.cs:240-266 | A second cleanup at the same instant changes nothing. |
| SanctionStore.TotalsCountHistory | src/Database/BanManager.cs:221-238 | A successful insert adds exactly one to the player's total. Every other call leaves every total as it was, because revocations and expiry only change the status. |
| BanManager.AddBan | src/Database/BanManager.cs:67-111 | The insert of a ban; the new row is written as `'active'` and the cache invariant holds afterwards. |
| BanManager.Unban | src/Database/BanManager.cs:113-151 | Every active ban row of the player is written as `'unbanned'`. |
| BanManager.GetActiveBan | src/Database/BanManager.cs:153-210 | The lookup of the active ban, which keeps the cache invariant. |
| BanManager.GetActiveBanFromCache | src/Database/BanManager.cs:212-219 | Answers only a cached entry active at `now`. |
| BanManager.GetTotalBans | src/Database/BanManager.cs:221-238 | Zero exactly on a fault or when the player has no ban row. |
| BanManager.CleanupExpiredBans | src/Database/BanManager.cs:240-266 | Every due ban row is written as `'expired'`, and the cache invariant holds afterwards. |
| BanManager.ClearBanCache | src/Database/BanManager.cs:268-271 | Empties the cache, which trivially satisfies the cache invariant. |
| BanManager.StatusColumnRoundTrip | src/Database/BanManager.cs:44 | `'active'`, `'expired'` and `'unbanned'` read back as the statuses they were written from. |
| MuteManager.AddMute | src/Database/MuteManager.cs:66-110 | The insert of a mute; the new row is written as `'active'`. |
| MuteManager.Unmute | src/Database/MuteManager.cs:112-150 | Every active mute row of the player is written as `'unmuted'`. |
| MuteManager.GetActiveMute | src/Database/MuteManager.cs:152-209 | The lookup of the active mute, which keeps the cache invariant. |
| MuteManager.GetActiveMuteFromCache | src/Database/MuteManager.cs:211-218 | Answers only a cached entry active at `now`. |
| MuteManager.GetTotalMutes | src/Database/MuteManager.cs:220-237 | Zero exactly on a fault or when the player has no mute row. |
| MuteManager.UpdateExpiredMutes | src/Database/MuteManager.cs:239-265 | Every due mute row is written as `'expired'`. |
| MuteManager.ClearMuteCache | src/Database/MuteManager.cs:267-270 | Empties the cache. |
| MuteManager.StatusColumnRoundTrip | src/Database/MuteManager.cs:44 | `'unmuted'` is the revoked status, and the column round-trips. |
| GagManager.AddGag | src/Database/GagManager.cs:66-110 | The insert of a gag; the new row is written as `'active'`. |
| GagManager.Ungag | src/Database/GagManager.cs:112-150 | Every active gag row of the player is written as `'ungagged'`. |
| GagManager.GetActiveGag | src/Database/GagManager.cs:152-209 | The lookup of the active gag, which keeps the cache invariant. |
| GagManager.GetActiveGagFromCache | src/Database/GagManager.cs:211-218 | Answers only a cached entry active at `now`. |
| GagManager.GetTotalGags | src/Database/GagManager.cs:220-237 | Zero exactly on a fault or when the player has no gag row. |
| GagManager.CleanupExpiredGags | src/Database/GagManager.cs:239-265 | Every due gag row is written as `'expired'`. |
| GagManager.ClearGagCache | src/Database/GagManager.cs:267-270 | Empties the cache. |
| GagManager.StatusColumnRoundTrip | src/Database/GagManager.cs:44 | `'ungagged'` is the revoked status, and the column round-trips. |
| AdminDbManager.Upsert | src/Database/AdminDbManager.cs:61-69 | `ON DUPLICATE KEY UPDATE` on the unique `steamid`. Keys stay unique, the player's row carries the new grant, and every other row is kept unchanged. |
| AdminDbManager.AddAdmin | src/Database/AdminDbManager.cs:52-106 | An upsert of the grant, with an expiry of `now` plus the given days, or permanent when the days are absent or not positive. The cache entry is overwritten. The answer is false, with nothing changed, on a fault or an expiry out of range. It is also false when the name, flags or `added_by` text is longer than its column (`VARCHAR(64)`, `VARCHAR(255)`, `VARCHAR(64)`). |
| AdminDbManager.RemoveAdmin | src/Database/AdminDbManager.cs:109-131 | Deletes the player's row. The answer is whether a row existed, and only then is the player's cache entry evicted. |
| AdminDbManager.GetAdmin | src/Database/AdminDbManager.cs:134-186 | The same cache-first protocol as the sanction lookup, with "active" meaning unexpired. A reported admin is always active. |
| AdminDbManager.Sort | src/Database/AdminDbManager.cs:205-206 | The result is ordered by immunity descending, then name ascending, and is a permutation of its input. |
| AdminDbManager.GetAllAdmins | src/Database/AdminDbManager.cs:189-218 | Exactly the unexpired admins, each row once, sorted by immunity descending then name. Empty on a fault. |
| AdminDbManager.CleanupExpiredAdmins | src/Database/AdminDbManager.cs:221-245 | Deletes exactly the rows with `expires_at <= now`. The cache is cleared exactly when some row went. |
| AdminDbManager.ClearCache | src/Database/AdminDbManager.cs:247-250 | Empties the cache and keeps the table. |
| AdminDbManager.AddAdminPreservesValid | src/Database/AdminDbManager.cs:52-106 | A grant keeps the unique key and the cache invariant. |
| AdminDbManager.RemoveAdminPreservesValid | src/Database/AdminDbManager.cs:109-131 | A removal keeps the unique key and the cache invariant. |
| AdminDbManager.GetAdminPreservesValid | src/Database/AdminDbManager.cs:134-186 | A lookup keeps the unique key and the cache invariant. |
| AdminDbManager.CleanupPreservesValid | src/Database/AdminDbManager.cs:221-245 | The cleanup keeps the unique key and the cache invariant. |
| AdminDbManager.AddAdminThenGetAdmin | src/Database/AdminDbManager.cs:52-186 | After a successful grant, the player is reported as an admin with exactly the given name, flags and immunity until the grant expires. |
| AdminDbManager.RemoveAdminThenGetAdminNone | src/Database/AdminDbManager.cs:109-186 | After a removal on a reachable store, the player is no admin at any later time. |
| AdminDbManager.GetAdminHitHasRow | src/Database/AdminDbManager.cs:134-186 | On a consistent store, a reported admin always has a row in the table, so a removal that follows finds it. |
| AdminDbManager.CleanupExpiredAdminsIdempotent | src/Database/AdminDbManager.cs:221-245 | After a cleanup every remaining admin is unexpired, and a second cleanup deletes nothing. |
| Session.ContextOf | src/Commands/BanCommands.cs:60-61 | The admin context of a command is the console exactly when the sender is the console. Then the name is the console name and the SteamID is 0. |
| Session.ReasonWords | src/Commands/BanCommands.cs:56-58 | The reason after the first k arguments, split on spaces, gives back those arguments when none of them holds a space. |
| Session.ParseDuration | src/Commands/BanCommands.cs:50 | A duration is accepted exactly when it reads as an `int` that is not negative. |
| Session.ParseDurationDigits | src/Commands/BanCommands.cs:50 | A duration written in decimal digits is read back exactly when it fits an `int`. |
| Session.FlagTokens | src/Events/EventHandlers.cs:165-168 | The tokens are the non-empty comma-separated fields of the flags, each trimmed. |
| Session.GrantAll | src/Events/EventHandlers.cs:165-168 | After granting, the player holds exactly the old grants plus every token. |
| Session.RevokeAll | src/Commands/AdminCommands.cs:169-172 | After revoking, the player holds exactly the old grants minus every token. No other player's grants change. |
| PlayerUtils.TryParseSteamId | src/Utils/PlayerUtils.cs:13-44 | Blank text never parses, and a parsed id always fits 64 bits. |
| PlayerUtils.SteamIdDecimal | src/Utils/PlayerUtils.cs:20-22 | A plain decimal SteamID64 strictly above the base reads back as itself. At or below the base it is rejected. |
| PlayerUtils.SteamId2Form | src/Utils/PlayerUtils.cs:24-32 | `STEAM_X:Y:Z` gives base + 2Z + Y wrapped to 64 bits; the universe digit X is ignored. |
| PlayerUtils.SteamId3Form | src/Utils/PlayerUtils.cs:34-41 | `[U:1:N]` gives base + N wrapped to 64 bits. An N that overflows `ulong.Parse` is the exception case. |
| PlayerUtils.SteamIdTextRoundTrip | src/Utils/PlayerUtils.cs:24-41 | Every SteamID64 at or above the base survives rendering in the legacy form and in the `[U:1:N]` form and parsing back. |
| PlayerUtils.FindPlayerByTarget | src/Utils/PlayerUtils.cs:46-79 | A found player is a valid connected player. The lookup throws exactly when the target is no `int` and its SteamID digits overflow. |
| PlayerUtils.FindBySlot | src/Utils/PlayerUtils.cs:50-54 | A slot number finds the valid player in that slot, or nobody, and never falls through to the name search. |
| PlayerUtils.FindBySteamId | src/Utils/PlayerUtils.cs:56-60 | A SteamID64 beyond the `int` range finds the valid player with that SteamID, or nobody. |
| PlayerUtils.FindByExactName | src/Utils/PlayerUtils.cs:62-69 | The only valid player whose name equals the target, ignoring case, is found before any partial match. |
| PlayerUtils.FindByAmbiguousName | src/Utils/PlayerUtils.cs:71-78 | Two valid players whose names contain the target, with no exact match, find nobody. |
| PlayerUtils.FindByUniquePartialName | src/Utils/PlayerUtils.cs:71-76 | The only valid player whose name contains the target is found when no name matches exactly. |
| PlayerUtils.FindPlayersByTarget | src/Utils/PlayerUtils.cs:81-114 | Every resolved player is a valid connected player. |
| PlayerUtils.GroupTargetsRespectAlive | src/Utils/PlayerUtils.cs:83-88 | Group targets never throw, and without dead players every selected player is alive. |
| PlayerUtils.SingleTargetIgnoresAlive | src/Utils/PlayerUtils.cs:81-114 | A single-player target ignores the living-only restriction. It resolves to the one player `FindPlayerByTarget` finds, or to nobody. |
| PlayerUtils.TerroristTargets | src/Utils/PlayerUtils.cs:95-97 | `@t` and `@terrorists`, in any case, select exactly the pool's players on team 2. |
| PlayerUtils.CounterTerroristTargets | src/Utils/PlayerUtils.cs:98-100 | `@ct` and `@counterterrorists`, in any case, select exactly the pool's players on team 3. |
| PlayerUtils.AllTarget | src/Utils/PlayerUtils.cs:93-94 | `@all` selects the whole pool. |
| PlayerUtils.AliveDeadSplit | src/Utils/PlayerUtils.cs:81-114 | Every pool member is selected by exactly one of `@alive` and `@dead`. |
| PlayerUtils.BotsHumansSplit | src/Utils/PlayerUtils.cs:81-114 | Every pool member is selected by exactly one of `@bots` and `@humans`. |
| PlayerUtils.GetTeamName | src/Utils/PlayerUtils.cs:182-192 | The unknown-team key is answered exactly for numbers outside 0 to 3. |
| PlayerUtils.ParseTeamAliases | src/Utils/PlayerUtils.cs:194-203 | `ParseTeam` answers a team exactly for that team's aliases, ignoring case. A team's own number parses back to it, and it has a known name. |
| TargetCheck.CheckTarget | src/Commands/PlayerCommands.cs:63-80 | A command goes ahead exactly when the sender has the permission, enough arguments were given and the first argument names a valid player. Otherwise it gives one refusal: the permission reply first, then the usage reply, then not-found or the lookup's fault. |
| EventHandlers.CeilMinutes | src/Events/EventHandlers.cs:273 | The whole minutes shown cover the seconds left: `60(m-1) < s <= 60m`. |
| EventHandlers.TruncMinutes | src/Events/EventHandlers.cs:142 | The minutes in a ban kick are truncated: `60m <= s < 60(m+1)`. |
| EventHandlers.Warn | src/Events/EventHandlers.cs:262-277 | With no warning on record, or one at least 5 s old, the player gets one line and the stamp becomes `now`. Otherwise nothing is shown and the stamps are unchanged. |
| EventHandlers.WarningCooldown | src/Events/EventHandlers.cs:262-277 | After a warning at t, the same player is not warned again before t + 5, and is warned again from t + 5 on. |
| EventHandlers.WarningMinutesCoverRemaining | src/Events/EventHandlers.cs:273-274 | A timed warning never shows fewer minutes than are left, and never a full minute more. |
| EventHandlers.OnPlayerSpeak | src/Events/EventHandlers.cs:250-298 | An unknown or invalid player passes with no effect. |
| EventHandlers.VoiceGate | src/Events/EventHandlers.cs:250-298 | A valid player's voice is stopped and muted exactly when the cache holds an active mute for them. Otherwise the voice flag is set from the asynchronous lookup: muted if a mute is found, normal if not. |
| EventHandlers.CheckGag | src/Events/EventHandlers.cs:300-334 | Blocks exactly when the cache holds an active gag. When not blocking, it only refreshes the gag cache through the lookup. |
| EventHandlers.OnClientChat | src/Events/EventHandlers.cs:348-408 | An unknown or invalid player passes with no effect. |
| EventHandlers.ChatGate | src/Events/EventHandlers.cs:374-407 | An ordinary message from a valid player is blocked exactly when the cache holds an active gag for them. |
| EventHandlers.ChatBypass | src/Events/EventHandlers.cs:354-372 | An admin-chat command is stopped before any gag check, whatever the gag state, with no effect. |
| EventHandlers.AliasIsAdminChatCommand | src/Events/EventHandlers.cs:354-370 | `!alias` or `/alias`, typed in any case, is an admin-chat command for every configured asay, say, psay, csay and hsay alias. |
| EventHandlers.OnRoundStart | src/Events/EventHandlers.cs:336-343 | After a round start every player may be warned again at once. |
| EventHandlers.OnClientDisconnected | src/Events/EventHandlers.cs:234-248 | Only the leaving slot's warning stamps are dropped. Every other stamp is kept as it was. |
| EventHandlers.SendJoinSummary | src/Events/EventHandlers.cs:182-232 | The summary never writes a sanction table: the rows of the ban, mute and gag tables are unchanged. The three active lookups may refresh their caches and stamps. The players, the grants and the admin table are untouched. |
| EventHandlers.SummaryLines | src/Events/EventHandlers.cs:212-223 | One summary line per recipient, in order, with the totals and active flags passed in. |
| EventHandlers.SummaryOnlyHolders | src/Events/EventHandlers.cs:216-223 | Every summary line goes to a valid human holding the list-players permission. |
| EventHandlers.SummaryReaches | src/Events/EventHandlers.cs:212-223 | Every valid human holding the list-players permission gets a summary line about the player. |
| EventHandlers.OnClientSteamAuthorize | src/Events/EventHandlers.cs:115-180 | An unknown or invalid player changes nothing. The players are never changed. |
| EventHandlers.JoinBanShortCircuits | src/Events/EventHandlers.cs:130-147 | A ban found after the cleanup gives exactly one kick. There is no voice change, no grant and no summary. |
| EventHandlers.JoinAppliesMuteAndFlags | src/Events/EventHandlers.cs:149-170 | Without a ban, an active mute mutes the joining player's voice before anything else. An active admin's flag tokens are all granted, and no other grant is added. |
| EventHandlers.JoinSummaryRecipients | src/Events/EventHandlers.cs:216-223 | Without a ban, every valid human player holding the list-players permission gets the summary about the joining player, and no one else does. |
| EventHandlers.ExpireAsWrittenIsSilent | src/Events/EventHandlers.cs:83-103 | One step of the sweep as written never fires: a cache entry that the lookup returns is active, so it is never expired. |
| EventHandlers.SweepPlayersAsWrittenIsSilent | src/Events/EventHandlers.cs:77-104 | The sweep's per-player loop, as written, has no effect for any players. |
| EventHandlers.SweepAsWrittenOnlyCleansTables | src/Events/EventHandlers.cs:75-113 | The sweep as written only runs the three table cleanups. |
| EventHandlers.SweepAsWrittenMissesExpiredMute | src/Events/EventHandlers.cs:83-92 | A concrete player whose cached mute ran out a second ago is neither told nor unmuted by the written sweep. |
| EventHandlers.ExpireMute | src/Events/EventHandlers.cs:83-92 | The intended step: a cached mute that has expired is evicted, the player is told, and the voice is reset. The step acts exactly in that case. |
| EventHandlers.ExpireGag | src/Events/EventHandlers.cs:95-103 | The intended step for gags: an expired cached gag is evicted and the player is told. The step acts exactly in that case. |
| EventHandlers.SweepPlayersCorrected | src/Events/EventHandlers.cs:77-104 | The intended loop only evicts cache entries and never adds or changes one. |
| EventHandlers.SweepCorrectedLeavesNoExpired | src/Events/EventHandlers.cs:77-104 | After the intended loop, no player of the loop has an expired cached mute or gag. |
| EventHandlers.SweepCorrectedNotifiesMute | src/Events/EventHandlers.cs:83-92 | The intended loop tells and unmutes every player whose cached mute has expired. |
| EventHandlers.SweepCorrectedNotifiesGag | src/Events/EventHandlers.cs:95-103 | The intended loop tells every player whose cached gag has expired. |
| EventHandlers.SweepCorrectedNotifies | src/Events/EventHandlers.cs:75-113 | A connected player with an expired cached mute is told by the intended sweep and not by the written one. |
| EventHandlers.ClearCacheTellsAtMostOne | src/Events/EventHandlers.cs:83-92 | Fixing only the read and keeping `ClearCache()` still leaves the sweep broken. It tells at most one player per sweep that a mute expired, because the first expiry empties the cache for the players after it. |
| EventHandlers.ClearCacheMissesSecondPlayer | src/Events/EventHandlers.cs:83-92 | Take two players whose cached mutes both expired. Clearing the whole cache tells only the first. Evicting one entry tells both. |
| BanCommands.NoticeAndKick | src/Commands/BanCommands.cs:88-103 | A connected target gets the personal notice and then a kick scheduled 3 s later. A disconnected target gets nothing. |
| BanCommands.OnBan | src/Commands/BanCommands.cs:29-112 | A ban never changes the players, the mute or gag tables, the admins or the grants. |
| BanCommands.OnAddBan | src/Commands/BanCommands.cs:114-191 | The same frame condition for `!addban`. |
| BanCommands.Unban | src/Commands/BanCommands.cs:193-239 | The same frame condition for `!unban`. |
| BanCommands.BanCommandsRequirePermission | src/Commands/BanCommands.cs:31-35 | A sender without the permission gets one refusal and nothing changes. The console is never refused. |
| BanCommands.UnbanPermissionIgnored | src/Commands/BanCommands.cs:195 | With the default permissions, a player holding only `admin.unban` is refused by the unban as written but not by the corrected one. |
| BanCommands.StoreBanInserts | src/Commands/BanCommands.cs:65-76 | A player with no active ban gets exactly one new `Active` row, attributed to the sender. |
| BanCommands.BanStoresRow | src/Commands/BanCommands.cs:43-76 | A ban of a connected player with no active ban is stored. It is reported active from then on, until it expires. |
| BanCommands.BanAnnouncesAndKicks | src/Commands/BanCommands.cs:80-103 | Once the ban is stored, every valid player is told, and the target's last effect is the kick scheduled 3 s later. |
| BanCommands.BanRefusesDuplicate | src/Commands/BanCommands.cs:67-72 | A player who already has an active ban gets no second row; the sender is told instead. |
| BanCommands.BanAnnouncedWithoutRow | src/Commands/BanCommands.cs:74-86 | The insert's answer is not looked at: with the table unreachable, the ban is still announced and the kick scheduled. |
| BanCommands.AddBanNotifies | src/Commands/BanCommands.cs:160-183 | `!addban` of a SteamID with no active ban confirms it to the sender. If the player is connected, it schedules their kick. |
| BanCommands.AddBanStoresRow | src/Commands/BanCommands.cs:128-157 | `!addban` stores an active ban for a SteamID that need not be connected. |
| BanCommands.UnbanClears | src/Commands/BanCommands.cs:220-232 | `!unban` of a banned SteamID on a reachable, consistent table leaves no active ban, at any later time. |
| MuteCommands.Personal | src/Commands/MuteCommands.cs:398-406 | A connected target gets the personal notice and then the voice change, if any. A disconnected target gets nothing. |
| MuteCommands.AnnounceVoice | src/Commands/MuteCommands.cs:392-406 | The announcement of a mute ends with the target muted, and a gag never touches the voice. |
| MuteCommands.OnPunish | src/Commands/MuteCommands.cs:42-118 | A mute changes only the mute table, and a gag only the gag table. |
| MuteCommands.OnPardon | src/Commands/MuteCommands.cs:120-185 | An unmute changes only the mute table, and an ungag only the gag table. |
| MuteCommands.OnMute | src/Commands/MuteCommands.cs:42-118 | `!mute` never changes the gag or ban tables. |
| MuteCommands.OnUnmute | src/Commands/MuteCommands.cs:120-185 | `!unmute` never changes the gag or ban tables. |
| MuteCommands.OnGag | src/Commands/MuteCommands.cs:187-262 | `!gag` never changes the mute or ban tables. |
| MuteCommands.OnUngag | src/Commands/MuteCommands.cs:264-328 | `!ungag` never changes the mute or ban tables. |
| MuteCommands.OnSilence | src/Commands/MuteCommands.cs:330-414 | `!silence` never changes the players, bans, admins or grants. |
| MuteCommands.OnUnsilence | src/Commands/MuteCommands.cs:416-489 | `!unsilence` never changes the players, bans, admins or grants. |
| MuteCommands.MuteCommandsRequirePermission | src/Commands/MuteCommands.cs:491-497 | A sender without the command's permission gets one refusal and nothing changes. |
| MuteCommands.PunishStoresRow | src/Commands/MuteCommands.cs:42-118 | A mute or gag of a player with none active, on a reachable table, is stored and reported active until it expires. |
| MuteCommands.PunishVoice | src/Commands/MuteCommands.cs:42-118 | A mute that goes ahead ends by muting the connected target's voice. |
| MuteCommands.PunishRefusesDuplicate | src/Commands/MuteCommands.cs:42-118 | A player already muted or gagged gets no second row; the sender is told instead. |
| MuteCommands.PardonClears | src/Commands/MuteCommands.cs:120-185 | An unmute or ungag of a player with an active one leaves none active, at any later time. |
| MuteCommands.SilenceKeepsExisting | src/Commands/MuteCommands.cs:371-384 | `!silence` inserts only what is missing: an existing mute or gag keeps its row and no second row is added. |
| MuteCommands.SilenceInsertsMissing | src/Commands/MuteCommands.cs:380-384 | A missing mute or gag on a reachable table gets a new active row with the given duration. |
| MuteCommands.SilenceTables | src/Commands/MuteCommands.cs:371-384 | After `!silence`, each table is the lookup's table with the missing sanction inserted; a sanction that exists is left as it was. |
| MuteCommands.UnsilenceClears | src/Commands/MuteCommands.cs:451-464 | `!unsilence` revokes whichever of mute and gag was active, so neither is active afterwards. |
| MuteCommands.UnsilenceTables | src/Commands/MuteCommands.cs:451-464 | After `!unsilence`, each table is the lookup's table with the active sanction revoked. With neither active, the sender is only told. |
| AdminCommands.OnAdminMenu | src/Commands/AdminCommands.cs:26-41 | The console is told the command is for players only. A player without the permission is refused. Otherwise the menu opens for that player. |
| AdminCommands.ImmunityArg | src/Commands/AdminCommands.cs:65-71 | Immunity is 0 unless a fourth argument reads as an `int`. |
| AdminCommands.DurationArg | src/Commands/AdminCommands.cs:66-76 | A duration in days is taken only from a fifth argument that reads as a positive `int`. |
| AdminCommands.OnAddAdmin | src/Commands/AdminCommands.cs:43-124 | `!addadmin` keeps the admin keys unique and never touches the players or the sanction tables. |
| AdminCommands.OnRemoveAdmin | src/Commands/AdminCommands.cs:126-194 | `!removeadmin` keeps the admin keys unique and never touches the players or the sanction tables. |
| AdminCommands.Entries | src/Commands/AdminCommands.cs:218-223 | One list line per admin, in list order. |
| AdminCommands.AdminCommandsRequirePermission | src/Commands/AdminCommands.cs:228-234 | A sender without the command's permission gets one refusal and nothing changes. |
| AdminCommands.AddAdminGrants | src/Commands/AdminCommands.cs:81-110 | A stored grant makes the player an admin with the given name and flags. If the player is connected, every flag token is granted at once. |
| AdminCommands.AddAdminDefaults | src/Commands/AdminCommands.cs:63-76 | With only the three required arguments, the grant is permanent with immunity 0. |
| AdminCommands.AddAdminFailure | src/Commands/AdminCommands.cs:112-115 | A failed store is reported to the sender and nothing changes. |
| AdminCommands.AddAdminTooLong | src/Database/AdminDbManager.cs:29-30 | A name over 64 characters or flags over 255 characters make the store fail. The sender is told, and nothing is granted or stored. |
| AdminCommands.RemoveAdminRevokes | src/Commands/AdminCommands.cs:148-186 | Removing a current admin leaves them no admin at any later time. The flags they had are revoked. |
| AdminCommands.ListAdminsShowsLive | src/Commands/AdminCommands.cs:204-224 | The list shows every unexpired admin, and only unexpired admins of the table, in list order. |
| PlayerCommands.KickEffects | src/Commands/PlayerCommands.cs:89-106 | A kick that goes ahead ends with the kick of the target scheduled 2 s later, and moves nobody. |
| PlayerCommands.OnKick | src/Commands/PlayerCommands.cs:61-112 | A kick is scheduled exactly when the sender has the permission and the first argument names a player. It is for that player's SteamID, with the reason after the target. |
| PlayerCommands.KickReason | src/Commands/PlayerCommands.cs:82-84 | The kick reason is the no-reason text when only a target is given. Otherwise, split on spaces, it gives back the words after the target. |
| PlayerCommands.OnGoto | src/Commands/PlayerCommands.cs:278-371 | The sender is moved exactly when all of these hold: they have the permission, they are a player, they name another player, and both pawns are valid. The move comes first. |
| PlayerCommands.OnBring | src/Commands/PlayerCommands.cs:373-440 | The target is moved exactly when all of these hold: the sender has the permission, is a player and names another player, the target's pawn is valid, and the aim trace found a position. |
| PlayerCommands.SelfTargetRejected | src/Commands/PlayerCommands.cs:307-311 | A player who names themself is refused by goto and by bring with the matching reply, whatever the state of the pawns. |
| PlayerCommands.OnNoclip | src/Commands/PlayerCommands.cs:493-547 | A named target's slot flips in the noclip set. The first effect sets noclip to the new membership. Nothing else in either set changes, and a refusal changes nothing. |
| PlayerCommands.Toggle | src/Commands/PlayerCommands.cs:517-528 | Membership of the slot flips, and every other member is kept. |
| PlayerCommands.NoclipTwice | src/Commands/PlayerCommands.cs:517-528 | Toggling twice with the same players gives back the sets it started from. |
| PlayerCommands.UnfreezeDelay | src/Commands/PlayerCommands.cs:572-576 | A timed unfreeze is used exactly when the second argument reads as a positive `int`. |
| PlayerCommands.UnfreezeDelayDigits | src/Commands/PlayerCommands.cs:572-576 | A delay written in digits is used exactly when it is positive and fits an `int`. |
| PlayerCommands.FreezeEach | src/Commands/PlayerCommands.cs:578-599 | Every target is frozen. With a delay, every target gets its timed unfreeze with that delay. Nothing else happens. |
| PlayerCommands.OnFreeze | src/Commands/PlayerCommands.cs:549-626 | The frozen set grows by exactly the living targets when the sender has the permission. Every timed unfreeze is for a target, with the parsed delay, and with a delay every target gets one. |
| PlayerCommands.FreezeAll | src/Commands/PlayerCommands.cs:578-599 | The frozen set grows by exactly the targets' slots. |
| PlayerCommands.FreezeEachSlots | src/Commands/PlayerCommands.cs:583-597 | The timed unfreezes a freeze schedules are for its own targets only. |
| PlayerCommands.OnUnfreeze | src/Commands/PlayerCommands.cs:628-682 | The frozen set loses exactly the targets, dead players included, when the sender has the permission. Only unfreezes and messages result. |
| PlayerCommands.FireUnfreeze | src/Commands/PlayerCommands.cs:586-597 | The timer acts exactly when the slot is still frozen and a valid player holds it. It then unfreezes that slot and removes it from the set. |
| PlayerCommands.OnPlayerDisconnect | src/Commands/PlayerCommands.cs:913-917 | The slot leaves both sets, and every other slot keeps its membership. |
| PlayerCommands.TimedFreezeReleases | src/Commands/PlayerCommands.cs:572-597 | A target frozen with a timer, still connected when it fires, is released by the timer. |
| PlayerCommands.TimerCancelled | src/Commands/PlayerCommands.cs:592-596 | After an unfreeze or a disconnect, the timer does nothing. |
| PlayerCommands.FreezeTargetsUnfrozen | src/Commands/PlayerCommands.cs:563-642 | Every player a freeze target selects is also selected by the same unfreeze target, which includes dead players. |
| PlayerCommands.FreezeThenUnfreeze | src/Commands/PlayerCommands.cs:549-682 | Freezing and then unfreezing with the same target, with the players unchanged, leaves none of the targets frozen. |
| ServerCommands.MapIndex | src/Commands/ServerCommands.cs:43-47 | The first configured map key equal to the input ignoring case, with the lower-casing of the input making no difference. Absent exactly when no key matches. |
| ServerCommands.OnMap | src/Commands/ServerCommands.cs:28-70 | A level change is issued exactly when the sender has the permission, a map is named, and some configured key matches it. It is the first matching key's `changelevel`, 3 s later. |
| ServerCommands.ChangeAfterNotice | src/Commands/ServerCommands.cs:59-67 | Everyone is told first; the engine command comes last, after the delay. |
| ServerCommands.WorkshopId | src/Commands/ServerCommands.cs:87-104 | An input that reads as a `uint` is the id itself. Otherwise the id is the first configured name containing the input, ignoring case, or none. |
| ServerCommands.OnWsMap | src/Commands/ServerCommands.cs:72-120 | `host_workshop_map` is issued exactly when the sender has the permission, an input is given, and that input resolves to an id. It carries that id, 3 s later. |
| ServerCommands.WsMapById | src/Commands/ServerCommands.cs:91 | A workshop id written in digits is loaded as written, configured or not. |
| ServerCommands.RestartSeconds | src/Commands/ServerCommands.cs:132-136 | The delay is positive and fits an `int`. It differs from the default 2 only when the first argument reads as that number. |
| ServerCommands.RestartSecondsDigits | src/Commands/ServerCommands.cs:132-136 | A delay written in digits is used when it is positive and fits an `int`; otherwise 2. |
| ServerCommands.OnRestart | src/Commands/ServerCommands.cs:122-146 | `mp_restartgame` is issued exactly when the sender has the permission, with the computed delay, after everyone is told. |
| ServerCommands.Holders | src/Commands/ServerCommands.cs:167-173 | Exactly the valid players holding the permission. |
| ServerCommands.RunAndTellHolders | src/Commands/ServerCommands.cs:165-173 | The engine runs the command first. Then every valid player holding the permission is told, and no one else is. |
| ServerCommands.OnRcon | src/Commands/ServerCommands.cs:148-176 | The engine runs the arguments joined by spaces exactly when the sender has the permission and gave an argument. |
| ServerCommands.OnCvar | src/Commands/ServerCommands.cs:178-223 | With two or more arguments and the permission, the engine runs `name value...`. With one argument, the sender gets the variable's value or not-found, and nothing is executed. |
| ServerCommands.CvarSetIsRcon | src/Commands/ServerCommands.cs:210-211 | Setting a variable hands the engine the same text as `!rcon` with the same arguments. |
| ServerCommands.CvarSetWords | src/Commands/ServerCommands.cs:210-211 | When no argument holds a space, the set command splits back into the arguments. |
| ServerCommands.ConsoleBypass | src/Commands/ServerCommands.cs:225-231 | The console passes every permission check: `!rcon` from the console always runs its arguments. |

## Left out

- Database access and SQL: connections, Dapper mapping, table creation and
  the migration runner are not modelled. A store is a row sequence with an
  `online` flag; every caught exception is that flag being false.
- Concurrency: background tasks (`Task.Run`) run to completion in order.
  The command's check and the insert run as one step, so the race between
  them is not modelled. `AsyncLocal` admin contexts are passed as
  parameters.
- The Discord webhook, the menus, `ChatCommands` and logging have no
  effect on the state here, so they are not modelled.
- The slay, respawn, team, players and who commands are not modelled.
  Neither is the admin-menu handlers' own copy of the command logic.
- Engine internals are left out: pawn positions and vector math, the aim
  trace, and the move-type and flag changes behind `Freeze`, `Unfreeze` and
  `SetNoclip` (including `sv_cheats`). These appear as effects.
  - `PlayerCommands.OnBring`: the aim trace is the boolean parameter `aim`.
  - `PlayerCommands.OnGoto`: the destination offset and facing angle are
    not modelled; only which pawn moves is.
- What a delayed kick does when it fires is not modelled; the kick is
  recorded with its delay. The timed unfreeze is modelled, by
  `PlayerCommands.FireUnfreeze`.
- Message arguments (names, durations, counts) and colour codes are left
  out. Messages are their localization keys. The CenterHTML and chat
  choice of `SendNotification` is one `Chat` effect.
- Time is whole seconds, and `TimeSpan` fractions are not modelled.
  - `EventHandlers.CeilMinutes`: ceiling of whole seconds, which gives the
    same minute count for integer seconds.
- Case folding covers ASCII letters only, and digit parsing accepts ASCII
  digits only. `ToLowerInvariant` and `OrdinalIgnoreCase` on other scripts
  are not modelled. `Numbers.ParseInteger` also rejects the trailing `'\0'`
  characters that .NET `NumberStyles.Integer` parsing tolerates after the
  digits. Engine argument strings do not carry NUL characters.
  - `AdminDbManager.Sort`: the name order is ASCII case-insensitive. The
    column's default collation behind `ORDER BY name ASC` also ignores
    accents and trailing spaces, and that is not modelled.
- The MySQL server is assumed to run in strict SQL mode, its default. Then
  an `expires_at` past the `TIMESTAMP` range makes the insert fail. In
  non-strict mode it would be stored as a zero date that never reads as
  live. That case is not modelled. The clock is also assumed to be after
  the `TIMESTAMP` minimum, 1970-01-01 00:00:01 UTC.
  - `AdminDbManager.AddAdmin`: the text column widths of `t3_admins` are
    compared with the length of the model's strings. MySQL counts
    characters of the column's character set, and .NET strings count
    UTF-16 units. The two agree only on text without surrogate pairs.
- `ServerCommands.OnCvar`: the engine's convar table is the map parameter
  `convars`.
- `PlayerUtils.TryParseSteamId`: the contract gives only the blank and
  range facts. The three notations are stated by the lemmas `SteamIdDecimal`,
  `SteamId2Form` and `SteamId3Form`.
- `EventHandlers.SweepCorrectedNotifiesMute`: the promise that every
  expired player is told rests on evicting one entry per player. The
  source calls `ClearCache()` at src/Events/EventHandlers.cs:90.
  Evicting one entry is part of the correction listed under "Findings".
- `EventHandlers.SweepCorrectedNotifiesGag`: the same applies to the gag
  cache, cleared at src/Events/EventHandlers.cs:100.
- `EventHandlers.SweepCorrectedNotifies`: with several expired players,
  this holds only under that one-entry eviction. `ClearCacheTellsAtMostOne`
  states what the source's clearing would give.
- `MuteCommands.MuteCommandsRequirePermission`: the contract does not
  include the fact that the console is never refused.
  `BanCommands.BanCommandsRequirePermission` states that fact for the ban
  commands.

## Findings

| source | as written | input that shows it | evidently intended | confidence | as-written member | corrected member |
|---|---|---|---|---|---|---|
| src/Events/EventHandlers.cs:83-103 | The sweep reads `GetActiveMuteFromCache` and `GetActiveGagFromCache`. Both return only active entries, so the `IsExpired` branches never run, and nobody is told that a mute or gag has expired. | A connected player whose cached mute expired one second before the sweep. | Read the raw cache entry, so an expired mute or gag is evicted, the player is told, and the voice is reset. Evict only that player's entry instead of calling `ClearCache()`. With the whole cache cleared, the first expiry hides every later one in the same sweep, and the cleanup that follows marks those rows expired, so those players are never told (`EventHandlers.ClearCacheTellsAtMostOne`, `EventHandlers.ClearCacheMissesSecondPlayer`). | not executed | EventHandlers.SweepAsWrittenMissesExpiredMute | EventHandlers.SweepCorrectedNotifies |
| src/Commands/BanCommands.cs:195 | `!unban` checks the permission the class was built with, which is `Permissions.Ban` (`src/T3-Admin.cs:134`). The configured `Permissions.Unban` (`src/Config/PluginConfig.cs:83`) is never consulted. | With the default configuration, a player holding only `admin.unban` runs `!unban <steamid>`. | `!unban` checks `Permissions.Unban`. | not executed | BanCommands.OnUnbanAsWritten | BanCommands.OnUnban |

=== FILE: admin_commands.dfy ===
/**
 * `!admin`, `!addadmin`, `!removeadmin` and `!listadmins`: the admin menu
 * gate and the commands over the admins table that also keep the host's
 * permission grants in step with it.
 */
module AdminCommands {
  import opened Wrappers
  import opened Records
  import Text
  import Numbers
  import opened Session
  import AdminDbManager
  import PlayerUtils

  /** `OnAdminMenuCommand`: only a player may open the menu, and only with
      the menu permission. */
  function OnAdminMenu(w: World, cfg: Config, caller: Caller): (r: seq<Effect>)
    ensures caller.Console? ==> r == [Reply("player_only_command")]
    ensures caller.ByPlayer? ==>
              (r == [OpenMenu(caller.player.slot)] <==> HasPermission(w.grants, caller, cfg.adminMenuPermission))
    ensures caller.ByPlayer? && !HasPermission(w.grants, caller, cfg.adminMenuPermission) ==>
              r == [Reply("no_permission")]
  {
    if caller.Console? then [Reply("player_only_command")]
    else if !HasPermission(w.grants, caller, cfg.adminMenuPermission) then [Reply("no_permission")]
    else [OpenMenu(caller.player.slot)]
  }

  /** The optional immunity argument: the fourth argument when it parses as
      an `int`, otherwise 0. */
  function ImmunityArg(args: seq<string>): (r: int)
    ensures |args| <= 3 ==> r == 0
    ensures |args| > 3 && Numbers.TryParseInt32(args[3]).None? ==> r == 0
  {
    if |args| > 3 && Numbers.TryParseInt32(args[3]).Some? then Numbers.TryParseInt32(args[3]).value else 0
  }

  /** The optional duration in days: the fifth argument when it parses as a
      positive `int`, otherwise none (permanent). */
  function DurationArg(args: seq<string>): (r: Option<int>)
    ensures r.Some? ==> r.value > 0 && |args| >= 5
    ensures |args| < 5 ==> r.None?
  {
    if |args| >= 5 && Numbers.TryParseInt32(args[4]).Some? && Numbers.TryParseInt32(args[4]).value > 0
    then Numbers.TryParseInt32(args[4]) else None
  }

  /** `OnAddAdminCommand`: `<steamid> <name> <flags> [immunity] [days]`. A
      stored grant is confirmed, and a connected player receives every flag
      token at once; a failed store is reported. */
  function OnAddAdmin(w: World, cfg: Config, caller: Caller, args: seq<string>, now: int): (r: (World, seq<Effect>))
    requires AdminDbManager.Unique(w.admins.rows)
    ensures r.0.players == w.players && r.0.bans == w.bans && r.0.mutes == w.mutes && r.0.gags == w.gags
    ensures AdminDbManager.Unique(r.0.admins.rows)
  {
    if !HasPermission(w.grants, caller, cfg.addAdminPermission) then (w, [Reply("no_permission")])
    else if |args| < 3 then (w, [Reply("addadmin_usage")])
    else
      match PlayerUtils.TryParseSteamId(args[0])
      case Overflow => (w, [Fault])
      case NotParsed => (w, [Reply("invalid_steamid")])
      case Parsed(steamId) =>
        var name := args[1];
        var flags := args[2];
        var (admins, ok) := AdminDbManager.AddAdmin(w.admins, steamId, name, flags, ImmunityArg(args),
                                                    Some(AdminName(caller)), SenderSteamId(caller),
                                                    DurationArg(args), now);
        if !ok then (w.(admins := admins), [Reply("addadmin_failed")])
        else
          var online := OnlineBySteamId(w.players, steamId);
          if online.None? then (w.(admins := admins), [Reply("addadmin_success")])
          else
            (w.(admins := admins, grants := GrantAll(w.grants, steamId, FlagTokens(flags))),
             [Reply("addadmin_success"), Chat(online.value.slot, "addadmin_granted")])
  }

  /** `OnRemoveAdminCommand`: `<steamid>`. The current grant is looked up
      first; after a deletion its flag tokens are taken from the player,
      connected or not. */
  function OnRemoveAdmin(w: World, cfg: Config, caller: Caller, args: seq<string>, now: int): (r: (World, seq<Effect>))
    ensures r.0.players == w.players && r.0.bans == w.bans && r.0.mutes == w.mutes && r.0.gags == w.gags
    ensures AdminDbManager.Unique(w.admins.rows) ==> AdminDbManager.Unique(r.0.admins.rows)
  {
    if !HasPermission(w.grants, caller, cfg.removeAdminPermission) then (w, [Reply("no_permission")])
    else if |args| < 1 then (w, [Reply("removeadmin_usage")])
    else
      match PlayerUtils.TryParseSteamId(args[0])
      case Overflow => (w, [Fault])
      case NotParsed => (w, [Reply("invalid_steamid")])
      case Parsed(steamId) =>
        var (admins1, existing) := AdminDbManager.GetAdmin(w.admins, steamId, now);
        if existing.None? then (w.(admins := admins1), [Reply("removeadmin_not_admin")])
        else
          var (admins2, ok) := AdminDbManager.RemoveAdmin(admins1, steamId);
          if !ok then (w.(admins := admins2), [Reply("removeadmin_failed")])
          else
            var online := OnlineBySteamId(w.players, steamId);
            (w.(admins := admins2, grants := RevokeAll(w.grants, steamId, FlagTokens(existing.value.flags))),
             [Reply("removeadmin_success")] + (if online.Some? then [Chat(online.value.slot, "removeadmin_revoked")] else []))
  }

  /** The lines of the admin list, one per admin, in list order. */
  function Entries(admins: seq<AdminRecord>): (r: seq<Effect>)
    ensures |r| == |admins|
    ensures forall i :: 0 <= i < |r| ==> r[i] == AdminEntry(admins[i])
  {
    if |admins| == 0 then [] else [AdminEntry(admins[0])] + Entries(admins[1..])
  }

  /** `OnListAdminsCommand`: a header with the count and one line per
      unexpired admin in list order, or a single line when there is none. */
  function OnListAdmins(w: World, cfg: Config, caller: Caller, now: int): (r: seq<Effect>)
  {
    if !HasPermission(w.grants, caller, cfg.listAdminsPermission) then [Reply("no_permission")]
    else
      var admins := AdminDbManager.GetAllAdmins(w.admins, now);
      if |admins| == 0 then [Reply("listadmins_none")]
      else [ReplyCount("listadmins_header", |admins|)] + Entries(admins)
  }

  // ----- properties -----

  /** A sender without the command's permission gets one refusal and
      nothing changes. */
  lemma AdminCommandsRequirePermission(w: World, cfg: Config, caller: Caller, args: seq<string>, now: int)
    requires AdminDbManager.Unique(w.admins.rows)
    ensures !HasPermission(w.grants, caller, cfg.addAdminPermission) ==>
              OnAddAdmin(w, cfg, caller, args, now) == (w, [Reply("no_permission")])
    ensures !HasPermission(w.grants, caller, cfg.removeAdminPermission) ==>
              OnRemoveAdmin(w, cfg, caller, args, now) == (w, [Reply("no_permission")])
    ensures !HasPermission(w.grants, caller, cfg.listAdminsPermission) ==>
              OnListAdmins(w, cfg, caller, now) == [Reply("no_permission")]
  {
  }

  /** A stored grant makes the player an admin with the given name and flags
      until it expires, and a connected player holds every flag token right
      away; a player not connected gets no grant until they join. */
  lemma AddAdminGrants(w: World, cfg: Config, caller: Caller, args: seq<string>, now: int, later: int, steamId: nat)
    requires AdminDbManager.Unique(w.admins.rows) && AdminDbManager.Valid(w.admins)
    requires HasPermission(w.grants, caller, cfg.addAdminPermission) && |args| >= 3
    requires PlayerUtils.TryParseSteamId(args[0]) == PlayerUtils.Parsed(steamId)
    requires w.admins.online && !ExpiryAfter(now, DurationArg(args).GetOr(0) * SecondsPerDay).OutOfRange?
    requires AdminDbManager.FitsColumns(args[1], args[2], Some(AdminName(caller)))
    requires now <= later && (DurationArg(args).None? || later < now + DurationArg(args).value * SecondsPerDay)
    ensures var (w', effects) := OnAddAdmin(w, cfg, caller, args, now);
            var a := AdminDbManager.GetAdmin(w'.admins, steamId, later).1;
            && effects[0] == Reply("addadmin_success")
            && a.Some? && a.value.name == args[1] && a.value.flags == args[2]
            && (OnlineBySteamId(w.players, steamId).Some? ==>
                  forall t :: t in FlagTokens(args[2]) ==> (steamId, t) in w'.grants)
            && (OnlineBySteamId(w.players, steamId).None? ==> w'.grants == w.grants)
  {
    AdminDbManager.AddAdminThenGetAdmin(w.admins, steamId, args[1], args[2], ImmunityArg(args),
                                        Some(AdminName(caller)), SenderSteamId(caller), DurationArg(args), now, later);
  }

  /** With only the three required arguments the grant is permanent and
      carries immunity 0: the player is reported as admin at every later time. */
  lemma AddAdminDefaults(w: World, cfg: Config, caller: Caller, args: seq<string>, now: int, later: int, steamId: nat)
    requires AdminDbManager.Unique(w.admins.rows) && AdminDbManager.Valid(w.admins)
    requires HasPermission(w.grants, caller, cfg.addAdminPermission) && |args| == 3
    requires PlayerUtils.TryParseSteamId(args[0]) == PlayerUtils.Parsed(steamId)
    requires w.admins.online && ValidTime(now) && now <= later
    requires AdminDbManager.FitsColumns(args[1], args[2], Some(AdminName(caller)))
    ensures var w' := OnAddAdmin(w, cfg, caller, args, now).0;
            var a := AdminDbManager.GetAdmin(w'.admins, steamId, later).1;
            a.Some? && a.value.immunity == 0
  {
    AdminDbManager.AddAdminThenGetAdmin(w.admins, steamId, args[1], args[2], 0,
                                        Some(AdminName(caller)), SenderSteamId(caller), None, now, later);
  }

  /** A failed store (the table unreachable) is reported to the sender and
      grants nothing. */
  lemma AddAdminFailure(w: World, cfg: Config, caller: Caller, args: seq<string>, now: int, steamId: nat)
    requires AdminDbManager.Unique(w.admins.rows)
    requires HasPermission(w.grants, caller, cfg.addAdminPermission) && |args| >= 3
    requires PlayerUtils.TryParseSteamId(args[0]) == PlayerUtils.Parsed(steamId)
    requires !w.admins.online
    ensures OnAddAdmin(w, cfg, caller, args, now) == (w, [Reply("addadmin_failed")])
  {
  }

  /** A name longer than the `name` column, or flags longer than the `flags`
      column, make the store fail: the sender is told and nothing is granted. */
  lemma AddAdminTooLong(w: World, cfg: Config, caller: Caller, args: seq<string>, now: int, steamId: nat)
    requires AdminDbManager.Unique(w.admins.rows)
    requires HasPermission(w.grants, caller, cfg.addAdminPermission) && |args| >= 3
    requires PlayerUtils.TryParseSteamId(args[0]) == PlayerUtils.Parsed(steamId)
    requires |args[1]| > AdminDbManager.NameWidth || |args[2]| > AdminDbManager.FlagsWidth
    ensures OnAddAdmin(w, cfg, caller, args, now) == (w, [Reply("addadmin_failed")])
  {
  }

  /** Removing a current admin on a reachable, consistent table leaves the
      player no admin, takes exactly the stored flag tokens from them and
      leaves every other grant alone; a player who is no admin is told so. */
  lemma RemoveAdminRevokes(w: World, cfg: Config, caller: Caller, args: seq<string>, now: int, later: int, steamId: nat)
    requires AdminDbManager.Valid(w.admins) && w.admins.online
    requires HasPermission(w.grants, caller, cfg.removeAdminPermission) && |args| >= 1
    requires PlayerUtils.TryParseSteamId(args[0]) == PlayerUtils.Parsed(steamId)
    ensures var (w', effects) := OnRemoveAdmin(w, cfg, caller, args, now);
            var existing := AdminDbManager.GetAdmin(w.admins, steamId, now).1;
            && (existing.None? ==> effects == [Reply("removeadmin_not_admin")] && w'.grants == w.grants)
            && (existing.Some? ==>
                  && effects[0] == Reply("removeadmin_success")
                  && AdminDbManager.GetAdmin(w'.admins, steamId, later).1.None?
                  && (forall g :: g in w'.grants <==>
                                  g in w.grants && !(g.0 == steamId && g.1 in FlagTokens(existing.value.flags))))
  {
    var (admins1, existing) := AdminDbManager.GetAdmin(w.admins, steamId, now);
    AdminDbManager.GetAdminPreservesValid(w.admins, steamId, now);
    AdminDbManager.RemoveAdminThenGetAdminNone(admins1, steamId, later);
    AdminDbManager.GetAdminHitHasRow(w.admins, steamId, now);
    if existing.Some? {
      assert AdminDbManager.RemoveAdmin(admins1, steamId).1;
    }
  }


  /** The list shows every unexpired admin once per row, in list order
      (highest immunity first, then by name), behind a header with the count. */
  lemma ListAdminsShowsLive(w: World, cfg: Config, caller: Caller, now: int)
    requires HasPermission(w.grants, caller, cfg.listAdminsPermission) && w.admins.online
    ensures var effects := OnListAdmins(w, cfg, caller, now);
            var live := AdminDbManager.GetAllAdmins(w.admins, now);
            && (live == [] <==> effects == [Reply("listadmins_none")])
            && (live != [] ==>
                  effects[0] == ReplyCount("listadmins_header", |live|) && |effects| == |live| + 1 &&
                  (forall a :: a in w.admins.rows && AdminDbManager.Live(a, now) ==> AdminEntry(a) in effects) &&
                  (forall i :: 1 <= i < |effects| ==>
                     effects[i].AdminEntry? && effects[i].admin in w.admins.rows &&
                     AdminDbManager.Live(effects[i].admin, now)) &&
                  AdminDbManager.Sorted(live))
  {
    var effects := OnListAdmins(w, cfg, caller, now);
    var live := AdminDbManager.GetAllAdmins(w.admins, now);
    if live != [] {
      var es := Entries(live);
      assert effects == [ReplyCount("listadmins_header", |live|)] + es;
      forall a | a in w.admins.rows && AdminDbManager.Live(a, now)
        ensures AdminEntry(a) in effects
      {
        EntryListed(live, a);
      }
      forall i | 1 <= i < |effects|
        ensures effects[i].AdminEntry? && effects[i].admin in w.admins.rows && AdminDbManager.Live(effects[i].admin, now)
      {
        assert effects[i] == es[i - 1];
        assert live[i - 1] in live;
      }
    }
  }

  /** Every listed admin has its line. */
  lemma EntryListed(admins: seq<AdminRecord>, a: AdminRecord)
    requires a in admins
    ensures AdminEntry(a) in Entries(admins)
  {
    var i :| 0 <= i < |admins| && admins[i] == a;
    assert Entries(admins)[i] == AdminEntry(a);
  }

}

=== FILE: admin_store.dfy ===
/**
 * `AdminDbManager`: the `t3_admins` table (one row per SteamID, the
 * `UNIQUE` constraint), a cache `steamId -> Admin` and a
 * `lastCacheUpdate` stamp with a five-minute lifetime. As in
 * `SanctionStore`, `online` stands for the database being reachable; a
 * statement that throws is caught and answered with false, null, an empty
 * list or nothing.
 */
module AdminDbManager {
  import opened Wrappers
  import opened Records
  import Text

  const CacheLifetime: int := 300

  datatype Store = Store(
    rows: seq<AdminRecord>,
    nextId: int,
    cache: map<nat, AdminRecord>,
    lastCacheUpdate: int,
    online: bool)

  predicate Fresh(st: Store, now: int) {
    now - st.lastCacheUpdate < CacheLifetime
  }

  /** The `UNIQUE` constraint on `steamid`. */
  predicate Unique(rows: seq<AdminRecord>) {
    forall i, j :: 0 <= i < j < |rows| ==> rows[i].steamId != rows[j].steamId
  }

  /** `WHERE [steamid = @SteamId AND] (expires_at IS NULL OR expires_at > UTC_TIMESTAMP())` */
  predicate Live(a: AdminRecord, now: int) {
    a.expiresAt.None? || a.expiresAt.value > now
  }

  /** A cached admin stands for `row`: the insert path caches an object
      without the row's id and stamped with the clock instead of the row's
      `created_at`. */
  predicate Mirrors(cached: AdminRecord, row: AdminRecord) {
    cached.(id := row.id, createdAt := row.createdAt) == row
  }

  ghost predicate Valid(st: Store) {
    && Unique(st.rows)
    && forall k :: k in st.cache ==>
         && st.cache[k].steamId == k
         && exists i :: 0 <= i < |st.rows| && Mirrors(st.cache[k], st.rows[i])
  }

  /** Position of the row of `steamId`, if any. */
  function Find(rows: seq<AdminRecord>, steamId: nat): (r: Option<nat>)
    ensures r.Some? ==> r.value < |rows| && rows[r.value].steamId == steamId
    ensures r.None? <==> forall i :: 0 <= i < |rows| ==> rows[i].steamId != steamId
  {
    if |rows| == 0 then None
    else if rows[0].steamId == steamId then Some(0)
    else
      match Find(rows[1..], steamId)
      case Some(i) => Some(i + 1)
      case None => None
  }

  /** The rows satisfying `keep`, in order; a table with unique keys stays so. */
  function Keep(rows: seq<AdminRecord>, keep: AdminRecord -> bool): (r: seq<AdminRecord>)
    ensures |r| <= |rows|
    ensures forall x :: x in r <==> x in rows && keep(x)
    ensures Unique(rows) ==> Unique(r)
  {
    if |rows| == 0 then []
    else
      var rest := Keep(rows[1..], keep);
      assert Unique(rows) ==> forall j :: 0 <= j < |rest| ==> rest[j].steamId != rows[0].steamId by {
        if Unique(rows) {
          forall j | 0 <= j < |rest| ensures rest[j].steamId != rows[0].steamId {
            assert rest[j] in rest;
            var k :| 0 <= k < |rows[1..]| && rows[1..][k] == rest[j];
            assert rows[k + 1] == rest[j];
          }
        }
      }
      if keep(rows[0]) then [rows[0]] + rest else rest
  }

  /** The rows `WHERE expires_at IS NULL OR expires_at > UTC_TIMESTAMP()`. */
  function LiveRows(rows: seq<AdminRecord>, now: int): (r: seq<AdminRecord>)
    ensures forall x :: x in r <==> x in rows && Live(x, now)
    ensures Unique(rows) ==> Unique(r)
  {
    Keep(rows, (a: AdminRecord) => Live(a, now))
  }

  /** The rows that a `DELETE ... WHERE steamid = @SteamId` leaves. */
  function WithoutKey(rows: seq<AdminRecord>, steamId: nat): (r: seq<AdminRecord>)
    ensures forall x :: x in r <==> x in rows && x.steamId != steamId
    ensures Unique(rows) ==> Unique(r)
  {
    Keep(rows, (a: AdminRecord) => a.steamId != steamId)
  }

  // ----- ordering of the admin list -----

  /** Byte-wise order on strings (a prefix comes first). */
  predicate LexLe(a: string, b: string) {
    |a| == 0 || (|b| > 0 && (a[0] < b[0] || (a[0] == b[0] && LexLe(a[1..], b[1..]))))
  }

  lemma {:induction false} LexLeTotal(a: string, b: string)
    ensures LexLe(a, b) || LexLe(b, a)
  {
    if |a| > 0 && |b| > 0 && a[0] == b[0] {
      LexLeTotal(a[1..], b[1..]);
    }
  }

  lemma {:induction false} LexLeTrans(a: string, b: string, c: string)
    requires LexLe(a, b) && LexLe(b, c)
    ensures LexLe(a, c)
  {
    if |a| > 0 && a[0] == b[0] && b[0] == c[0] {
      LexLeTrans(a[1..], b[1..], c[1..]);
    }
  }

  /** `ORDER BY immunity DESC, name ASC`, with the column's case-insensitive
      collation taken as ASCII folding. */
  predicate Before(a: AdminRecord, b: AdminRecord) {
    a.immunity > b.immunity || (a.immunity == b.immunity && LexLe(Text.Lower(a.name), Text.Lower(b.name)))
  }

  lemma BeforeTotal(a: AdminRecord, b: AdminRecord)
    ensures Before(a, b) || Before(b, a)
  {
    LexLeTotal(Text.Lower(a.name), Text.Lower(b.name));
  }

  lemma BeforeTrans(a: AdminRecord, b: AdminRecord, c: AdminRecord)
    requires Before(a, b) && Before(b, c)
    ensures Before(a, c)
  {
    if a.immunity == b.immunity == c.immunity {
      LexLeTrans(Text.Lower(a.name), Text.Lower(b.name), Text.Lower(c.name));
    }
  }

  predicate Sorted(xs: seq<AdminRecord>) {
    forall i, j :: 0 <= i < j < |xs| ==> Before(xs[i], xs[j])
  }

  /** Every element after the head of a sorted list comes after the head. */
  lemma SortedHead(xs: seq<AdminRecord>, y: AdminRecord)
    requires Sorted(xs) && |xs| > 0 && y in xs[1..]
    ensures Before(xs[0], y)
  {
    var k :| 0 <= k < |xs[1..]| && xs[1..][k] == y;
    assert xs[k + 1] == y;
  }

  /** A head that comes before everything in a sorted tail keeps it sorted. */
  lemma ConsSorted(h: AdminRecord, xs: seq<AdminRecord>)
    requires Sorted(xs)
    requires forall y :: y in multiset(xs) ==> Before(h, y)
    ensures Sorted([h] + xs)
  {
    forall i, j | 0 <= i < j < |[h] + xs| ensures Before(([h] + xs)[i], ([h] + xs)[j]) {
      if i == 0 {
        assert ([h] + xs)[j] == xs[j - 1];
        assert xs[j - 1] in multiset(xs);
      } else {
        assert ([h] + xs)[i] == xs[i - 1] && ([h] + xs)[j] == xs[j - 1];
      }
    }
  }

  /** Places `x` into a sorted list. */
  function Insert(x: AdminRecord, xs: seq<AdminRecord>): (r: seq<AdminRecord>)
    requires Sorted(xs)
    ensures Sorted(r)
    ensures multiset(r) == multiset(xs) + multiset{x}
  {
    if |xs| == 0 then [x]
    else if Before(x, xs[0]) then
      assert forall y :: y in multiset(xs) ==> Before(x, y) by {
        forall y | y in multiset(xs) ensures Before(x, y) {
          if y != xs[0] {
            assert xs == [xs[0]] + xs[1..];
            SortedHead(xs, y);
            BeforeTrans(x, xs[0], y);
          }
        }
      }
      ConsSorted(x, xs);
      [x] + xs
    else
      BeforeTotal(x, xs[0]);
      var rest := Insert(x, xs[1..]);
      assert xs == [xs[0]] + xs[1..];
      assert forall y :: y in multiset(rest) ==> Before(xs[0], y) by {
        forall y | y in multiset(rest) ensures Before(xs[0], y) {
          if y != x {
            assert y in multiset(xs[1..]);
            SortedHead(xs, y);
          }
        }
      }
      ConsSorted(xs[0], rest);
      [xs[0]] + rest
  }

  /** Sorts the admin list. */
  function Sort(xs: seq<AdminRecord>): (r: seq<AdminRecord>)
    ensures Sorted(r)
    ensures multiset(r) == multiset(xs)
  {
    if |xs| == 0 then []
    else
      assert xs == [xs[0]] + xs[1..];
      Insert(xs[0], Sort(xs[1..]))
  }

  // ----- the manager operations -----

  /** The widths of the text columns of `t3_admins`: `name VARCHAR(64)`,
      `flags VARCHAR(255)` and `added_by VARCHAR(64)`. */
  const NameWidth: nat := 64
  const FlagsWidth: nat := 255
  const AddedByWidth: nat := 64

  /** Whether the text of a grant fits its columns. In strict SQL mode a
      longer value makes the statement fail ("Data too long"). */
  predicate FitsColumns(name: string, flags: string, addedBy: Option<string>) {
    |name| <= NameWidth && |flags| <= FlagsWidth && (addedBy.Some? ==> |addedBy.value| <= AddedByWidth)
  }

  /** What `AddAdminAsync` promises. */
  ghost predicate AddOutcome(st: Store, steamId: nat, name: string, flags: string, immunity: int,
                             addedBy: Option<string>, addedBySteamId: Option<nat>, durationDays: Option<int>,
                             now: int, st': Store, ok: bool)
  {
    var e := ExpiryAfter(now, durationDays.GetOr(0) * SecondsPerDay);
    var grant := AdminRecord(0, steamId, name, flags, immunity, now,
                             if e.Until? then Some(e.at) else None, addedBy, addedBySteamId);
    && (ok <==> st.online && !e.OutOfRange? && FitsColumns(name, flags, addedBy))
    && (!ok ==> st' == st)
    && (ok ==>
          // the upsert: the player's row carries the new grant, nothing else changes
          && (exists i :: 0 <= i < |st'.rows| && st'.rows[i].steamId == steamId && Mirrors(grant, st'.rows[i]))
          && (forall a :: a in st.rows && a.steamId != steamId ==> a in st'.rows)
          && (forall a :: a in st'.rows && a.steamId != steamId ==> a in st.rows)
          && st'.cache == st.cache[steamId := grant]
          && st'.lastCacheUpdate == st.lastCacheUpdate)
  }

  /** The upsert of `AddAdminAsync` on the table alone. */
  function Upsert(rows: seq<AdminRecord>, nextId: int, grant: AdminRecord): (r: seq<AdminRecord>)
    requires Unique(rows)
    ensures Unique(r)
    ensures exists i :: 0 <= i < |r| && r[i].steamId == grant.steamId && Mirrors(grant, r[i])
    ensures forall a :: a in rows && a.steamId != grant.steamId ==> a in r
    ensures forall a :: a in r && a.steamId != grant.steamId ==> a in rows
  {
    match Find(rows, grant.steamId)
    case Some(i) =>
      var r := rows[i := grant.(id := rows[i].id, createdAt := rows[i].createdAt)];
      assert r[i].steamId == grant.steamId && Mirrors(grant, r[i]);
      assert forall a :: a in rows && a.steamId != grant.steamId ==> a in r by {
        forall a | a in rows && a.steamId != grant.steamId ensures a in r {
          var j :| 0 <= j < |rows| && rows[j] == a;
          assert r[j] == a;
        }
      }
      r
    case None =>
      var r := rows + [grant.(id := nextId)];
      assert r[|rows|].steamId == grant.steamId && Mirrors(grant, r[|rows|]);
      r
  }

  /** `AddAdminAsync`: an upsert on `steamid`. An existing row keeps its id
      and `created_at` and takes every other column from the call; otherwise
      a row is appended. A duration in days that is absent or not positive
      means permanent. The cache entry of the player is overwritten. A text
      too long for its column, like an expiry past the `TIMESTAMP` range,
      makes the statement fail, and the answer is false. */
  function AddAdmin(st: Store, steamId: nat, name: string, flags: string, immunity: int,
                    addedBy: Option<string>, addedBySteamId: Option<nat>, durationDays: Option<int>,
                    now: int): (r: (Store, bool))
    requires Unique(st.rows)
    ensures AddOutcome(st, steamId, name, flags, immunity, addedBy, addedBySteamId, durationDays, now, r.0, r.1)
    ensures Unique(r.0.rows) && r.0.online == st.online
  {
    var e := ExpiryAfter(now, durationDays.GetOr(0) * SecondsPerDay);
    if !st.online || e.OutOfRange? || !FitsColumns(name, flags, addedBy) then (st, false)
    else
      var grant := AdminRecord(0, steamId, name, flags, immunity, now,
                               if e.Until? then Some(e.at) else None, addedBy, addedBySteamId);
      var nextId' := if Find(st.rows, steamId).Some? then st.nextId else st.nextId + 1;
      (st.(rows := Upsert(st.rows, st.nextId, grant), nextId := nextId', cache := st.cache[steamId := grant]), true)
  }

  /** `RemoveAdminAsync`: deletes the player's row; the answer is whether a
      row went, and only then is the key evicted. */
  function RemoveAdmin(st: Store, steamId: nat): (r: (Store, bool))
    ensures r.1 <==> st.online && exists i :: 0 <= i < |st.rows| && st.rows[i].steamId == steamId
    ensures !st.online ==> r.0 == st
    ensures st.online ==>
              && (forall a :: a in r.0.rows <==> a in st.rows && a.steamId != steamId)
              && r.0.cache == (if r.1 then st.cache - {steamId} else st.cache)
              && r.0.lastCacheUpdate == st.lastCacheUpdate
    ensures Unique(st.rows) ==> Unique(r.0.rows)
    ensures r.0.online == st.online
  {
    if !st.online then (st, false)
    else
      var found := Find(st.rows, steamId).Some?;
      (st.(rows := WithoutKey(st.rows, steamId),
           cache := if found then st.cache - {steamId} else st.cache), found)
  }

  /** What `GetAdminAsync` promises. */
  ghost predicate GetOutcome(st: Store, steamId: nat, now: int, st': Store, r: Option<AdminRecord>)
  {
    && st'.rows == st.rows && st'.nextId == st.nextId && st'.online == st.online
    && (r.Some? ==> r.value.IsActive(now))
    && (steamId in st.cache && Fresh(st, now) ==>
          && st'.lastCacheUpdate == st.lastCacheUpdate
          && (r.Some? <==> st.cache[steamId].IsActive(now))
          && (r.Some? ==> r.value == st.cache[steamId] && st'.cache == st.cache)
          && (r.None? ==> st'.cache == st.cache - {steamId}))
    && (!(steamId in st.cache && Fresh(st, now)) && !st.online ==> st' == st && r.None?)
    && (!(steamId in st.cache && Fresh(st, now)) && st.online ==>
          && (r.Some? <==> exists i :: 0 <= i < |st.rows| && st.rows[i].steamId == steamId && Live(st.rows[i], now))
          && (r.Some? ==> r.value in st.rows && r.value.steamId == steamId && Live(r.value, now)
                          && st'.cache == st.cache[steamId := r.value] && st'.lastCacheUpdate == now)
          && (r.None? ==> st'.cache == st.cache - {steamId} && st'.lastCacheUpdate == st.lastCacheUpdate))
  }

  /** The row `LIMIT 1` picks. */
  function FirstLive(rows: seq<AdminRecord>, steamId: nat, now: int): (r: Option<AdminRecord>)
    ensures r.Some? ==> r.value in rows && r.value.steamId == steamId && Live(r.value, now)
    ensures r.None? <==> forall i :: 0 <= i < |rows| ==> !(rows[i].steamId == steamId && Live(rows[i], now))
  {
    if |rows| == 0 then None
    else if rows[0].steamId == steamId && Live(rows[0], now) then Some(rows[0])
    else FirstLive(rows[1..], steamId, now)
  }

  /** `GetAdminAsync`: within the lifetime a cached key is answered from the
      cache (an expired entry is evicted and null returned); otherwise the
      table is asked for the unexpired row, a hit is cached and refreshes the
      stamp, and a miss evicts the key. */
  function GetAdmin(st: Store, steamId: nat, now: int): (r: (Store, Option<AdminRecord>))
    ensures GetOutcome(st, steamId, now, r.0, r.1)
  {
    if steamId in st.cache && Fresh(st, now) then
      var cached := st.cache[steamId];
      if cached.IsExpired(now) then (st.(cache := st.cache - {steamId}), None)
      else (st, Some(cached))
    else if !st.online then (st, None)
    else
      match FirstLive(st.rows, steamId, now)
      case Some(a) => (st.(cache := st.cache[steamId := a], lastCacheUpdate := now), Some(a))
      case None => (st.(cache := st.cache - {steamId}), None)
  }

  /** `GetAllAdminsAsync`: every unexpired admin, highest immunity first and
      by name within one immunity; an empty list on a fault. */
  function GetAllAdmins(st: Store, now: int): (r: seq<AdminRecord>)
    ensures !st.online ==> r == []
    ensures st.online ==> forall a :: a in r <==> a in st.rows && Live(a, now)
    ensures st.online ==> multiset(r) == multiset(LiveRows(st.rows, now))
    ensures Sorted(r)
  {
    if !st.online then []
    else
      var r := Sort(LiveRows(st.rows, now));
      assert forall a :: a in r <==> a in multiset(LiveRows(st.rows, now));
      r
  }

  /** `CleanupExpiredAdminsAsync`: deletes the rows with `expires_at <= now`;
      the cache is cleared iff a row went. */
  function CleanupExpiredAdmins(st: Store, now: int): (st': Store)
    ensures !st.online ==> st' == st
    ensures st.online ==>
              && (forall a :: a in st'.rows <==> a in st.rows && Live(a, now))
              && st'.cache == (if exists i :: 0 <= i < |st.rows| && !Live(st.rows[i], now) then map[] else st.cache)
              && st'.lastCacheUpdate == st.lastCacheUpdate
    ensures Unique(st.rows) ==> Unique(st'.rows)
    ensures st'.online == st.online
  {
    if !st.online then st
    else
      var rows' := LiveRows(st.rows, now);
      var any := exists i :: 0 <= i < |st.rows| && !Live(st.rows[i], now);
      st.(rows := rows', cache := if any then map[] else st.cache)
  }

  function ClearCache(st: Store): (st': Store)
    ensures st'.cache == map[] && st'.rows == st.rows
  {
    st.(cache := map[])
  }

  // ----- the cache invariant -----

  lemma AddAdminPreservesValid(st: Store, steamId: nat, name: string, flags: string, immunity: int,
                               addedBy: Option<string>, addedBySteamId: Option<nat>, durationDays: Option<int>, now: int)
    requires Valid(st)
    ensures Valid(AddAdmin(st, steamId, name, flags, immunity, addedBy, addedBySteamId, durationDays, now).0)
  {
    var (st', ok) := AddAdmin(st, steamId, name, flags, immunity, addedBy, addedBySteamId, durationDays, now);
    if ok {
      forall k | k in st'.cache
        ensures exists i :: 0 <= i < |st'.rows| && Mirrors(st'.cache[k], st'.rows[i])
      {
        if k != steamId {
          var i :| 0 <= i < |st.rows| && Mirrors(st.cache[k], st.rows[i]);
          assert st.rows[i] in st'.rows;
        }
      }
    }
  }

  /** A mirrored row of another key survives the deletion of `steamId`. */
  lemma MirroredRowKept(rows: seq<AdminRecord>, rows': seq<AdminRecord>, cached: AdminRecord, row: AdminRecord, steamId: nat)
    requires forall a :: a in rows' <==> a in rows && a.steamId != steamId
    requires row in rows && Mirrors(cached, row) && row.steamId != steamId
    ensures exists i :: 0 <= i < |rows'| && Mirrors(cached, rows'[i])
  {
    assert row in rows';
    var i :| 0 <= i < |rows'| && rows'[i] == row;
  }

  lemma RemoveAdminPreservesValid(st: Store, steamId: nat)
    requires Valid(st)
    ensures Valid(RemoveAdmin(st, steamId).0)
  {
    var (st', ok) := RemoveAdmin(st, steamId);
    if st.online {
      if steamId in st.cache {
        var i :| 0 <= i < |st.rows| && Mirrors(st.cache[steamId], st.rows[i]);
        assert st.rows[i].steamId == steamId;
      }
      assert steamId !in st'.cache;
      forall k | k in st'.cache
        ensures exists i :: 0 <= i < |st'.rows| && Mirrors(st'.cache[k], st'.rows[i])
      {
        assert k in st.cache && st'.cache[k] == st.cache[k];
        var i :| 0 <= i < |st.rows| && Mirrors(st.cache[k], st.rows[i]);
        MirroredRowKept(st.rows, st'.rows, st.cache[k], st.rows[i], steamId);
      }
    }
  }

  lemma GetAdminPreservesValid(st: Store, steamId: nat, now: int)
    requires Valid(st)
    ensures Valid(GetAdmin(st, steamId, now).0)
  {
    var (st', r) := GetAdmin(st, steamId, now);
    if !(steamId in st.cache && Fresh(st, now)) && st.online && r.Some? {
      forall k | k in st'.cache
        ensures exists i :: 0 <= i < |st'.rows| && Mirrors(st'.cache[k], st'.rows[i])
      {
        if k == steamId {
          var i :| 0 <= i < |st.rows| && st.rows[i] == r.value;
          assert Mirrors(st'.cache[k], st'.rows[i]);
        }
      }
    }
  }

  lemma CleanupPreservesValid(st: Store, now: int)
    requires Valid(st)
    ensures Valid(CleanupExpiredAdmins(st, now))
  {
    var st' := CleanupExpiredAdmins(st, now);
    if st.online && st'.cache != map[] {
      forall k | k in st'.cache
        ensures exists i :: 0 <= i < |st'.rows| && Mirrors(st'.cache[k], st'.rows[i])
      {
        var i :| 0 <= i < |st.rows| && Mirrors(st.cache[k], st.rows[i]);
        assert st.rows[i] in st'.rows;
      }
    }
  }

  // ----- observable behaviour -----

  /** After a successful grant the player is an admin with exactly the
      granted name, flags and immunity for as long as the grant lasts
      (strictly before its expiry), whichever path `GetAdminAsync` takes. */
  lemma AddAdminThenGetAdmin(st: Store, steamId: nat, name: string, flags: string, immunity: int,
                             addedBy: Option<string>, addedBySteamId: Option<nat>, durationDays: Option<int>,
                             now: int, later: int)
    requires Valid(st)
    requires AddAdmin(st, steamId, name, flags, immunity, addedBy, addedBySteamId, durationDays, now).1
    requires now <= later
    requires durationDays.GetOr(0) <= 0 || later < now + durationDays.GetOr(0) * SecondsPerDay
    ensures var st' := AddAdmin(st, steamId, name, flags, immunity, addedBy, addedBySteamId, durationDays, now).0;
            var r := GetAdmin(st', steamId, later).1;
            r.Some? && r.value.name == name && r.value.flags == flags && r.value.immunity == immunity
  {
    var st' := AddAdmin(st, steamId, name, flags, immunity, addedBy, addedBySteamId, durationDays, now).0;
    if !Fresh(st', later) {
      var i :| 0 <= i < |st'.rows| && st'.rows[i].steamId == steamId && Mirrors(st'.cache[steamId], st'.rows[i]);
      assert Live(st'.rows[i], later);
      var a := FirstLive(st'.rows, steamId, later).value;
      var j :| 0 <= j < |st'.rows| && st'.rows[j] == a;
      assert j == i;
    }
  }

  /** A reported admin has a row in the table, so a deletion that follows
      finds it. */
  lemma GetAdminHitHasRow(st: Store, steamId: nat, now: int)
    requires Valid(st)
    ensures GetAdmin(st, steamId, now).1.Some? ==>
              exists i :: 0 <= i < |st.rows| && st.rows[i].steamId == steamId
  {
    var found := GetAdmin(st, steamId, now).1;
    if found.Some? {
      if steamId in st.cache && Fresh(st, now) {
        var i :| 0 <= i < |st.rows| && Mirrors(st.cache[steamId], st.rows[i]);
        assert st.rows[i].steamId == steamId;
      } else {
        var i :| 0 <= i < |st.rows| && st.rows[i] == found.value;
      }
    }
  }

  /** After a removal on a reachable store the player is no admin, from the
      cache or from the table. */
  lemma RemoveAdminThenGetAdminNone(st: Store, steamId: nat, later: int)
    requires Valid(st) && st.online
    ensures GetAdmin(RemoveAdmin(st, steamId).0, steamId, later).1 == None
  {
    var (st', ok) := RemoveAdmin(st, steamId);
    if steamId in st.cache {
      var i :| 0 <= i < |st.rows| && Mirrors(st.cache[steamId], st.rows[i]);
      assert st.rows[i].steamId == steamId;
    }
    assert steamId !in st'.cache;
    forall i | 0 <= i < |st'.rows| ensures st'.rows[i].steamId != steamId {
      assert st'.rows[i] in st'.rows;
    }
  }

  /** After a cleanup every remaining admin is unexpired, and a second cleanup
      at the same instant changes nothing. */
  lemma CleanupExpiredAdminsIdempotent(st: Store, now: int)
    requires st.online
    ensures forall a :: a in CleanupExpiredAdmins(st, now).rows ==> Live(a, now) && a.IsActive(now)
    ensures CleanupExpiredAdmins(CleanupExpiredAdmins(st, now), now).rows == CleanupExpiredAdmins(st, now).rows
  {
    var st' := CleanupExpiredAdmins(st, now);
    KeepAll(st'.rows, now);
  }

  lemma {:induction false} KeepAll(rows: seq<AdminRecord>, now: int)
    requires forall a :: a in rows ==> Live(a, now)
    ensures LiveRows(rows, now) == rows
  {
    assert forall i :: 0 <= i < |rows| ==> rows[i] in rows;
    KeepAllBy(rows, (a: AdminRecord) => Live(a, now));
  }

  lemma {:induction false} KeepAllBy(rows: seq<AdminRecord>, keep: AdminRecord -> bool)
    requires forall i :: 0 <= i < |rows| ==> keep(rows[i])
    ensures Keep(rows, keep) == rows
  {
    if |rows| > 0 {
      var tail := rows[1..];
      assert forall i :: 0 <= i < |tail| ==> tail[i] == rows[i + 1];
      KeepAllBy(tail, keep);
      assert keep(rows[0]);
      assert rows == [rows[0]] + tail;
    }
  }

}

=== FILE: ban_commands.dfy ===
/**
 * `!ban`, `!addban` and `!unban`. Each checks the sender's permission, its
 * arguments and the target, then (in the background task, run here to
 * completion at the same clock reading) asks the ban table whether an
 * active ban exists before inserting or revoking one.
 */
module BanCommands {
  import opened Wrappers
  import opened Records
  import Text
  import opened Session
  import SanctionStore
  import BanManager
  import PlayerUtils

  /** Seconds between the personal notice and the kick. */
  const KickDelay: int := 3

  /** The kick text of a ban. */
  function BanKickReason(reason: string): string {
    "Banned: " + reason
  }

  /** The personal notice and the delayed kick for the banned player, when
      they are connected. */
  function NoticeAndKick(ps: seq<Player>, steamId: nat, reason: string): (r: seq<Effect>)
    ensures OnlineBySteamId(ps, steamId).None? <==> r == []
    ensures OnlineBySteamId(ps, steamId).Some? ==>
              r == [Chat(OnlineBySteamId(ps, steamId).value.slot, "banned_personal"),
                    ScheduleKick(steamId, BanKickReason(reason), KickDelay)]
  {
    var online := OnlineBySteamId(ps, steamId);
    if online.None? then []
    else [Chat(online.value.slot, "banned_personal"), ScheduleKick(steamId, BanKickReason(reason), KickDelay)]
  }

  /** The background part shared by `!ban` and `!addban`: refuse a player
      already banned, otherwise insert the ban (its answer is not looked
      at) and hand back the new table. */
  function StoreBan(bans: SanctionStore.Store, caller: Caller, steamId: nat, duration: int, reason: string, now: int)
    : (r: (SanctionStore.Store, bool))
  {
    var (bans1, existing) := BanManager.GetActiveBan(bans, steamId, now);
    if existing.Some? then (bans1, false)
    else (BanManager.AddBan(bans1, ContextOf(caller), steamId, duration, reason, now).0, true)
  }

  /** `OnBanCommand`: `<target> <minutes> [reason...]` against a connected
      player. */
  function OnBan(w: World, cfg: Config, caller: Caller, args: seq<string>, now: int): (r: (World, seq<Effect>))
    ensures r.0.players == w.players && r.0.mutes == w.mutes && r.0.gags == w.gags
    ensures r.0.admins == w.admins && r.0.grants == w.grants
  {
    if !HasPermission(w.grants, caller, cfg.banPermission) then (w, [Reply("no_permission")])
    else if |args| < 2 then (w, [Reply("ban_usage")])
    else
      match PlayerUtils.FindPlayerByTarget(w.players, args[0])
      case Throws => (w, [Fault])
      case Done(None) => (w, [Reply("player_not_found")])
      case Done(Some(target)) =>
        var duration := ParseDuration(args[1]);
        if duration.None? then (w, [Reply("invalid_duration")])
        else
          var reason := ReasonFrom(args, 2);
          var (bans, added) := StoreBan(w.bans, caller, target.steamId, duration.value, reason, now);
          if !added then (w.(bans := bans), [Reply("player_already_banned")])
          else
            (w.(bans := bans),
             Broadcast(w.players, "banned_notification") + NoticeAndKick(w.players, target.steamId, reason))
  }

  /** `OnAddBanCommand`: `<steamid> <minutes> [reason...]`, for a player who
      need not be connected. */
  function OnAddBan(w: World, cfg: Config, caller: Caller, args: seq<string>, now: int): (r: (World, seq<Effect>))
    ensures r.0.players == w.players && r.0.mutes == w.mutes && r.0.gags == w.gags
    ensures r.0.admins == w.admins && r.0.grants == w.grants
  {
    if !HasPermission(w.grants, caller, cfg.banPermission) then (w, [Reply("no_permission")])
    else if |args| < 2 then (w, [Reply("addban_usage")])
    else
      match PlayerUtils.TryParseSteamId(args[0])
      case Overflow => (w, [Fault])
      case NotParsed => (w, [Reply("invalid_steamid")])
      case Parsed(steamId) =>
        var duration := ParseDuration(args[1]);
        if duration.None? then (w, [Reply("invalid_duration")])
        else
          var reason := ReasonFrom(args, 2);
          var (bans, added) := StoreBan(w.bans, caller, steamId, duration.value, reason, now);
          if !added then (w.(bans := bans), [Reply("steamid_already_banned")])
          else (w.(bans := bans), [Reply("addban_success")] + NoticeAndKick(w.players, steamId, reason))
  }

  /** `OnUnbanCommand` with the permission it checks: `<steamid> [reason...]`. */
  function Unban(w: World, permission: string, caller: Caller, args: seq<string>, now: int): (r: (World, seq<Effect>))
    ensures r.0.players == w.players && r.0.mutes == w.mutes && r.0.gags == w.gags
    ensures r.0.admins == w.admins && r.0.grants == w.grants
  {
    if !HasPermission(w.grants, caller, permission) then (w, [Reply("no_permission")])
    else if |args| < 1 then (w, [Reply("unban_usage")])
    else
      match PlayerUtils.TryParseSteamId(args[0])
      case Overflow => (w, [Fault])
      case NotParsed => (w, [Reply("invalid_steamid")])
      case Parsed(steamId) =>
        var reason := ReasonFrom(args, 1);
        var (bans1, existing) := BanManager.GetActiveBan(w.bans, steamId, now);
        if existing.None? then (w.(bans := bans1), [Reply("steamid_not_banned")])
        else
          var bans2 := BanManager.Unban(bans1, ContextOf(caller), steamId, reason, now).0;
          (w.(bans := bans2), [Reply("unbanned_success")])
  }

  /** `!unban` as written: it checks the ban permission, not the configured
      unban permission. */
  function OnUnbanAsWritten(w: World, cfg: Config, caller: Caller, args: seq<string>, now: int): (r: (World, seq<Effect>))
  {
    Unban(w, cfg.banPermission, caller, args, now)
  }

  /** `!unban` checking the unban permission the configuration defines for it. */
  function OnUnban(w: World, cfg: Config, caller: Caller, args: seq<string>, now: int): (r: (World, seq<Effect>))
  {
    Unban(w, cfg.unbanPermission, caller, args, now)
  }

  /** A sender without the permission gets one refusal and changes nothing,
      whatever the arguments. */
  lemma BanCommandsRequirePermission(w: World, cfg: Config, caller: Caller, args: seq<string>, now: int)
    ensures !HasPermission(w.grants, caller, cfg.banPermission) ==>
              OnBan(w, cfg, caller, args, now) == (w, [Reply("no_permission")]) &&
              OnAddBan(w, cfg, caller, args, now) == (w, [Reply("no_permission")])
    ensures !HasPermission(w.grants, caller, cfg.unbanPermission) ==>
              OnUnban(w, cfg, caller, args, now) == (w, [Reply("no_permission")])
    ensures caller.Console? ==> OnBan(w, cfg, caller, args, now) != (w, [Reply("no_permission")])
  {
  }

  /** With the default permissions, an admin holding only `admin.unban` is
      refused by the written `!unban` and let through by the corrected one. */
  lemma UnbanPermissionIgnored(w: World, p: Player, args: seq<string>, now: int)
    requires w.grants == {(p.steamId, "admin.unban")}
    ensures OnUnbanAsWritten(w, DefaultConfig, ByPlayer(p), args, now) == (w, [Reply("no_permission")])
    ensures OnUnban(w, DefaultConfig, ByPlayer(p), args, now).1 != [Reply("no_permission")]
  {
  }

  /** The insert behind both ban commands: a player without an active ban
      gets a new last row with the given target, reason and sender, which is
      reported active from then until it expires. */
  lemma StoreBanInserts(bans: SanctionStore.Store, caller: Caller, steamId: nat, duration: int, reason: string,
                        now: int, later: int)
    requires SanctionStore.GetActive(bans, steamId, now).1.None?
    requires bans.online && !ExpiryAfter(now, duration * SecondsPerMinute).OutOfRange?
    requires now <= later && (duration <= 0 || later < now + duration * SecondsPerMinute)
    ensures var (bans', added) := StoreBan(bans, caller, steamId, duration, reason, now);
            var row := bans'.rows[|bans.rows|];
            && added && |bans'.rows| == |bans.rows| + 1 && bans'.rows[..|bans.rows|] == bans.rows
            && row.steamId == steamId && row.reason == reason
            && row.adminName == AdminName(caller) && row.status == Active
            && SanctionStore.GetActive(bans', steamId, later).1.Some?
  {
    var bans1 := SanctionStore.GetActive(bans, steamId, now).0;
    SanctionStore.AddThenGetActiveSome(bans1, ContextOf(caller), steamId, duration, reason, now, later);
  }

  /** A ban of a connected player who has no active ban is stored as the
      new last row of the table with the sender, target and reason. */
  lemma BanStoresRow(w: World, cfg: Config, caller: Caller, args: seq<string>, now: int, later: int,
                     target: Player, duration: int)
    requires HasPermission(w.grants, caller, cfg.banPermission) && |args| >= 2
    requires PlayerUtils.FindPlayerByTarget(w.players, args[0]) == PlayerUtils.Done(Some(target))
    requires ParseDuration(args[1]) == Some(duration)
    requires SanctionStore.GetActive(w.bans, target.steamId, now).1.None?
    requires w.bans.online && !ExpiryAfter(now, duration * SecondsPerMinute).OutOfRange?
    requires now <= later && (duration == 0 || later < now + duration * SecondsPerMinute)
    ensures var w' := OnBan(w, cfg, caller, args, now).0;
            var row := w'.bans.rows[|w.bans.rows|];
            && |w'.bans.rows| == |w.bans.rows| + 1
            && row.steamId == target.steamId && row.reason == ReasonFrom(args, 2)
            && row.adminName == AdminName(caller) && row.status == Active
            && SanctionStore.GetActive(w'.bans, target.steamId, later).1.Some?
  {
    StoreBanInserts(w.bans, caller, target.steamId, duration, ReasonFrom(args, 2), now, later);
  }

  /** The effects of a `!ban` whose background insert went ahead. */
  lemma OnBanStored(w: World, cfg: Config, caller: Caller, args: seq<string>, now: int, target: Player)
    requires HasPermission(w.grants, caller, cfg.banPermission) && |args| >= 2
    requires PlayerUtils.FindPlayerByTarget(w.players, args[0]) == PlayerUtils.Done(Some(target))
    requires ParseDuration(args[1]).Some?
    requires StoreBan(w.bans, caller, target.steamId, ParseDuration(args[1]).value, ReasonFrom(args, 2), now).1
    ensures OnBan(w, cfg, caller, args, now).1 ==
              Broadcast(w.players, "banned_notification") + NoticeAndKick(w.players, target.steamId, ReasonFrom(args, 2))
  {
  }

  /** A connected target's kick closes the effects that end with its notice. */
  lemma KickAfter(pre: seq<Effect>, ps: seq<Player>, target: Player, reason: string)
    requires target in ps && target.isValid
    ensures ScheduleKick(target.steamId, BanKickReason(reason), KickDelay) in pre + NoticeAndKick(ps, target.steamId, reason)
  {
    var k := NoticeAndKick(ps, target.steamId, reason);
    assert OnlineBySteamId(ps, target.steamId).Some?;
    assert (pre + k)[|pre| + 1] == k[1];
  }

  /** Once a ban is stored, every valid player is told, and the target gets
      the notice and a kick three seconds later. */
  lemma BanAnnouncesAndKicks(w: World, cfg: Config, caller: Caller, args: seq<string>, now: int, target: Player)
    requires HasPermission(w.grants, caller, cfg.banPermission) && |args| >= 2
    requires PlayerUtils.FindPlayerByTarget(w.players, args[0]) == PlayerUtils.Done(Some(target))
    requires ParseDuration(args[1]).Some?
    requires SanctionStore.GetActive(w.bans, target.steamId, now).1.None?
    ensures var effects := OnBan(w, cfg, caller, args, now).1;
            && (forall q :: q in w.players && q.isValid ==> Chat(q.slot, "banned_notification") in effects)
            && ScheduleKick(target.steamId, BanKickReason(ReasonFrom(args, 2)), KickDelay) in effects
  {
    OnBanStored(w, cfg, caller, args, now, target);
    var b := Broadcast(w.players, "banned_notification");
    var k := NoticeAndKick(w.players, target.steamId, ReasonFrom(args, 2));
    forall q | q in w.players && q.isValid
      ensures Chat(q.slot, "banned_notification") in b + k
    {
      BroadcastReaches(w.players, "banned_notification", q);
    }
    KickAfter(b, w.players, target, ReasonFrom(args, 2));
  }

  /** A player who already has an active ban gets no second row: the
      sender is told, and nobody else hears anything. */
  lemma BanRefusesDuplicate(w: World, cfg: Config, caller: Caller, args: seq<string>, now: int, target: Player)
    requires HasPermission(w.grants, caller, cfg.banPermission) && |args| >= 2
    requires PlayerUtils.FindPlayerByTarget(w.players, args[0]) == PlayerUtils.Done(Some(target))
    requires ParseDuration(args[1]).Some?
    requires SanctionStore.GetActive(w.bans, target.steamId, now).1.Some?
    ensures var (w', effects) := OnBan(w, cfg, caller, args, now);
            w'.bans.rows == w.bans.rows && effects == [Reply("player_already_banned")]
  {
  }

  /** The insert's answer is not looked at: with the table unreachable (and
      nothing cached for the target) no row is written, yet the ban is
      announced to everyone and the target is kicked. */
  lemma BanAnnouncedWithoutRow(w: World, cfg: Config, caller: Caller, args: seq<string>, now: int, target: Player)
    requires HasPermission(w.grants, caller, cfg.banPermission) && |args| >= 2
    requires PlayerUtils.FindPlayerByTarget(w.players, args[0]) == PlayerUtils.Done(Some(target))
    requires ParseDuration(args[1]).Some?
    requires !w.bans.online && target.steamId !in w.bans.cache
    ensures var (w', effects) := OnBan(w, cfg, caller, args, now);
            w'.bans == w.bans &&
            ScheduleKick(target.steamId, BanKickReason(ReasonFrom(args, 2)), KickDelay) in effects
  {
    var bans1 := BanManager.GetActiveBan(w.bans, target.steamId, now).0;
    assert bans1 == w.bans;
    OnBanStored(w, cfg, caller, args, now, target);
    KickAfter(Broadcast(w.players, "banned_notification"), w.players, target, ReasonFrom(args, 2));
  }

  /** `!addban` of a SteamID with no active ban only confirms it to the
      sender when the player is not connected, and also kicks them when
      they are. */
  lemma AddBanNotifies(w: World, cfg: Config, caller: Caller, args: seq<string>, now: int, steamId: nat)
    requires HasPermission(w.grants, caller, cfg.banPermission) && |args| >= 2
    requires PlayerUtils.TryParseSteamId(args[0]) == PlayerUtils.Parsed(steamId)
    requires ParseDuration(args[1]).Some?
    requires SanctionStore.GetActive(w.bans, steamId, now).1.None?
    ensures var effects := OnAddBan(w, cfg, caller, args, now).1;
            && (OnlineBySteamId(w.players, steamId).None? ==> effects == [Reply("addban_success")])
            && (OnlineBySteamId(w.players, steamId).Some? ==>
                  ScheduleKick(steamId, BanKickReason(ReasonFrom(args, 2)), KickDelay) in effects)
  {
    var effects := OnAddBan(w, cfg, caller, args, now).1;
    var k := NoticeAndKick(w.players, steamId, ReasonFrom(args, 2));
    assert effects == [Reply("addban_success")] + k;
    if OnlineBySteamId(w.players, steamId).Some? {
      assert effects[2] == k[1];
    } else {
      assert k == [];
    }
  }

  /** `!addban` stores the ban of a SteamID that need not be connected. */
  lemma AddBanStoresRow(w: World, cfg: Config, caller: Caller, args: seq<string>, now: int, later: int,
                        steamId: nat, duration: int)
    requires HasPermission(w.grants, caller, cfg.banPermission) && |args| >= 2
    requires PlayerUtils.TryParseSteamId(args[0]) == PlayerUtils.Parsed(steamId)
    requires ParseDuration(args[1]) == Some(duration)
    requires SanctionStore.GetActive(w.bans, steamId, now).1.None?
    requires w.bans.online && !ExpiryAfter(now, duration * SecondsPerMinute).OutOfRange?
    requires now <= later && (duration == 0 || later < now + duration * SecondsPerMinute)
    ensures var w' := OnAddBan(w, cfg, caller, args, now).0;
            && w'.bans.rows[|w.bans.rows|].steamId == steamId
            && w'.bans.rows[|w.bans.rows|].reason == ReasonFrom(args, 2)
            && SanctionStore.GetActive(w'.bans, steamId, later).1.Some?
  {
    StoreBanInserts(w.bans, caller, steamId, duration, ReasonFrom(args, 2), now, later);
  }

  /** `!unban` of a banned SteamID on a reachable, consistent table leaves no
      active ban of it, now or later; a SteamID without an active ban is
      told so and no row changes. */
  lemma UnbanClears(w: World, cfg: Config, caller: Caller, args: seq<string>, now: int, later: int, steamId: nat)
    requires HasPermission(w.grants, caller, cfg.unbanPermission) && |args| >= 1
    requires PlayerUtils.TryParseSteamId(args[0]) == PlayerUtils.Parsed(steamId)
    requires SanctionStore.Valid(w.bans) && w.bans.online
    ensures var (w', effects) := OnUnban(w, cfg, caller, args, now);
            && (SanctionStore.GetActive(w.bans, steamId, now).1.Some? ==>
                  effects == [Reply("unbanned_success")] &&
                  SanctionStore.GetActive(w'.bans, steamId, later).1.None?)
            && (SanctionStore.GetActive(w.bans, steamId, now).1.None? ==>
                  effects == [Reply("steamid_not_banned")] && w'.bans.rows == w.bans.rows)
  {
    var bans1 := SanctionStore.GetActive(w.bans, steamId, now).0;
    SanctionStore.GetActivePreservesValid(w.bans, steamId, now);
    SanctionStore.RevokeThenGetActiveNone(bans1, ContextOf(caller), steamId, ReasonFrom(args, 1), now, later);
  }
}

=== FILE: ban_manager.dfy ===
/**
 * `BanManager`: the bans table `t3_bans` and its cache, as named entry points
 * over the shared sanction store. A revoked ban is stored with status
 * `'unbanned'`.
 */
module BanManager {
  import opened Wrappers
  import opened Records
  import opened SanctionStore
  import Text

  /** The revoked status of `t3_bans`. */
  const RevokedName: string := "unbanned"

  /** `AddBanAsync`: one `'active'` row is inserted, attributed to `ctx`; the
      cache invariant is kept. */
  function AddBan(st: Store, ctx: AdminContext, steamId: nat, durationMinutes: int, reason: string, now: int)
    : (r: (Store, bool))
    ensures AddOutcome(st, ctx, steamId, durationMinutes, reason, now, r.0, r.1)
    ensures r.1 ==> StatusColumn(r.0.rows[|st.rows|].status, RevokedName) == "active"
    ensures Valid(st) ==> Valid(r.0)
  {
    AddPreservesValid(st, ctx, steamId, durationMinutes, reason, now);
    Add(st, ctx, steamId, durationMinutes, reason, now)
  }

  /** `UnbanAsync`: every active row of the player is stored as `'unbanned'`
      with the revocation metadata; the cache invariant is kept. */
  function Unban(st: Store, ctx: AdminContext, steamId: nat, reason: string, now: int): (r: (Store, bool))
    ensures RevokeOutcome(st, ctx, steamId, reason, now, r.0, r.1)
    ensures st.online ==> forall i :: 0 <= i < |st.rows| && Revocable(st.rows[i], steamId) ==>
              StatusColumn(r.0.rows[i].status, RevokedName) == RevokedName
    ensures Valid(st) ==> Valid(r.0)
  {
    RevokePreservesValid(st, ctx, steamId, reason, now);
    Revoke(st, ctx, steamId, reason, now)
  }

  /** `GetActiveBanAsync`; the cache invariant is kept. */
  function GetActiveBan(st: Store, steamId: nat, now: int): (r: (Store, Option<Sanction>))
    ensures GetActiveOutcome(st, steamId, now, r.0, r.1)
    ensures Valid(st) ==> Valid(r.0)
  {
    GetActivePreservesValid(st, steamId, now);
    GetActive(st, steamId, now)
  }

  /** `GetActiveBanFromCache`: only a cached entry active at `now`. */
  function GetActiveBanFromCache(st: Store, steamId: nat, now: int): (r: Option<Sanction>)
    ensures r.Some? <==> steamId in st.cache && st.cache[steamId].IsActive(now)
    ensures r.Some? ==> r.value == st.cache[steamId]
  {
    GetActiveFromCache(st, steamId, now)
  }

  /** `GetTotalBansAsync`: every row of the player, 0 on a fault. */
  function GetTotalBans(st: Store, steamId: nat): (n: nat)
    ensures n == 0 <==> !st.online || forall i :: 0 <= i < |st.rows| ==> st.rows[i].steamId != steamId
  {
    GetTotal(st, steamId)
  }

  /** `CleanupExpiredBansAsync`: every due row is stored as `'expired'`; the cache
      invariant is kept. */
  function CleanupExpiredBans(st: Store, now: int): (st': Store)
    ensures CleanupOutcome(st, now, st')
    ensures st.online ==> forall i :: 0 <= i < |st.rows| && Due(st.rows[i], now) ==>
              StatusColumn(st'.rows[i].status, RevokedName) == "expired"
    ensures Valid(st) ==> Valid(st')
  {
    CleanupPreservesValid(st, now);
    CleanupExpired(st, now)
  }

  /** `ClearCache`: every later lookup goes to the table. */
  function ClearBanCache(st: Store): (st': Store)
    ensures st'.cache == map[] && st'.rows == st.rows
    ensures Valid(st')
  {
    ClearCache(st)
  }

  /** `'unbanned'` is read back as the revoked status, and the column codec
      round-trips every status. */
  lemma StatusColumnRoundTrip(s: Status, text: string)
    ensures ParseStatusColumn(StatusColumn(s, RevokedName), RevokedName) == Some(s)
    ensures ParseStatusColumn(text, RevokedName) == Some(s) <==>
            Text.EqualsIgnoreCase(text, StatusColumn(s, RevokedName))
  {
    assert Text.FoldChar(RevokedName[0]) != Text.FoldChar("active"[0]);
    assert Text.FoldChar(RevokedName[0]) != Text.FoldChar("expired"[0]);
    Records.StatusColumnRoundTrip(s, text, RevokedName);
  }
}

=== FILE: event_handlers.dfy ===
/**
 * The event hooks: the voice and chat gates with their five-second warning
 * cooldown, the join flow, round start and disconnect bookkeeping, and the
 * periodic expiry sweep. Every background task the hooks start is run to
 * completion in sequence at the same clock reading.
 */
module EventHandlers {
  import opened Wrappers
  import opened Records
  import Text
  import opened Session
  import SanctionStore
  import AdminDbManager
  import BanManager
  import MuteManager
  import GagManager

  /** Seconds between two warnings to the same player. */
  const WarnCooldown: int := 5

  /** `HookResult`. */
  datatype Hook = Continue | Stop

  /** `_muteWarnTimestamps` and `_gagWarnTimestamps`: slot -> time of the last warning. */
  datatype Warnings = Warnings(mute: map<int, int>, gag: map<int, int>)

  /** A warning is shown when the player has none on record or the last one
      is at least five seconds old. */
  predicate ShouldWarn(stamps: map<int, int>, slot: int, now: int) {
    slot !in stamps || now - stamps[slot] >= WarnCooldown
  }

  /** `(int)Math.Ceiling(seconds / 60.0)` for a non-negative duration. */
  function CeilMinutes(seconds: int): (m: int)
    requires seconds >= 0
    ensures 60 * (m - 1) < seconds <= 60 * m
  {
    (seconds + 59) / 60
  }

  /** `(int)(seconds / 60.0)` for a non-negative duration. */
  function TruncMinutes(seconds: int): (m: int)
    requires seconds >= 0
    ensures 60 * m <= seconds < 60 * (m + 1)
  {
    seconds / 60
  }

  /** The warning line for an active sanction: the permanent text, or the
      minutes left rounded up. */
  function WarningLine(s: Sanction, slot: int, permanentKey: string, minutesKey: string, now: int): Effect
    requires s.IsActive(now)
  {
    if s.IsPermanent() then Chat(slot, permanentKey)
    else ChatMinutes(slot, minutesKey, CeilMinutes(s.expiresAt.value - now))
  }

  /** The cooldown step shared by both gates: show the line and stamp `now`,
      or stay silent and leave the stamps alone. */
  function Warn(stamps: map<int, int>, slot: int, s: Sanction, permanentKey: string, minutesKey: string,
                now: int): (r: (map<int, int>, seq<Effect>))
    requires s.IsActive(now)
    ensures ShouldWarn(stamps, slot, now) ==>
              r.0 == stamps[slot := now] && r.1 == [WarningLine(s, slot, permanentKey, minutesKey, now)]
    ensures !ShouldWarn(stamps, slot, now) ==> r == (stamps, [])
  {
    if ShouldWarn(stamps, slot, now) then (stamps[slot := now], [WarningLine(s, slot, permanentKey, minutesKey, now)])
    else (stamps, [])
  }

  /** After a warning at `t`, the player is not warned again before `t + 5`
      and is warned again from `t + 5` on; other players' stamps are untouched. */
  lemma WarningCooldown(stamps: map<int, int>, slot: int, s: Sanction, s': Sanction, pk: string, mk: string,
                        t: int, t': int)
    requires s.IsActive(t) && s'.IsActive(t') && ShouldWarn(stamps, slot, t)
    ensures var (stamps1, e1) := Warn(stamps, slot, s, pk, mk, t);
            |e1| == 1 &&
            (forall k :: k in stamps && k != slot ==> k in stamps1 && stamps1[k] == stamps[k]) &&
            (t <= t' < t + WarnCooldown ==> Warn(stamps1, slot, s', pk, mk, t').1 == []) &&
            (t' >= t + WarnCooldown ==> |Warn(stamps1, slot, s', pk, mk, t').1| == 1)
  {
  }

  /** The minutes a timed warning shows cover the time left: never short of
      it and less than a minute over. */
  lemma WarningMinutesCoverRemaining(s: Sanction, slot: int, pk: string, mk: string, now: int)
    requires s.IsActive(now) && !s.IsPermanent()
    ensures var e := WarningLine(s, slot, pk, mk, now);
            e.ChatMinutes? && e.slot == slot &&
            60 * (e.minutes - 1) < s.TimeRemaining(now).value <= 60 * e.minutes
  {
  }

  // ----- voice -----

  /** `OnPlayerSpeak`: an active cached mute warns (with cooldown), forces the
      voice flag to muted and stops the voice; otherwise the voice continues
      and the mute is looked up in the store, which sets the voice flag to
      muted or normal. An invalid player is let through untouched. */
  function OnPlayerSpeak(w: World, h: Warnings, player: Option<Player>, now: int)
    : (r: (Hook, World, Warnings, seq<Effect>))
    ensures player.None? || !player.value.isValid ==> r == (Continue, w, h, [])
  {
    if player.None? || !player.value.isValid then (Continue, w, h, [])
    else
      var p := player.value;
      var cached := MuteManager.GetActiveMuteFromCache(w.mutes, p.steamId, now);
      if cached.Some? && cached.value.IsActive(now) then
        var (stamps, lines) := Warn(h.mute, p.slot, cached.value, "muted_warning_permanent",
                                    "muted_warning_minutes", now);
        (Stop, w, h.(mute := stamps), lines + [SetVoice(p.slot, Muted)])
      else
        var (mutes, found) := MuteManager.GetActiveMute(w.mutes, p.steamId, now);
        var flag := if found.Some? && found.value.IsActive(now) then Muted else Normal;
        (Continue, w.(mutes := mutes), h, [SetVoice(p.slot, flag)])
  }

  /** The voice gate: a valid player's voice is stopped exactly when the mute
      cache holds an active mute for them, and then the last effect mutes
      them. A voice that continues leaves the warning stamps alone and ends
      with the voice flag the store lookup decides. */
  lemma VoiceGate(w: World, h: Warnings, p: Player, now: int)
    requires p.isValid
    ensures var (hook, w', h', effects) := OnPlayerSpeak(w, h, Some(p), now);
            var cached := SanctionStore.GetActiveFromCache(w.mutes, p.steamId, now);
            (hook == Stop <==> cached.Some?) &&
            (hook == Stop ==> w' == w && |effects| >= 1 && effects[|effects| - 1] == SetVoice(p.slot, Muted)) &&
            (hook == Continue ==>
               h' == h && w'.mutes == SanctionStore.GetActive(w.mutes, p.steamId, now).0 &&
               effects == [SetVoice(p.slot,
                                    if SanctionStore.GetActive(w.mutes, p.steamId, now).1.Some? then Muted else Normal)])
  {
  }

  // ----- chat -----

  /** The command word of a chat line that starts with `!` or `/`: the first
      space-separated token after the prefix, if it is not blank. */
  function CommandName(text: string): Option<string> {
    if Text.IsNullOrWhiteSpace(text) || !(Text.StartsWith(text, "!") || Text.StartsWith(text, "/")) then None
    else
      var trimmed := Text.Trim(text);
      var withoutPrefix := if |trimmed| > 1 then trimmed[1..] else [];
      var tokens := Text.SplitRemoveEmpty(withoutPrefix, ' ');
      if |tokens| == 0 || Text.IsNullOrWhiteSpace(tokens[0]) then None else Some(tokens[0])
  }

  /** The configured admin-chat aliases: asay, say, psay, csay and hsay. */
  function ChatAliases(cfg: Config): seq<string> {
    cfg.asay + cfg.say + cfg.psay + cfg.csay + cfg.hsay
  }

  /** The chat line invokes an admin-chat command. */
  predicate IsAdminChatCommand(cfg: Config, text: string) {
    var name := CommandName(text);
    name.Some? && exists a :: a in ChatAliases(cfg) && Text.EqualsIgnoreCase(a, name.value)
  }

  /** The gag check of `OnClientChat` and `CheckGag`: an active cached gag
      warns with cooldown and blocks; otherwise the gag is looked up in the
      store for next time and the message passes. */
  function GagGate(w: World, h: Warnings, p: Player, permanentKey: string, minutesKey: string, now: int)
    : (r: (bool, World, Warnings, seq<Effect>))
  {
    var cached := GagManager.GetActiveGagFromCache(w.gags, p.steamId, now);
    if cached.Some? && cached.value.IsActive(now) then
      var (stamps, lines) := Warn(h.gag, p.slot, cached.value, permanentKey, minutesKey, now);
      (true, w, h.(gag := stamps), lines)
    else
      (false, w.(gags := GagManager.GetActiveGag(w.gags, p.steamId, now).0), h, [])
  }

  /** `CheckGag`: true when the message is blocked. */
  function CheckGag(w: World, h: Warnings, p: Player, now: int): (r: (bool, World, Warnings, seq<Effect>))
    ensures r.0 <==> SanctionStore.GetActiveFromCache(w.gags, p.steamId, now).Some?
    ensures !r.0 ==> r.2 == h && r.3 == [] && r.1 == w.(gags := SanctionStore.GetActive(w.gags, p.steamId, now).0)
  {
    GagGate(w, h, p, "gagged_warning_permanent", "gagged_warning_minutes", now)
  }

  /** `OnClientChat`: an admin-chat command is stopped before any gag check;
      any other line from a valid player goes through the gag gate. */
  function OnClientChat(w: World, h: Warnings, cfg: Config, player: Option<Player>, text: string, now: int)
    : (r: (Hook, World, Warnings, seq<Effect>))
    ensures player.None? || !player.value.isValid ==> r == (Continue, w, h, [])
  {
    if player.None? || !player.value.isValid then (Continue, w, h, [])
    else if IsAdminChatCommand(cfg, text) then (Stop, w, h, [])
    else
      var (blocked, w', h', lines) := GagGate(w, h, player.value, "gagged_chat_warning_permanent",
                                              "gagged_chat_warning_minutes", now);
      (if blocked then Stop else Continue, w', h', lines)
  }

  /** The chat gate: a valid player's ordinary message is blocked exactly when
      the gag cache holds an active gag for them; a message that passes
      leaves the warnings alone and refreshes the gag cache from the store. */
  lemma ChatGate(w: World, h: Warnings, cfg: Config, p: Player, text: string, now: int)
    requires p.isValid && !IsAdminChatCommand(cfg, text)
    ensures var (hook, w', h', effects) := OnClientChat(w, h, cfg, Some(p), text, now);
            (hook == Stop <==> SanctionStore.GetActiveFromCache(w.gags, p.steamId, now).Some?) &&
            (hook == Continue ==>
               h' == h && effects == [] && w' == w.(gags := SanctionStore.GetActive(w.gags, p.steamId, now).0))
  {
  }

  /** An admin-chat command is stopped whatever the gag state, with no
      lookup and no warning. */
  lemma ChatBypass(w: World, h: Warnings, cfg: Config, p: Player, text: string, now: int)
    requires p.isValid && IsAdminChatCommand(cfg, text)
    ensures OnClientChat(w, h, cfg, Some(p), text, now) == (Stop, w, h, [])
  {
  }

  /** `!alias` or `/alias`, in any case, is an admin-chat command for every
      configured alias that is one token. */
  lemma AliasIsAdminChatCommand(cfg: Config, alias: string, typed: string, prefix: char)
    requires alias in ChatAliases(cfg) && Text.EqualsIgnoreCase(alias, typed)
    requires prefix == '!' || prefix == '/'
    requires |typed| > 0 && ' ' !in typed && !Text.IsWhiteSpace(typed[|typed| - 1])
    ensures IsAdminChatCommand(cfg, [prefix] + typed)
  {
    var text := [prefix] + typed;
    assert !Text.IsWhiteSpace(text[0]);
    assert Text.StartsWith(text, [prefix]);
    assert Text.TrimStartBy(text, Text.IsWhiteSpace) == text;
    assert text[|text| - 1] == typed[|typed| - 1];
    assert Text.TrimEndBy(text, Text.IsWhiteSpace) == text;
    assert text[1..] == typed;
    assert Text.Fields(typed, ' ') == [typed];
    assert Text.NonEmpty([typed]) == [typed];
    assert !Text.IsNullOrWhiteSpace(typed);
    assert CommandName(text) == Some(typed);
  }

  // ----- round start and disconnect -----

  /** `OnRoundStart`: both warning maps are emptied. */
  function OnRoundStart(h: Warnings): (h': Warnings)
    ensures forall slot, now :: ShouldWarn(h'.mute, slot, now) && ShouldWarn(h'.gag, slot, now)
  {
    Warnings(map[], map[])
  }

  /** `OnClientDisconnected`: only the leaving slot's stamps are dropped. */
  function OnClientDisconnected(h: Warnings, slot: int): (h': Warnings)
    ensures slot !in h'.mute && slot !in h'.gag
    ensures forall k :: k != slot ==> (k in h'.mute <==> k in h.mute) && (k in h'.gag <==> k in h.gag)
    ensures forall k :: k in h'.mute ==> h'.mute[k] == h.mute[k]
    ensures forall k :: k in h'.gag ==> h'.gag[k] == h.gag[k]
  {
    Warnings(h.mute - {slot}, h.gag - {slot})
  }

  // ----- joining -----

  /** The effects and store lookups of `SendJoinPunishmentSummaryAsync`:
      the three totals, the three active lookups (which update the caches),
      and one summary line to every valid human holding the list-players
      permission. */
  function SendJoinSummary(w: World, cfg: Config, steamId: nat, now: int): (r: (World, seq<Effect>))
    ensures r.0.players == w.players && r.0.grants == w.grants && r.0.admins == w.admins
    ensures r.0.bans.rows == w.bans.rows && r.0.mutes.rows == w.mutes.rows && r.0.gags.rows == w.gags.rows
  {
    var bans := SanctionStore.GetTotal(w.bans, steamId);
    var mutes := SanctionStore.GetTotal(w.mutes, steamId);
    var gags := SanctionStore.GetTotal(w.gags, steamId);
    var (bs, ban) := BanManager.GetActiveBan(w.bans, steamId, now);
    var (ms, mute) := MuteManager.GetActiveMute(w.mutes, steamId, now);
    var (gs, gag) := GagManager.GetActiveGag(w.gags, steamId, now);
    var recipients := Filter(w.players, (q: Player) => q.isValid && !q.isBot &&
                                                      (q.steamId, cfg.listPlayersPermission) in w.grants);
    (w.(bans := bs, mutes := ms, gags := gs),
     SummaryLines(recipients, steamId, bans, mutes, gags,
                  ban.Some? && ban.value.IsActive(now), mute.Some? && mute.value.IsActive(now),
                  gag.Some? && gag.value.IsActive(now)))
  }

  function SummaryLines(recipients: seq<Player>, steamId: nat, bans: nat, mutes: nat, gags: nat,
                        activeBan: bool, activeMute: bool, activeGag: bool): (r: seq<Effect>)
    ensures |r| == |recipients|
    ensures forall i :: 0 <= i < |r| ==>
              r[i] == JoinSummary(recipients[i].slot, steamId, bans, mutes, gags, activeBan, activeMute, activeGag)
  {
    if |recipients| == 0 then []
    else [JoinSummary(recipients[0].slot, steamId, bans, mutes, gags, activeBan, activeMute, activeGag)]
         + SummaryLines(recipients[1..], steamId, bans, mutes, gags, activeBan, activeMute, activeGag)
  }

  /** The kick line of a banned player: permanent, or the whole minutes left. */
  function BanKick(ban: Sanction, slot: int, now: int): Effect
    requires ban.IsActive(now)
  {
    if ban.IsPermanent() then Kick(slot, "ban_kick_reason_permanent", None, ban.reason)
    else Kick(slot, "ban_kick_reason_minutes", Some(TruncMinutes(ban.expiresAt.value - now)), ban.reason)
  }

  /** `OnClientSteamAuthorize`: expired bans are cleaned up first; an active
      ban kicks the player and ends the flow; otherwise an active mute mutes
      the voice, an active admin's flags are granted, and the join summary is
      sent. */
  function OnClientSteamAuthorize(w: World, cfg: Config, player: Option<Player>, now: int): (r: (World, seq<Effect>))
    ensures player.None? || !player.value.isValid ==> r == (w, [])
    ensures r.0.players == w.players
  {
    if player.None? || !player.value.isValid then (w, [])
    else
      var p := player.value;
      var bans := BanManager.CleanupExpiredBans(w.bans, now);
      var (bans', ban) := BanManager.GetActiveBan(bans, p.steamId, now);
      if ban.Some? && ban.value.IsActive(now) then
        (w.(bans := bans'), [BanKick(ban.value, p.slot, now)])
      else
        var (mutes, mute) := MuteManager.GetActiveMute(w.mutes, p.steamId, now);
        var voice := if mute.Some? && mute.value.IsActive(now) then [SetVoice(p.slot, Muted)] else [];
        var (admins, admin) := AdminDbManager.GetAdmin(w.admins, p.steamId, now);
        var grants := if admin.Some? && admin.value.IsActive(now)
                      then GrantAll(w.grants, p.steamId, FlagTokens(admin.value.flags)) else w.grants;
        var (w', summary) := SendJoinSummary(w.(bans := bans', mutes := mutes, admins := admins, grants := grants),
                                         cfg, p.steamId, now);
        (w', voice + summary)
  }

  /** A ban found after the cleanup short-circuits the join: one kick, and
      no mute, admin or summary step runs. */
  lemma JoinBanShortCircuits(w: World, cfg: Config, p: Player, now: int)
    requires p.isValid
    requires var bans := SanctionStore.CleanupExpired(w.bans, now);
             SanctionStore.GetActive(bans, p.steamId, now).1.Some?
    ensures var (w', effects) := OnClientSteamAuthorize(w, cfg, Some(p), now);
            |effects| == 1 && effects[0].Kick? && effects[0].slot == p.slot &&
            w'.mutes == w.mutes && w'.gags == w.gags && w'.admins == w.admins && w'.grants == w.grants
  {
  }

  /** Without a ban, an active mute mutes the joining player's voice first,
      and an active admin record grants exactly its trimmed flag tokens on top
      of the existing grants. */
  lemma JoinAppliesMuteAndFlags(w: World, cfg: Config, p: Player, now: int)
    requires p.isValid
    requires var bans := SanctionStore.CleanupExpired(w.bans, now);
             SanctionStore.GetActive(bans, p.steamId, now).1.None?
    ensures var (w', effects) := OnClientSteamAuthorize(w, cfg, Some(p), now);
            var mute := SanctionStore.GetActive(w.mutes, p.steamId, now).1;
            var admin := AdminDbManager.GetAdmin(w.admins, p.steamId, now).1;
            (mute.Some? <==> |effects| > 0 && effects[0] == SetVoice(p.slot, Muted)) &&
            (admin.Some? ==> forall t :: t in FlagTokens(admin.value.flags) ==> (p.steamId, t) in w'.grants) &&
            (forall g :: g in w'.grants <==>
                         g in w.grants || (admin.Some? && g.0 == p.steamId && g.1 in FlagTokens(admin.value.flags)))
  {
    var (w', effects) := OnClientSteamAuthorize(w, cfg, Some(p), now);
    var bans := SanctionStore.CleanupExpired(w.bans, now);
    var bans' := SanctionStore.GetActive(bans, p.steamId, now).0;
    var (mutes, mute) := SanctionStore.GetActive(w.mutes, p.steamId, now);
    var (admins, admin) := AdminDbManager.GetAdmin(w.admins, p.steamId, now);
    var grants := if admin.Some? && admin.value.IsActive(now)
                  then GrantAll(w.grants, p.steamId, FlagTokens(admin.value.flags)) else w.grants;
    var (w2, summary) := SendJoinSummary(w.(bans := bans', mutes := mutes, admins := admins, grants := grants),
                                     cfg, p.steamId, now);
    assert w'.grants == grants;
    var voice := if mute.Some? && mute.value.IsActive(now) then [SetVoice(p.slot, Muted)] else [];
    assert effects == voice + summary;
    if mute.None? && |effects| > 0 {
      assert effects[0] == summary[0];
      assert summary[0].JoinSummary?;
    }
  }

  /** The join summary goes to exactly the valid human players holding the
      list-players permission once the joining admin's flags are granted. */
  lemma JoinSummaryRecipients(w: World, cfg: Config, p: Player, now: int)
    requires p.isValid
    requires var bans := SanctionStore.CleanupExpired(w.bans, now);
             SanctionStore.GetActive(bans, p.steamId, now).1.None?
    ensures var (w', effects) := OnClientSteamAuthorize(w, cfg, Some(p), now);
            forall q :: q in w.players ==>
              (q.isValid && !q.isBot && (q.steamId, cfg.listPlayersPermission) in w'.grants ==>
               exists e :: e in effects && e.JoinSummary? && e.recipient == q.slot && e.subject == p.steamId)
    ensures var (w', effects) := OnClientSteamAuthorize(w, cfg, Some(p), now);
            forall e :: e in effects && e.JoinSummary? ==>
              exists q :: q in w.players && q.slot == e.recipient && q.isValid && !q.isBot &&
                          (q.steamId, cfg.listPlayersPermission) in w'.grants
  {
    var (w', effects) := OnClientSteamAuthorize(w, cfg, Some(p), now);
    var bans := SanctionStore.CleanupExpired(w.bans, now);
    var bans' := SanctionStore.GetActive(bans, p.steamId, now).0;
    var (mutes, mute) := SanctionStore.GetActive(w.mutes, p.steamId, now);
    var (admins, admin) := AdminDbManager.GetAdmin(w.admins, p.steamId, now);
    var grants := if admin.Some? && admin.value.IsActive(now)
                  then GrantAll(w.grants, p.steamId, FlagTokens(admin.value.flags)) else w.grants;
    var w1 := w.(bans := bans', mutes := mutes, admins := admins, grants := grants);
    var (w2, summary) := SendJoinSummary(w1, cfg, p.steamId, now);
    var voice := if mute.Some? && mute.value.IsActive(now) then [SetVoice(p.slot, Muted)] else [];
    assert effects == voice + summary && w'.grants == grants;
    forall q | q in w.players && q.isValid && !q.isBot && (q.steamId, cfg.listPlayersPermission) in w'.grants
      ensures exists e :: e in effects && e.JoinSummary? && e.recipient == q.slot && e.subject == p.steamId
    {
      var e := SummaryReaches(w1, cfg, p.steamId, now, q);
      assert e in voice + summary;
    }
    SummaryOnlyHolders(w1, cfg, p.steamId, now);
    forall e | e in effects && e.JoinSummary?
      ensures e in summary
    {
    }
  }

  /** Every summary line goes to a valid human holding the list-players
      permission. */
  lemma SummaryOnlyHolders(w: World, cfg: Config, steamId: nat, now: int)
    ensures var summary := SendJoinSummary(w, cfg, steamId, now).1;
            forall e :: e in summary ==>
              exists q :: q in w.players && q.slot == e.recipient && q.isValid && !q.isBot &&
                          (q.steamId, cfg.listPlayersPermission) in w.grants
  {
    var recipients := Filter(w.players, (x: Player) => x.isValid && !x.isBot &&
                                                      (x.steamId, cfg.listPlayersPermission) in w.grants);
    var summary := SendJoinSummary(w, cfg, steamId, now).1;
    forall e | e in summary
      ensures exists q :: q in w.players && q.slot == e.recipient && q.isValid && !q.isBot &&
                          (q.steamId, cfg.listPlayersPermission) in w.grants
    {
      var i :| 0 <= i < |summary| && summary[i] == e;
      assert recipients[i] in recipients;
    }
  }

  /** Every valid human holding the list-players permission gets a summary
      line about the joining player. */
  lemma SummaryReaches(w: World, cfg: Config, steamId: nat, now: int, q: Player) returns (e: Effect)
    requires q in w.players && q.isValid && !q.isBot && (q.steamId, cfg.listPlayersPermission) in w.grants
    ensures e in SendJoinSummary(w, cfg, steamId, now).1
    ensures e.JoinSummary? && e.recipient == q.slot && e.subject == steamId
  {
    var recipients := Filter(w.players, (x: Player) => x.isValid && !x.isBot &&
                                                      (x.steamId, cfg.listPlayersPermission) in w.grants);
    var summary := SendJoinSummary(w, cfg, steamId, now).1;
    assert q in recipients;
    var i :| 0 <= i < |recipients| && recipients[i] == q;
    e := summary[i];
  }


  // ----- the expiry sweep -----

  /** The mute and gag caches and warning stamps a sweep walks over. */
  datatype SweepState = SweepState(mutes: SanctionStore.Store, gags: SanctionStore.Store, warnings: Warnings)

  /** The mute half of one player's step as written: the entry comes from
      `GetActiveMuteFromCache`, and an expired one would notify the player,
      restore the voice flag, clear the whole mute cache and drop the stamp. */
  function ExpireMuteAsWritten(p: Player, s: SweepState, now: int): (r: (SweepState, seq<Effect>))
  {
    var cached := MuteManager.GetActiveMuteFromCache(s.mutes, p.steamId, now);
    if cached.Some? && cached.value.IsExpired(now) then
      (s.(mutes := SanctionStore.ClearCache(s.mutes),
          warnings := s.warnings.(mute := s.warnings.mute - {p.slot})),
       [Chat(p.slot, "mute_expired"), SetVoice(p.slot, Normal)])
    else (s, [])
  }

  /** The gag half of one player's step as written. */
  function ExpireGagAsWritten(p: Player, s: SweepState, now: int): (r: (SweepState, seq<Effect>))
  {
    var cached := GagManager.GetActiveGagFromCache(s.gags, p.steamId, now);
    if cached.Some? && cached.value.IsExpired(now) then
      (s.(gags := SanctionStore.ClearCache(s.gags),
          warnings := s.warnings.(gag := s.warnings.gag - {p.slot})),
       [Chat(p.slot, "gag_expired")])
    else (s, [])
  }

  /** The per-player loop of `CheckExpiredPunishments` as written. */
  function SweepPlayersAsWritten(ps: seq<Player>, s: SweepState, now: int): (r: (SweepState, seq<Effect>))
  {
    if |ps| == 0 then (s, [])
    else
      var (s1, e1) := ExpireMuteAsWritten(ps[0], s, now);
      var (s2, e2) := ExpireGagAsWritten(ps[0], s1, now);
      var (s3, e3) := SweepPlayersAsWritten(ps[1..], s2, now);
      (s3, e1 + e2 + e3)
  }

  /** `CheckExpiredPunishments` as written: the per-player loop over valid
      players, then the background ban, mute and gag cleanups. */
  function SweepAsWritten(w: World, h: Warnings, now: int): (r: (World, Warnings, seq<Effect>))
  {
    var (s, effects) := SweepPlayersAsWritten(ValidPlayers(w.players), SweepState(w.mutes, w.gags, h), now);
    (w.(bans := BanManager.CleanupExpiredBans(w.bans, now),
        mutes := MuteManager.UpdateExpiredMutes(s.mutes, now),
        gags := GagManager.CleanupExpiredGags(s.gags, now)),
     s.warnings, effects)
  }

  /** An entry the cache lookup returns is active, so never expired: the
      expiry branch of the written step cannot be taken. */
  lemma ExpireAsWrittenIsSilent(p: Player, s: SweepState, now: int)
    ensures ExpireMuteAsWritten(p, s, now) == (s, [])
    ensures ExpireGagAsWritten(p, s, now) == (s, [])
  {
    var m := MuteManager.GetActiveMuteFromCache(s.mutes, p.steamId, now);
    if m.Some? {
      assert m.value.IsActive(now);
    }
    var g := GagManager.GetActiveGagFromCache(s.gags, p.steamId, now);
    if g.Some? {
      assert g.value.IsActive(now);
    }
  }

  /** The expiry branch of the written loop is dead: no player is ever told
      that a mute or gag ran out, and no voice flag or warning stamp changes. */
  lemma {:induction false} SweepPlayersAsWrittenIsSilent(ps: seq<Player>, s: SweepState, now: int)
    ensures SweepPlayersAsWritten(ps, s, now) == (s, [])
  {
    if |ps| > 0 {
      ExpireAsWrittenIsSilent(ps[0], s, now);
      SweepPlayersAsWrittenIsSilent(ps[1..], s, now);
      var none: seq<Effect> := [];
      assert none + none + none == none;
      assert SweepPlayersAsWritten(ps, s, now) == (s, none + none + none);
    }
  }

  /** So the written sweep only runs the three table cleanups; it never
      touches the admin table. */
  lemma SweepAsWrittenOnlyCleansTables(w: World, h: Warnings, now: int)
    ensures SweepAsWritten(w, h, now) ==
            (w.(bans := SanctionStore.CleanupExpired(w.bans, now),
                mutes := SanctionStore.CleanupExpired(w.mutes, now),
                gags := SanctionStore.CleanupExpired(w.gags, now)), h, [])
  {
    SweepPlayersAsWrittenIsSilent(ValidPlayers(w.players), SweepState(w.mutes, w.gags, h), now);
  }

  /** A concrete case: a connected player whose cached mute and gag ran out a
      minute ago is not told by the written loop, and is told by the
      corrected one. */
  lemma SweepAsWrittenMissesExpiredMute()
    ensures var p := Player(1, 7, "p", 2, true, 100, false, true);
            var m := Sanction(1, 7, "a", 0, "r", 0, Some(60), Active, None, None, None, None);
            var mutes := SanctionStore.Store([m], 2, map[7 := m], 0, true);
            var s := SweepState(mutes, mutes, Warnings(map[], map[]));
            mutes.cache[7].IsExpired(120) &&
            SweepPlayersAsWritten([p], s, 120).1 == [] &&
            SweepPlayersCorrected([p], s, 120).1 == [Chat(1, "mute_expired"), SetVoice(1, Normal), Chat(1, "gag_expired")]
  {
    var p := Player(1, 7, "p", 2, true, 100, false, true);
    var m := Sanction(1, 7, "a", 0, "r", 0, Some(60), Active, None, None, None, None);
    var mutes := SanctionStore.Store([m], 2, map[7 := m], 0, true);
    var s := SweepState(mutes, mutes, Warnings(map[], map[]));
    SweepPlayersAsWrittenIsSilent([p], s, 120);
    assert [p][1..] == [];
  }

  /** The only changes one corrected step makes to a cache: at most the
      player's own key is evicted, the other entries are kept as they are. */
  predicate EvictsAtMost(before: SanctionStore.Store, after: SanctionStore.Store, key: nat) {
    after == before.(cache := after.cache) &&
    after.cache.Keys <= before.cache.Keys && before.cache.Keys - after.cache.Keys <= {key} &&
    forall k :: k in after.cache ==> after.cache[k] == before.cache[k]
  }

  /** The mute half of one player's step as intended: it reads the cached
      entry itself, and an expired one notifies the player, restores the
      voice flag, evicts only that entry and drops the warning stamp. Evicting
      one entry instead of the source's `ClearCache()` is part of the fix:
      with the whole cache cleared, the players after the first expired one
      are never told (`ClearCacheTellsAtMostOne`). */
  function ExpireMute(p: Player, s: SweepState, now: int): (r: (SweepState, seq<Effect>))
    ensures r.0.gags == s.gags && EvictsAtMost(s.mutes, r.0.mutes, p.steamId)
    ensures p.steamId in r.0.mutes.cache ==> !r.0.mutes.cache[p.steamId].IsExpired(now)
    ensures p.steamId in s.mutes.cache && s.mutes.cache[p.steamId].IsExpired(now) <==> r.1 != []
    ensures r.1 != [] ==> Chat(p.slot, "mute_expired") in r.1 && SetVoice(p.slot, Normal) in r.1
  {
    if p.steamId in s.mutes.cache && s.mutes.cache[p.steamId].IsExpired(now) then
      (s.(mutes := s.mutes.(cache := s.mutes.cache - {p.steamId}),
          warnings := s.warnings.(mute := s.warnings.mute - {p.slot})),
       [Chat(p.slot, "mute_expired"), SetVoice(p.slot, Normal)])
    else (s, [])
  }

  /** The gag half of one player's step as intended. */
  function ExpireGag(p: Player, s: SweepState, now: int): (r: (SweepState, seq<Effect>))
    ensures r.0.mutes == s.mutes && EvictsAtMost(s.gags, r.0.gags, p.steamId)
    ensures p.steamId in r.0.gags.cache ==> !r.0.gags.cache[p.steamId].IsExpired(now)
    ensures p.steamId in s.gags.cache && s.gags.cache[p.steamId].IsExpired(now) <==> r.1 != []
    ensures r.1 != [] ==> Chat(p.slot, "gag_expired") in r.1
  {
    if p.steamId in s.gags.cache && s.gags.cache[p.steamId].IsExpired(now) then
      (s.(gags := s.gags.(cache := s.gags.cache - {p.steamId}),
          warnings := s.warnings.(gag := s.warnings.gag - {p.slot})),
       [Chat(p.slot, "gag_expired")])
    else (s, [])
  }

  /** The cache changes of a whole corrected loop: entries are only ever
      removed, never added or altered, and the tables are untouched. */
  predicate OnlyEvicts(before: SanctionStore.Store, after: SanctionStore.Store) {
    after == before.(cache := after.cache) &&
    after.cache.Keys <= before.cache.Keys &&
    forall k :: k in after.cache ==> after.cache[k] == before.cache[k]
  }

  /** The per-player loop as intended. */
  function SweepPlayersCorrected(ps: seq<Player>, s: SweepState, now: int): (r: (SweepState, seq<Effect>))
    ensures OnlyEvicts(s.mutes, r.0.mutes) && OnlyEvicts(s.gags, r.0.gags)
  {
    if |ps| == 0 then (s, [])
    else
      var (s1, e1) := ExpireMute(ps[0], s, now);
      var (s2, e2) := ExpireGag(ps[0], s1, now);
      var (s3, e3) := SweepPlayersCorrected(ps[1..], s2, now);
      (s3, e1 + e2 + e3)
  }

  /** The corrected sweep: the per-player loop over valid players, then the
      background cleanups. */
  function SweepCorrected(w: World, h: Warnings, now: int): (r: (World, Warnings, seq<Effect>))
  {
    var (s, effects) := SweepPlayersCorrected(ValidPlayers(w.players), SweepState(w.mutes, w.gags, h), now);
    (w.(bans := BanManager.CleanupExpiredBans(w.bans, now),
        mutes := MuteManager.UpdateExpiredMutes(s.mutes, now),
        gags := GagManager.CleanupExpiredGags(s.gags, now)),
     s.warnings, effects)
  }

  /** Players with distinct SteamIDs. */
  predicate UniqueSteamIds(ps: seq<Player>) {
    forall i, j :: 0 <= i < j < |ps| ==> ps[i].steamId != ps[j].steamId
  }

  lemma UniqueTail(ps: seq<Player>)
    requires |ps| > 0 && UniqueSteamIds(ps)
    ensures UniqueSteamIds(ps[1..])
    ensures forall q :: q in ps[1..] ==> q.steamId != ps[0].steamId
  {
    var rest := ps[1..];
    forall i, j | 0 <= i < j < |rest|
      ensures rest[i].steamId != rest[j].steamId
    {
      assert rest[i] == ps[i + 1] && rest[j] == ps[j + 1];
    }
    forall q | q in rest
      ensures q.steamId != ps[0].steamId
    {
      var j :| 0 <= j < |rest| && rest[j] == q;
      assert ps[j + 1] == q;
    }
  }

  /** After the corrected loop, no player of the loop has an expired entry
      left in either cache. */
  lemma {:induction false} SweepCorrectedLeavesNoExpired(ps: seq<Player>, s: SweepState, now: int)
    ensures var s' := SweepPlayersCorrected(ps, s, now).0;
            (forall p :: p in ps && p.steamId in s'.mutes.cache ==> !s'.mutes.cache[p.steamId].IsExpired(now)) &&
            (forall p :: p in ps && p.steamId in s'.gags.cache ==> !s'.gags.cache[p.steamId].IsExpired(now))
  {
    if |ps| > 0 {
      var (s1, e1) := ExpireMute(ps[0], s, now);
      var (s2, e2) := ExpireGag(ps[0], s1, now);
      SweepCorrectedLeavesNoExpired(ps[1..], s2, now);
      var s3 := SweepPlayersCorrected(ps[1..], s2, now).0;
      assert SweepPlayersCorrected(ps, s, now).0 == s3;
      forall p | p in ps
        ensures p in ps[1..] || p == ps[0]
      {
      }
    }
  }

  /** The corrected loop tells every player whose cached mute has expired
      and restores their voice flag. */
  lemma {:induction false} SweepCorrectedNotifiesMute(ps: seq<Player>, s: SweepState, now: int)
    requires UniqueSteamIds(ps)
    ensures var effects := SweepPlayersCorrected(ps, s, now).1;
            forall p :: p in ps && p.steamId in s.mutes.cache && s.mutes.cache[p.steamId].IsExpired(now) ==>
                          Chat(p.slot, "mute_expired") in effects && SetVoice(p.slot, Normal) in effects
  {
    if |ps| > 0 {
      var (s1, e1) := ExpireMute(ps[0], s, now);
      var (s2, e2) := ExpireGag(ps[0], s1, now);
      UniqueTail(ps);
      SweepCorrectedNotifiesMute(ps[1..], s2, now);
      var e3 := SweepPlayersCorrected(ps[1..], s2, now).1;
      assert SweepPlayersCorrected(ps, s, now).1 == e1 + e2 + e3;
      forall p | p in ps && p.steamId in s.mutes.cache && s.mutes.cache[p.steamId].IsExpired(now)
        ensures Chat(p.slot, "mute_expired") in e1 + e2 + e3 && SetVoice(p.slot, Normal) in e1 + e2 + e3
      {
        if p != ps[0] {
          assert p in ps[1..];
          assert p.steamId in s2.mutes.cache && s2.mutes.cache[p.steamId] == s.mutes.cache[p.steamId];
        }
      }
    }
  }

  /** The corrected loop tells every player whose cached gag has expired. */
  lemma {:induction false} SweepCorrectedNotifiesGag(ps: seq<Player>, s: SweepState, now: int)
    requires UniqueSteamIds(ps)
    ensures var effects := SweepPlayersCorrected(ps, s, now).1;
            forall p :: p in ps && p.steamId in s.gags.cache && s.gags.cache[p.steamId].IsExpired(now) ==>
                          Chat(p.slot, "gag_expired") in effects
  {
    if |ps| > 0 {
      var (s1, e1) := ExpireMute(ps[0], s, now);
      var (s2, e2) := ExpireGag(ps[0], s1, now);
      UniqueTail(ps);
      SweepCorrectedNotifiesGag(ps[1..], s2, now);
      var e3 := SweepPlayersCorrected(ps[1..], s2, now).1;
      assert SweepPlayersCorrected(ps, s, now).1 == e1 + e2 + e3;
      forall p | p in ps && p.steamId in s.gags.cache && s.gags.cache[p.steamId].IsExpired(now)
        ensures Chat(p.slot, "gag_expired") in e1 + e2 + e3
      {
        if p != ps[0] {
          assert p in ps[1..];
          assert p.steamId in s2.gags.cache && s2.gags.cache[p.steamId] == s.gags.cache[p.steamId];
        }
      }
    }
  }

  /** A connected player with an expired cached mute is told by the corrected
      sweep, which the written one never does. */
  lemma SweepCorrectedNotifies(w: World, h: Warnings, p: Player, now: int)
    requires UniqueSteamIds(ValidPlayers(w.players))
    requires p in w.players && p.isValid
    requires p.steamId in w.mutes.cache && w.mutes.cache[p.steamId].IsExpired(now)
    ensures Chat(p.slot, "mute_expired") in SweepCorrected(w, h, now).2
    ensures SweepAsWritten(w, h, now).2 == []
  {
    SweepCorrectedNotifiesMute(ValidPlayers(w.players), SweepState(w.mutes, w.gags, h), now);
    SweepPlayersAsWrittenIsSilent(ValidPlayers(w.players), SweepState(w.mutes, w.gags, h), now);
  }

  // ----- the read fixed, the cache clearing kept -----

  /** The mute step with only the read corrected: the raw entry is read, but
      an expired one still clears the whole mute cache, as the source does. */
  function ExpireMuteClearing(p: Player, s: SweepState, now: int): (r: (SweepState, seq<Effect>))
  {
    if p.steamId in s.mutes.cache && s.mutes.cache[p.steamId].IsExpired(now) then
      (s.(mutes := SanctionStore.ClearCache(s.mutes),
          warnings := s.warnings.(mute := s.warnings.mute - {p.slot})),
       [Chat(p.slot, "mute_expired"), SetVoice(p.slot, Normal)])
    else (s, [])
  }

  /** The mute half of the per-player loop with that step. */
  function SweepMutesClearing(ps: seq<Player>, s: SweepState, now: int): (r: (SweepState, seq<Effect>))
  {
    if |ps| == 0 then (s, [])
    else
      var (s1, e1) := ExpireMuteClearing(ps[0], s, now);
      var (s2, e2) := SweepMutesClearing(ps[1..], s1, now);
      (s2, e1 + e2)
  }

  /** Once the mute cache is empty, that loop tells nobody. */
  lemma {:induction false} ClearedSweepSilent(ps: seq<Player>, s: SweepState, now: int)
    requires s.mutes.cache == map[]
    ensures SweepMutesClearing(ps, s, now).1 == []
  {
    if |ps| > 0 {
      assert ExpireMuteClearing(ps[0], s, now) == (s, []);
      ClearedSweepSilent(ps[1..], s, now);
    }
  }

  /** With the source's `ClearCache()` kept, one sweep tells at most one
      player that a mute expired, however many cached mutes ran out: the first
      expiry empties the cache for everyone after it. */
  lemma {:induction false} ClearCacheTellsAtMostOne(ps: seq<Player>, s: SweepState, now: int)
    ensures |SweepMutesClearing(ps, s, now).1| <= 2
  {
    if |ps| > 0 {
      var (s1, e1) := ExpireMuteClearing(ps[0], s, now);
      if e1 == [] {
        ClearCacheTellsAtMostOne(ps[1..], s1, now);
      } else {
        ClearedSweepSilent(ps[1..], s1, now);
      }
    }
  }

  /** A concrete case: two connected players whose cached mutes both ran out.
      Clearing the whole cache tells only the first; the corrected loop, which
      evicts one entry, tells both. */
  lemma ClearCacheMissesSecondPlayer()
    ensures var p := Player(1, 7, "p", 2, true, 100, false, true);
            var q := Player(2, 8, "q", 3, true, 100, false, true);
            var m := Sanction(1, 7, "a", 0, "r", 0, Some(60), Active, None, None, None, None);
            var n := Sanction(2, 8, "a", 0, "r", 0, Some(60), Active, None, None, None, None);
            var mutes := SanctionStore.Store([m, n], 3, map[7 := m, 8 := n], 0, true);
            var s := SweepState(mutes, mutes, Warnings(map[], map[]));
            SweepMutesClearing([p, q], s, 120).1 == [Chat(1, "mute_expired"), SetVoice(1, Normal)] &&
            Chat(2, "mute_expired") in SweepPlayersCorrected([p, q], s, 120).1
  {
    var p := Player(1, 7, "p", 2, true, 100, false, true);
    var q := Player(2, 8, "q", 3, true, 100, false, true);
    var m := Sanction(1, 7, "a", 0, "r", 0, Some(60), Active, None, None, None, None);
    var n := Sanction(2, 8, "a", 0, "r", 0, Some(60), Active, None, None, None, None);
    var mutes := SanctionStore.Store([m, n], 3, map[7 := m, 8 := n], 0, true);
    var s := SweepState(mutes, mutes, Warnings(map[], map[]));
    var (s1, e1) := ExpireMuteClearing(p, s, 120);
    assert [p, q][1..] == [q];
    ClearedSweepSilent([q], s1, 120);
    assert SweepMutesClearing([p, q], s, 120).1 == e1 + [];
    SweepCorrectedNotifiesMute([p, q], s, 120);
  }
}

=== FILE: gag_manager.dfy ===
/**
 * `GagManager`: the gags table `t3_gags` and its cache, as named entry points
 * over the shared sanction store. A revoked gag is stored with status
 * `'ungagged'`.
 */
module GagManager {
  import opened Wrappers
  import opened Records
  import opened SanctionStore
  import Text

  /** The revoked status of `t3_gags`. */
  const RevokedName: string := "ungagged"

  /** `AddGagAsync`: one `'active'` row is inserted, attributed to `ctx`; the
      cache invariant is kept. */
  function AddGag(st: Store, ctx: AdminContext, steamId: nat, durationMinutes: int, reason: string, now: int)
    : (r: (Store, bool))
    ensures AddOutcome(st, ctx, steamId, durationMinutes, reason, now, r.0, r.1)
    ensures r.1 ==> StatusColumn(r.0.rows[|st.rows|].status, RevokedName) == "active"
    ensures Valid(st) ==> Valid(r.0)
  {
    AddPreservesValid(st, ctx, steamId, durationMinutes, reason, now);
    Add(st, ctx, steamId, durationMinutes, reason, now)
  }

  /** `UngagAsync`: every active row of the player is stored as `'ungagged'`
      with the revocation metadata; the cache invariant is kept. */
  function Ungag(st: Store, ctx: AdminContext, steamId: nat, reason: string, now: int): (r: (Store, bool))
    ensures RevokeOutcome(st, ctx, steamId, reason, now, r.0, r.1)
    ensures st.online ==> forall i :: 0 <= i < |st.rows| && Revocable(st.rows[i], steamId) ==>
              StatusColumn(r.0.rows[i].status, RevokedName) == RevokedName
    ensures Valid(st) ==> Valid(r.0)
  {
    RevokePreservesValid(st, ctx, steamId, reason, now);
    Revoke(st, ctx, steamId, reason, now)
  }

  /** `GetActiveGagAsync`; the cache invariant is kept. */
  function GetActiveGag(st: Store, steamId: nat, now: int): (r: (Store, Option<Sanction>))
    ensures GetActiveOutcome(st, steamId, now, r.0, r.1)
    ensures Valid(st) ==> Valid(r.0)
  {
    GetActivePreservesValid(st, steamId, now);
    GetActive(st, steamId, now)
  }

  /** `GetActiveGagFromCache`: only a cached entry active at `now`. */
  function GetActiveGagFromCache(st: Store, steamId: nat, now: int): (r: Option<Sanction>)
    ensures r.Some? <==> steamId in st.cache && st.cache[steamId].IsActive(now)
    ensures r.Some? ==> r.value == st.cache[steamId]
  {
    GetActiveFromCache(st, steamId, now)
  }

  /** `GetTotalGagsAsync`: every row of the player, 0 on a fault. */
  function GetTotalGags(st: Store, steamId: nat): (n: nat)
    ensures n == 0 <==> !st.online || forall i :: 0 <= i < |st.rows| ==> st.rows[i].steamId != steamId
  {
    GetTotal(st, steamId)
  }

  /** `CleanupExpiredGagsAsync`: every due row is stored as `'expired'`; the cache
      invariant is kept. */
  function CleanupExpiredGags(st: Store, now: int): (st': Store)
    ensures CleanupOutcome(st, now, st')
    ensures st.online ==> forall i :: 0 <= i < |st.rows| && Due(st.rows[i], now) ==>
              StatusColumn(st'.rows[i].status, RevokedName) == "expired"
    ensures Valid(st) ==> Valid(st')
  {
    CleanupPreservesValid(st, now);
    CleanupExpired(st, now)
  }

  /** `ClearCache`: every later lookup goes to the table. */
  function ClearGagCache(st: Store): (st': Store)
    ensures st'.cache == map[] && st'.rows == st.rows
    ensures Valid(st')
  {
    ClearCache(st)
  }

  /** `'ungagged'` is read back as the revoked status, and the column codec
      round-trips every status. */
  lemma StatusColumnRoundTrip(s: Status, text: string)
    ensures ParseStatusColumn(StatusColumn(s, RevokedName), RevokedName) == Some(s)
    ensures ParseStatusColumn(text, RevokedName) == Some(s) <==>
            Text.EqualsIgnoreCase(text, StatusColumn(s, RevokedName))
  {
    assert Text.FoldChar(RevokedName[0]) != Text.FoldChar("active"[0]);
    assert Text.FoldChar(RevokedName[0]) != Text.FoldChar("expired"[0]);
    Records.StatusColumnRoundTrip(s, text, RevokedName);
  }
}

=== FILE: mute_commands.dfy ===
/**
 * `!mute`, `!unmute`, `!gag`, `!ungag`, `!silence` and `!unsilence`. A mute
 * silences the voice, a gag the chat, a silence both. Each command checks
 * its permission, its arguments and a connected target, then (in the
 * background task, run here at the same clock reading) consults the tables
 * before inserting or revoking.
 */
module MuteCommands {
  import opened Wrappers
  import opened Records
  import Text
  import opened Session
  import SanctionStore
  import MuteManager
  import GagManager
  import PlayerUtils
  import opened TargetCheck

  /** Which table a command works on. */
  datatype Kind = MuteKind | GagKind

  function Table(w: World, k: Kind): SanctionStore.Store {
    match k
    case MuteKind => w.mutes
    case GagKind => w.gags
  }

  function WithTable(w: World, k: Kind, st: SanctionStore.Store): (w': World)
    ensures Table(w', k) == st
    ensures w'.players == w.players && w'.bans == w.bans && w'.admins == w.admins && w'.grants == w.grants
    ensures k.MuteKind? ==> w'.gags == w.gags
    ensures k.GagKind? ==> w'.mutes == w.mutes
  {
    match k
    case MuteKind => w.(mutes := st)
    case GagKind => w.(gags := st)
  }

  /** `GetActiveMuteAsync` / `GetActiveGagAsync`. */
  function GetActive(w: World, k: Kind, steamId: nat, now: int): (r: (World, Option<Sanction>))
  {
    var (st, found) := match k
      case MuteKind => MuteManager.GetActiveMute(w.mutes, steamId, now)
      case GagKind => GagManager.GetActiveGag(w.gags, steamId, now);
    (WithTable(w, k, st), found)
  }

  /** `AddMuteAsync` / `AddGagAsync`; the answer is not looked at. */
  function Add(w: World, k: Kind, ctx: AdminContext, steamId: nat, duration: int, reason: string, now: int): (w': World)
  {
    var st := match k
      case MuteKind => MuteManager.AddMute(w.mutes, ctx, steamId, duration, reason, now).0
      case GagKind => GagManager.AddGag(w.gags, ctx, steamId, duration, reason, now).0;
    WithTable(w, k, st)
  }

  /** `UnmuteAsync` / `UngagAsync`; the answer is not looked at. */
  function Revoke(w: World, k: Kind, ctx: AdminContext, steamId: nat, reason: string, now: int): (w': World)
  {
    var st := match k
      case MuteKind => MuteManager.Unmute(w.mutes, ctx, steamId, reason, now).0
      case GagKind => GagManager.Ungag(w.gags, ctx, steamId, reason, now).0;
    WithTable(w, k, st)
  }

  /** The personal notice to the target when connected, followed by the voice
      flag the command sets, if any. */
  function Personal(ps: seq<Player>, steamId: nat, key: string, voice: Option<VoiceFlag>): (r: seq<Effect>)
    ensures OnlineBySteamId(ps, steamId).None? <==> r == []
    ensures OnlineBySteamId(ps, steamId).Some? ==>
              var slot := OnlineBySteamId(ps, steamId).value.slot;
              r[0] == Chat(slot, key) &&
              (voice.None? ==> r == [Chat(slot, key)]) &&
              (voice.Some? ==> r == [Chat(slot, key), SetVoice(slot, voice.value)])
  {
    var online := OnlineBySteamId(ps, steamId);
    if online.None? then []
    else [Chat(online.value.slot, key)] + (if voice.Some? then [SetVoice(online.value.slot, voice.value)] else [])
  }

  function Permission(cfg: Config, k: Kind): string {
    match k
    case MuteKind => cfg.mutePermission
    case GagKind => cfg.gagPermission
  }

  function Noun(k: Kind): string {
    match k
    case MuteKind => "muted"
    case GagKind => "gagged"
  }

  /** The voice flag a mute or an unmute sets; gags leave the voice alone. */
  function VoiceOnAdd(k: Kind): Option<VoiceFlag> {
    if k.MuteKind? then Some(Muted) else None
  }

  function VoiceOnRevoke(k: Kind): Option<VoiceFlag> {
    if k.MuteKind? then Some(Normal) else None
  }

  /** What a mute or gag that goes ahead tells the players: everyone hears
      of it, and the connected target gets a notice and, for a mute, the
      muted voice flag. */
  function Announce(ps: seq<Player>, k: Kind, steamId: nat): (r: seq<Effect>)
  {
    Broadcast(ps, Noun(k) + "_notification") + Personal(ps, steamId, Noun(k) + "_personal", VoiceOnAdd(k))
  }

  /** The announcement ends with the target's voice muted for a mute, and
      never touches a voice flag for a gag. */
  lemma AnnounceVoice(ps: seq<Player>, k: Kind, target: Player)
    requires target in ps && target.isValid
    ensures var effects := Announce(ps, k, target.steamId);
            && |effects| > 0
            && (k.MuteKind? ==> effects[|effects| - 1] == SetVoice(OnlineBySteamId(ps, target.steamId).value.slot, Muted))
            && (k.GagKind? ==> forall e :: e in effects ==> !e.SetVoice?)
  {
    var b := Broadcast(ps, Noun(k) + "_notification");
    var p := Personal(ps, target.steamId, Noun(k) + "_personal", VoiceOnAdd(k));
    assert OnlineBySteamId(ps, target.steamId).Some?;
    assert Announce(ps, k, target.steamId)[|b| + |p| - 1] == p[|p| - 1];
  }

  /** `OnMuteCommand` / `OnGagCommand`: `<target> <minutes> [reason...]`. */
  function OnPunish(w: World, cfg: Config, k: Kind, caller: Caller, args: seq<string>, now: int): (r: (World, seq<Effect>))
    ensures r.0.players == w.players && r.0.bans == w.bans && r.0.admins == w.admins && r.0.grants == w.grants
    ensures k.MuteKind? ==> r.0.gags == w.gags
    ensures k.GagKind? ==> r.0.mutes == w.mutes
  {
    var usage := if k.MuteKind? then "mute_usage" else "gag_usage";
    match CheckTarget(w, Permission(cfg, k), caller, args, 2, usage)
    case Refused(e) => (w, e)
    case Target(target) =>
      var duration := ParseDuration(args[1]);
      if duration.None? then (w, [Reply("invalid_duration")])
      else
        var reason := ReasonFrom(args, 2);
        var (w1, existing) := GetActive(w, k, target.steamId, now);
        if existing.Some? then (w1, [Reply("player_already_" + Noun(k))])
        else
          (Add(w1, k, ContextOf(caller), target.steamId, duration.value, reason, now),
           Announce(w.players, k, target.steamId))
  }

  /** `OnUnmuteCommand` / `OnUngagCommand`: `<target> [reason...]`. */
  function OnPardon(w: World, cfg: Config, k: Kind, caller: Caller, args: seq<string>, now: int): (r: (World, seq<Effect>))
    ensures r.0.players == w.players && r.0.bans == w.bans && r.0.admins == w.admins && r.0.grants == w.grants
    ensures k.MuteKind? ==> r.0.gags == w.gags
    ensures k.GagKind? ==> r.0.mutes == w.mutes
  {
    var usage := if k.MuteKind? then "unmute_usage" else "ungag_usage";
    match CheckTarget(w, Permission(cfg, k), caller, args, 1, usage)
    case Refused(e) => (w, e)
    case Target(target) =>
      var reason := ReasonFrom(args, 1);
      var (w1, existing) := GetActive(w, k, target.steamId, now);
      if existing.None? then (w1, [Reply("player_not_" + Noun(k))])
      else
        (Revoke(w1, k, ContextOf(caller), target.steamId, reason, now),
         Broadcast(w.players, "un" + Noun(k) + "_notification") +
         Personal(w.players, target.steamId, "un" + Noun(k) + "_personal", VoiceOnRevoke(k)))
  }

  function OnMute(w: World, cfg: Config, caller: Caller, args: seq<string>, now: int): (r: (World, seq<Effect>))
    ensures r.0.gags == w.gags && r.0.bans == w.bans
  {
    OnPunish(w, cfg, MuteKind, caller, args, now)
  }

  function OnUnmute(w: World, cfg: Config, caller: Caller, args: seq<string>, now: int): (r: (World, seq<Effect>))
    ensures r.0.gags == w.gags && r.0.bans == w.bans
  {
    OnPardon(w, cfg, MuteKind, caller, args, now)
  }

  function OnGag(w: World, cfg: Config, caller: Caller, args: seq<string>, now: int): (r: (World, seq<Effect>))
    ensures r.0.mutes == w.mutes && r.0.bans == w.bans
  {
    OnPunish(w, cfg, GagKind, caller, args, now)
  }

  function OnUngag(w: World, cfg: Config, caller: Caller, args: seq<string>, now: int): (r: (World, seq<Effect>))
    ensures r.0.mutes == w.mutes && r.0.bans == w.bans
  {
    OnPardon(w, cfg, GagKind, caller, args, now)
  }

  /** `OnSilenceCommand`: both lookups first; refused only when the player
      is already both muted and gagged, otherwise whichever of the two is
      missing is inserted. */
  function OnSilence(w: World, cfg: Config, caller: Caller, args: seq<string>, now: int): (r: (World, seq<Effect>))
    ensures r.0.players == w.players && r.0.bans == w.bans && r.0.admins == w.admins && r.0.grants == w.grants
  {
    match CheckTarget(w, cfg.silencePermission, caller, args, 2, "silence_usage")
    case Refused(e) => (w, e)
    case Target(target) =>
      var duration := ParseDuration(args[1]);
      if duration.None? then (w, [Reply("invalid_duration")])
      else
        var (w', added) := StoreSilence(w, ContextOf(caller), target.steamId, duration.value, ReasonFrom(args, 2), now);
        if !added then (w', [Reply("player_already_silenced")])
        else
          (w', Broadcast(w.players, "silenced_notification") +
               Personal(w.players, target.steamId, "silenced_personal", Some(Muted)))
  }

  /** The background part of `!silence`: look up both sanctions, refuse
      when both exist, otherwise insert whichever is missing. */
  function StoreSilence(w: World, ctx: AdminContext, steamId: nat, duration: int, reason: string, now: int)
    : (r: (World, bool))
    ensures r.0 == w.(mutes := r.0.mutes, gags := r.0.gags)
  {
    var (m1, mute) := MuteManager.GetActiveMute(w.mutes, steamId, now);
    var (g1, gag) := GagManager.GetActiveGag(w.gags, steamId, now);
    if mute.Some? && gag.Some? then (w.(mutes := m1, gags := g1), false)
    else
      var m2 := if mute.None? then MuteManager.AddMute(m1, ctx, steamId, duration, reason, now).0 else m1;
      var g2 := if gag.None? then GagManager.AddGag(g1, ctx, steamId, duration, reason, now).0 else g1;
      (w.(mutes := m2, gags := g2), true)
  }


  /** `OnUnsilenceCommand`: refused only when the player is neither muted nor
      gagged, otherwise whichever of the two is active is revoked and the
      voice flag is restored. */
  function OnUnsilence(w: World, cfg: Config, caller: Caller, args: seq<string>, now: int): (r: (World, seq<Effect>))
    ensures r.0.players == w.players && r.0.bans == w.bans && r.0.admins == w.admins && r.0.grants == w.grants
  {
    match CheckTarget(w, cfg.silencePermission, caller, args, 1, "unsilence_usage")
    case Refused(e) => (w, e)
    case Target(target) =>
      var (w', revoked) := RevokeSilence(w, ContextOf(caller), target.steamId, ReasonFrom(args, 1), now);
      if !revoked then (w', [Reply("player_not_silenced")])
      else
        (w', Broadcast(w.players, "unsilenced_notification") +
             Personal(w.players, target.steamId, "unsilenced_personal", Some(Normal)))
  }

  /** The background part of `!unsilence`: look up both sanctions, refuse
      when neither exists, otherwise revoke whichever is active. */
  function RevokeSilence(w: World, ctx: AdminContext, steamId: nat, reason: string, now: int): (r: (World, bool))
    ensures r.0 == w.(mutes := r.0.mutes, gags := r.0.gags)
  {
    var (m1, mute) := MuteManager.GetActiveMute(w.mutes, steamId, now);
    var (g1, gag) := GagManager.GetActiveGag(w.gags, steamId, now);
    if mute.None? && gag.None? then (w.(mutes := m1, gags := g1), false)
    else
      var m2 := if mute.Some? then MuteManager.Unmute(m1, ctx, steamId, reason, now).0 else m1;
      var g2 := if gag.Some? then GagManager.Ungag(g1, ctx, steamId, reason, now).0 else g1;
      (w.(mutes := m2, gags := g2), true)
  }


  // ----- properties -----

  /** A sender without the command's permission gets one refusal and
      nothing changes. */
  lemma MuteCommandsRequirePermission(w: World, cfg: Config, k: Kind, caller: Caller, args: seq<string>, now: int)
    ensures !HasPermission(w.grants, caller, Permission(cfg, k)) ==>
              OnPunish(w, cfg, k, caller, args, now) == (w, [Reply("no_permission")]) &&
              OnPardon(w, cfg, k, caller, args, now) == (w, [Reply("no_permission")])
    ensures !HasPermission(w.grants, caller, cfg.silencePermission) ==>
              OnSilence(w, cfg, caller, args, now) == (w, [Reply("no_permission")]) &&
              OnUnsilence(w, cfg, caller, args, now) == (w, [Reply("no_permission")])
  {
  }

  /** A mute or gag of a player without an active one on a reachable table
      is inserted and then reported active until it expires. */
  lemma PunishStoresRow(w: World, cfg: Config, k: Kind, caller: Caller, args: seq<string>, now: int, later: int,
                        target: Player, duration: int)
    requires CheckTarget(w, Permission(cfg, k), caller, args, 2, if k.MuteKind? then "mute_usage" else "gag_usage")
             == Target(target)
    requires ParseDuration(args[1]) == Some(duration)
    requires SanctionStore.GetActive(Table(w, k), target.steamId, now).1.None?
    requires Table(w, k).online && !ExpiryAfter(now, duration * SecondsPerMinute).OutOfRange?
    requires now <= later && (duration == 0 || later < now + duration * SecondsPerMinute)
    ensures var w' := OnPunish(w, cfg, k, caller, args, now).0;
            var row := Table(w', k).rows[|Table(w, k).rows|];
            && row.steamId == target.steamId && row.reason == ReasonFrom(args, 2) && row.status == Active
            && SanctionStore.GetActive(Table(w', k), target.steamId, later).1.Some?
  {
    var st1 := SanctionStore.GetActive(Table(w, k), target.steamId, now).0;
    SanctionStore.AddThenGetActiveSome(st1, ContextOf(caller), target.steamId, duration, ReasonFrom(args, 2), now, later);
  }

  /** A mute that goes ahead ends by muting the voice of the connected
      player holding the target's SteamID; a gag leaves every voice alone. */
  lemma PunishVoice(w: World, cfg: Config, k: Kind, caller: Caller, args: seq<string>, now: int, target: Player)
    requires CheckTarget(w, Permission(cfg, k), caller, args, 2, if k.MuteKind? then "mute_usage" else "gag_usage")
             == Target(target)
    requires ParseDuration(args[1]).Some?
    requires SanctionStore.GetActive(Table(w, k), target.steamId, now).1.None?
    ensures var effects := OnPunish(w, cfg, k, caller, args, now).1;
            && |effects| > 0
            && (k.MuteKind? ==>
                  effects[|effects| - 1] == SetVoice(OnlineBySteamId(w.players, target.steamId).value.slot, Muted))
            && (k.GagKind? ==> forall e :: e in effects ==> !e.SetVoice?)
  {
    AnnounceVoice(w.players, k, target);
  }

  /** A player already muted (or gagged) gets no second row; the sender is
      told and nobody else hears anything. */
  lemma PunishRefusesDuplicate(w: World, cfg: Config, k: Kind, caller: Caller, args: seq<string>, now: int,
                               target: Player)
    requires CheckTarget(w, Permission(cfg, k), caller, args, 2, if k.MuteKind? then "mute_usage" else "gag_usage")
             == Target(target)
    requires ParseDuration(args[1]).Some?
    requires SanctionStore.GetActive(Table(w, k), target.steamId, now).1.Some?
    ensures var (w', effects) := OnPunish(w, cfg, k, caller, args, now);
            Table(w', k).rows == Table(w, k).rows && effects == [Reply("player_already_" + Noun(k))]
  {
  }

  /** An unmute or ungag of a player with an active one on a reachable,
      consistent table leaves none active, now or later; an unmute restores
      the connected target's voice. */
  lemma PardonClears(w: World, cfg: Config, k: Kind, caller: Caller, args: seq<string>, now: int, later: int,
                     target: Player)
    requires CheckTarget(w, Permission(cfg, k), caller, args, 1, if k.MuteKind? then "unmute_usage" else "ungag_usage")
             == Target(target)
    requires SanctionStore.Valid(Table(w, k)) && Table(w, k).online
    requires SanctionStore.GetActive(Table(w, k), target.steamId, now).1.Some?
    ensures var (w', effects) := OnPardon(w, cfg, k, caller, args, now);
            && SanctionStore.GetActive(Table(w', k), target.steamId, later).1.None?
            && (k.MuteKind? ==> effects[|effects| - 1].SetVoice? && effects[|effects| - 1].flag == Normal)
  {
    var st1 := SanctionStore.GetActive(Table(w, k), target.steamId, now).0;
    SanctionStore.GetActivePreservesValid(Table(w, k), target.steamId, now);
    SanctionStore.RevokeThenGetActiveNone(st1, ContextOf(caller), target.steamId, ReasonFrom(args, 1), now, later);
    var (w', effects) := OnPardon(w, cfg, k, caller, args, now);
    var b := Broadcast(w.players, "un" + Noun(k) + "_notification");
    var p := Personal(w.players, target.steamId, "un" + Noun(k) + "_personal", VoiceOnRevoke(k));
    assert effects == b + p;
    assert OnlineBySteamId(w.players, target.steamId).Some? by {
      assert target in w.players && target.isValid;
    }
    assert effects[|effects| - 1] == p[|p| - 1];
  }

  /** `!silence` inserts only what is missing: an existing mute or gag keeps
      its table's rows as they were, and a player with both is refused. */
  lemma SilenceKeepsExisting(w: World, cfg: Config, caller: Caller, args: seq<string>, now: int, target: Player)
    requires CheckTarget(w, cfg.silencePermission, caller, args, 2, "silence_usage") == Target(target)
    requires ParseDuration(args[1]).Some?
    ensures var (w', effects) := OnSilence(w, cfg, caller, args, now);
            var mute := SanctionStore.GetActive(w.mutes, target.steamId, now).1;
            var gag := SanctionStore.GetActive(w.gags, target.steamId, now).1;
            && (mute.Some? && gag.Some? ==> effects == [Reply("player_already_silenced")])
            && (mute.Some? ==> w'.mutes.rows == w.mutes.rows)
            && (gag.Some? ==> w'.gags.rows == w.gags.rows)
  {
    var (w1, mute) := GetActive(w, MuteKind, target.steamId, now);
    var (w2, gag) := GetActive(w1, GagKind, target.steamId, now);
    assert w1.gags == w.gags && w2.mutes == w1.mutes;
    assert w2.mutes.rows == w.mutes.rows && w2.gags.rows == w.gags.rows;
  }

  /** A missing mute or gag on a reachable table gets a new active row of
      the target. */
  lemma SilenceInsertsMissing(w: World, cfg: Config, caller: Caller, args: seq<string>, now: int, target: Player,
                              duration: int)
    requires CheckTarget(w, cfg.silencePermission, caller, args, 2, "silence_usage") == Target(target)
    requires ParseDuration(args[1]) == Some(duration)
    requires !ExpiryAfter(now, duration * SecondsPerMinute).OutOfRange?
    ensures var w' := OnSilence(w, cfg, caller, args, now).0;
            && (SanctionStore.GetActive(w.mutes, target.steamId, now).1.None? && w.mutes.online ==>
                  |w'.mutes.rows| == |w.mutes.rows| + 1 &&
                  w'.mutes.rows[|w.mutes.rows|].steamId == target.steamId &&
                  w'.mutes.rows[|w.mutes.rows|].status == Active)
            && (SanctionStore.GetActive(w.gags, target.steamId, now).1.None? && w.gags.online ==>
                  |w'.gags.rows| == |w.gags.rows| + 1 &&
                  w'.gags.rows[|w.gags.rows|].steamId == target.steamId &&
                  w'.gags.rows[|w.gags.rows|].status == Active)
  {
    SilenceTables(w, cfg, caller, args, now, target, duration);
  }

  /** What `!silence` leaves in each table: the lookup's table, with the
      missing sanction inserted. */
  lemma SilenceTables(w: World, cfg: Config, caller: Caller, args: seq<string>, now: int, target: Player,
                      duration: int)
    requires CheckTarget(w, cfg.silencePermission, caller, args, 2, "silence_usage") == Target(target)
    requires ParseDuration(args[1]) == Some(duration)
    ensures var w' := OnSilence(w, cfg, caller, args, now).0;
            var ctx := ContextOf(caller);
            var reason := ReasonFrom(args, 2);
            var (m1, mute) := MuteManager.GetActiveMute(w.mutes, target.steamId, now);
            var (g1, gag) := GagManager.GetActiveGag(w.gags, target.steamId, now);
            && w'.mutes == (if mute.None? then MuteManager.AddMute(m1, ctx, target.steamId, duration, reason, now).0 else m1)
            && w'.gags == (if gag.None? then GagManager.AddGag(g1, ctx, target.steamId, duration, reason, now).0 else g1)
  {
    assert OnSilence(w, cfg, caller, args, now).0 ==
           StoreSilence(w, ContextOf(caller), target.steamId, duration, ReasonFrom(args, 2), now).0;
  }


  /** `!unsilence` revokes whichever of mute and gag was active, so neither
      is reported afterwards on reachable, consistent tables; a player with
      neither is told so and no row changes. */
  lemma UnsilenceClears(w: World, cfg: Config, caller: Caller, args: seq<string>, now: int, later: int, target: Player)
    requires CheckTarget(w, cfg.silencePermission, caller, args, 1, "unsilence_usage") == Target(target)
    requires SanctionStore.Valid(w.mutes) && w.mutes.online && SanctionStore.Valid(w.gags) && w.gags.online
    ensures var (w', effects) := OnUnsilence(w, cfg, caller, args, now);
            var mute := SanctionStore.GetActive(w.mutes, target.steamId, now).1;
            var gag := SanctionStore.GetActive(w.gags, target.steamId, now).1;
            && (mute.None? && gag.None? ==>
                  effects == [Reply("player_not_silenced")] &&
                  w'.mutes.rows == w.mutes.rows && w'.gags.rows == w.gags.rows)
            && (mute.Some? ==> SanctionStore.GetActive(w'.mutes, target.steamId, later).1.None?)
            && (gag.Some? ==> SanctionStore.GetActive(w'.gags, target.steamId, later).1.None?)
  {
    var ctx := ContextOf(caller);
    var reason := ReasonFrom(args, 1);
    UnsilenceTables(w, cfg, caller, args, now, target);
    var m1 := SanctionStore.GetActive(w.mutes, target.steamId, now).0;
    var g1 := SanctionStore.GetActive(w.gags, target.steamId, now).0;
    SanctionStore.RevokeThenGetActiveNone(m1, ctx, target.steamId, reason, now, later);
    SanctionStore.RevokeThenGetActiveNone(g1, ctx, target.steamId, reason, now, later);
  }

  /** What `!unsilence` leaves in each table: the lookup's table, with the
      active sanction revoked; with neither active it only replies. */
  lemma UnsilenceTables(w: World, cfg: Config, caller: Caller, args: seq<string>, now: int, target: Player)
    requires CheckTarget(w, cfg.silencePermission, caller, args, 1, "unsilence_usage") == Target(target)
    ensures var (w', effects) := OnUnsilence(w, cfg, caller, args, now);
            var ctx := ContextOf(caller);
            var reason := ReasonFrom(args, 1);
            var (m1, mute) := MuteManager.GetActiveMute(w.mutes, target.steamId, now);
            var (g1, gag) := GagManager.GetActiveGag(w.gags, target.steamId, now);
            && w'.mutes == (if mute.Some? then MuteManager.Unmute(m1, ctx, target.steamId, reason, now).0 else m1)
            && w'.gags == (if gag.Some? then GagManager.Ungag(g1, ctx, target.steamId, reason, now).0 else g1)
            && (mute.None? && gag.None? ==> effects == [Reply("player_not_silenced")])
  {
    var r := RevokeSilence(w, ContextOf(caller), target.steamId, ReasonFrom(args, 1), now);
    assert OnUnsilence(w, cfg, caller, args, now).0 == r.0;
    assert !r.1 ==> OnUnsilence(w, cfg, caller, args, now).1 == [Reply("player_not_silenced")];
  }

}

=== FILE: mute_manager.dfy ===
/**
 * `MuteManager`: the mutes table `t3_mutes` and its cache, as named entry points
 * over the shared sanction store. A revoked mute is stored with status
 * `'unmuted'`.
 */
module MuteManager {
  import opened Wrappers
  import opened Records
  import opened SanctionStore
  import Text

  /** The revoked status of `t3_mutes`. */
  const RevokedName: string := "unmuted"

  /** `AddMuteAsync`: one `'active'` row is inserted, attributed to `ctx`; the
      cache invariant is kept. */
  function AddMute(st: Store, ctx: AdminContext, steamId: nat, durationMinutes: int, reason: string, now: int)
    : (r: (Store, bool))
    ensures AddOutcome(st, ctx, steamId, durationMinutes, reason, now, r.0, r.1)
    ensures r.1 ==> StatusColumn(r.0.rows[|st.rows|].status, RevokedName) == "active"
    ensures Valid(st) ==> Valid(r.0)
  {
    AddPreservesValid(st, ctx, steamId, durationMinutes, reason, now);
    Add(st, ctx, steamId, durationMinutes, reason, now)
  }

  /** `UnmuteAsync`: every active row of the player is stored as `'unmuted'`
      with the revocation metadata; the cache invariant is kept. */
  function Unmute(st: Store, ctx: AdminContext, steamId: nat, reason: string, now: int): (r: (Store, bool))
    ensures RevokeOutcome(st, ctx, steamId, reason, now, r.0, r.1)
    ensures st.online ==> forall i :: 0 <= i < |st.rows| && Revocable(st.rows[i], steamId) ==>
              StatusColumn(r.0.rows[i].status, RevokedName) == RevokedName
    ensures Valid(st) ==> Valid(r.0)
  {
    RevokePreservesValid(st, ctx, steamId, reason, now);
    Revoke(st, ctx, steamId, reason, now)
  }

  /** `GetActiveMuteAsync`; the cache invariant is kept. */
  function GetActiveMute(st: Store, steamId: nat, now: int): (r: (Store, Option<Sanction>))
    ensures GetActiveOutcome(st, steamId, now, r.0, r.1)
    ensures Valid(st) ==> Valid(r.0)
  {
    GetActivePreservesValid(st, steamId, now);
    GetActive(st, steamId, now)
  }

  /** `GetActiveMuteFromCache`: only a cached entry active at `now`. */
  function GetActiveMuteFromCache(st: Store, steamId: nat, now: int): (r: Option<Sanction>)
    ensures r.Some? <==> steamId in st.cache && st.cache[steamId].IsActive(now)
    ensures r.Some? ==> r.value == st.cache[steamId]
  {
    GetActiveFromCache(st, steamId, now)
  }

  /** `GetTotalMutesAsync`: every row of the player, 0 on a fault. */
  function GetTotalMutes(st: Store, steamId: nat): (n: nat)
    ensures n == 0 <==> !st.online || forall i :: 0 <= i < |st.rows| ==> st.rows[i].steamId != steamId
  {
    GetTotal(st, steamId)
  }

  /** `UpdateExpiredMutesAsync`: every due row is stored as `'expired'`; the cache
      invariant is kept. */
  function UpdateExpiredMutes(st: Store, now: int): (st': Store)
    ensures CleanupOutcome(st, now, st')
    ensures st.online ==> forall i :: 0 <= i < |st.rows| && Due(st.rows[i], now) ==>
              StatusColumn(st'.rows[i].status, RevokedName) == "expired"
    ensures Valid(st) ==> Valid(st')
  {
    CleanupPreservesValid(st, now);
    CleanupExpired(st, now)
  }

  /** `ClearCache`: every later lookup goes to the table. */
  function ClearMuteCache(st: Store): (st': Store)
    ensures st'.cache == map[] && st'.rows == st.rows
    ensures Valid(st')
  {
    ClearCache(st)
  }

  /** `'unmuted'` is read back as the revoked status, and the column codec
      round-trips every status. */
  lemma StatusColumnRoundTrip(s: Status, text: string)
    ensures ParseStatusColumn(StatusColumn(s, RevokedName), RevokedName) == Some(s)
    ensures ParseStatusColumn(text, RevokedName) == Some(s) <==>
            Text.EqualsIgnoreCase(text, StatusColumn(s, RevokedName))
  {
    assert Text.FoldChar(RevokedName[0]) != Text.FoldChar("active"[0]);
    assert Text.FoldChar(RevokedName[0]) != Text.FoldChar("expired"[0]);
    Records.StatusColumnRoundTrip(s, text, RevokedName);
  }
}

=== FILE: numbers.dfy ===
/**
 * .NET integer parsing as the plugin uses it: `int.TryParse`,
 * `uint.TryParse` and `ulong.TryParse` with the default
 * `NumberStyles.Integer` (surrounding white space, an optional sign,
 * ASCII decimal digits, a range check), and the decimal rendering that
 * the round-trip lemmas invert.
 */
module Numbers {
  import opened Wrappers
  import Text

  const Int32Min: int := -0x8000_0000
  const Int32Max: int := 0x7FFF_FFFF
  const UInt32Max: int := 0xFFFF_FFFF
  const UInt64Max: int := 0xFFFF_FFFF_FFFF_FFFF
  /** `ulong` arithmetic is unchecked: it wraps modulo 2^64. */
  const UInt64Modulus: int := 0x1_0000_0000_0000_0000

  predicate IsDigit(c: char) {
    '0' <= c <= '9'
  }

  predicate AllDigits(s: string) {
    forall i :: 0 <= i < |s| ==> IsDigit(s[i])
  }

  function DigitValue(c: char): nat
    requires IsDigit(c)
  {
    c as int - '0' as int
  }

  /** The value of a run of decimal digits, most significant first. */
  function DigitsValue(s: string): nat
    requires AllDigits(s)
  {
    if |s| == 0 then 0 else DigitsValue(s[..|s| - 1]) * 10 + DigitValue(s[|s| - 1])
  }

  /** White space that `NumberStyles.AllowLeadingWhite/AllowTrailingWhite` skip. */
  predicate IsNumberWhite(c: char) {
    ('\U{9}' <= c <= '\U{D}') || c == ' '
  }

  /** `TryParse` with `NumberStyles.Integer` into the range `lo..hi`. */
  function ParseInteger(s: string, lo: int, hi: int): (r: Option<int>)
    ensures r.Some? ==> lo <= r.value <= hi
  {
    var t := Text.TrimEndBy(Text.TrimStartBy(s, IsNumberWhite), IsNumberWhite);
    if |t| == 0 then None
    else
      var body := if t[0] == '-' || t[0] == '+' then t[1..] else t;
      if |body| == 0 || !AllDigits(body) then None
      else
        var v := if t[0] == '-' then -(DigitsValue(body) as int) else DigitsValue(body) as int;
        if lo <= v <= hi then Some(v) else None
  }

  /** `int.TryParse`. */
  function TryParseInt32(s: string): Option<int> {
    ParseInteger(s, Int32Min, Int32Max)
  }

  /** `uint.TryParse`. */
  function TryParseUInt32(s: string): Option<int> {
    ParseInteger(s, 0, UInt32Max)
  }

  /** `ulong.TryParse`. */
  function TryParseUInt64(s: string): Option<int> {
    ParseInteger(s, 0, UInt64Max)
  }

  function DigitChar(d: nat): (c: char)
    requires d < 10
    ensures IsDigit(c) && DigitValue(c) == d
  {
    ('0' as int + d) as char
  }

  /** Decimal rendering without leading zeros (`ulong.ToString()`). */
  function ShowNat(n: nat): (s: string)
    ensures |s| >= 1 && AllDigits(s)
  {
    if n < 10 then [DigitChar(n)] else ShowNat(n / 10) + [DigitChar(n % 10)]
  }

  /** Reading back a rendered number gives the number. */
  lemma {:induction false} ShowNatValue(n: nat)
    ensures DigitsValue(ShowNat(n)) == n
  {
    if n >= 10 {
      ShowNatValue(n / 10);
      var s := ShowNat(n);
      assert s[..|s| - 1] == ShowNat(n / 10);
    }
  }

  /** `TryParse` accepts the rendering of every in-range natural number and
      returns that number, and rejects it when it is out of range. */
  lemma ParseShowNat(n: nat, lo: int, hi: int)
    requires lo <= 0
    ensures ParseInteger(ShowNat(n), lo, hi) == if n <= hi then Some(n) else None
  {
    var s := ShowNat(n);
    ShowNatValue(n);
    assert !IsNumberWhite(s[0]) && !IsNumberWhite(s[|s| - 1]);
    assert Text.TrimStartBy(s, IsNumberWhite) == s;
    assert Text.TrimEndBy(s, IsNumberWhite) == s;
  }

  /** Text that starts with something other than white space, a sign or a
      digit is never a number. */
  lemma ParseRejectsNonNumericStart(s: string, lo: int, hi: int)
    requires |s| > 0 && !IsNumberWhite(s[0]) && !IsDigit(s[0]) && s[0] != '-' && s[0] != '+'
    ensures ParseInteger(s, lo, hi).None?
  {
    var t := Text.TrimEndBy(Text.TrimStartBy(s, IsNumberWhite), IsNumberWhite);
    assert Text.TrimStartBy(s, IsNumberWhite) == s;
    if |t| > 0 {
      assert t[0] == s[0];
      assert !AllDigits(t);
    }
  }
}

=== FILE: player_commands.dfy ===
/**
 * The player commands whose outcome the plugin remembers or checks:
 * `!kick`, `!goto`, `!bring`, `!noclip`, `!freeze` and `!unfreeze`, the
 * timed unfreeze a freeze may schedule, and the disconnect hook. For the
 * session the plugin keeps two sets of player slots: those it gave noclip
 * and those it froze.
 */
module PlayerCommands {
  import opened Wrappers
  import Text
  import Numbers
  import opened Session
  import PlayerUtils
  import opened TargetCheck

  /** `_noclipPlayers` and `_frozenPlayers`. */
  datatype Sets = Sets(noclip: set<int>, frozen: set<int>)

  /** Seconds between the kick notice and the kick. */
  const KickDelay: int := 2

  /** The slots of some players. */
  function Slots(ps: seq<Player>): set<int> {
    set p | p in ps :: p.slot
  }

  /** Whether some effect moves a player. */
  predicate Moves(r: seq<Effect>) {
    exists i :: 0 <= i < |r| && r[i].Teleport?
  }

  /** Whether some effect schedules a kick. */
  predicate Kicks(r: seq<Effect>) {
    exists i :: 0 <= i < |r| && r[i].ScheduleKick?
  }

  lemma BroadcastIsChat(ps: seq<Player>, key: string)
    ensures !Moves(Broadcast(ps, key)) && !Kicks(Broadcast(ps, key))
    ensures forall e :: e in Broadcast(ps, key) ==> e.Chat?
  {
  }

  /** A refusal is a single reply, or the fault of a lookup that threw. */
  lemma RefusalIsQuiet(c: Checked)
    requires c.Refused? ==> |c.effects| == 1 && (c.effects[0].Reply? || c.effects[0].Fault?)
    ensures c.Refused? ==> !Moves(c.effects) && !Kicks(c.effects)
  {
  }

  /** Effects on the players concerned, then one line to every valid player. */
  function ThenBroadcast(first: seq<Effect>, ps: seq<Player>, key: string): (r: seq<Effect>)
    ensures |r| >= |first| && r[..|first|] == first
    ensures Moves(r) <==> Moves(first)
    ensures Kicks(r) <==> Kicks(first)
  {
    var all := Broadcast(ps, key);
    assert forall i :: |first| <= i < |first + all| ==> (first + all)[i] == all[i - |first|];
    first + all
  }

  // ----- kick -----

  /** What a kick that goes ahead does: everyone is told, the target gets a
      notice, and the kick follows after a short delay. */
  function KickEffects(ps: seq<Player>, t: Player, reason: string): (r: seq<Effect>)
    ensures Kicks(r) && !Moves(r)
    ensures r[|r| - 1] == ScheduleKick(t.steamId, reason, KickDelay)
  {
    var all := Broadcast(ps, "kicked_notification");
    BroadcastIsChat(ps, "kicked_notification");
    var r := all + [Chat(t.slot, "kicked_personal"), ScheduleKick(t.steamId, reason, KickDelay)];
    assert forall i :: 0 <= i < |all| ==> r[i] == all[i];
    assert r[|r| - 1].ScheduleKick?;
    r
  }

  /** `OnKickCommand`: `<target> [reason...]`. */
  function OnKick(w: World, cfg: Config, caller: Caller, args: seq<string>): (r: seq<Effect>)
    ensures Kicks(r) <==> HasPermission(w.grants, caller, cfg.kickPermission) && Named(w.players, args).Some?
    ensures Kicks(r) ==>
              r[|r| - 1] == ScheduleKick(Named(w.players, args).value.steamId, ReasonFrom(args, 1), KickDelay)
  {
    var c := CheckTarget(w, cfg.kickPermission, caller, args, 1, "kick_usage");
    RefusalIsQuiet(c);
    if c.Refused? then c.effects else KickEffects(w.players, c.player, ReasonFrom(args, 1))
  }

  /** The kick carries the words after the target, or the no-reason text
      when there are none. */
  lemma KickReason(w: World, cfg: Config, caller: Caller, args: seq<string>)
    requires HasPermission(w.grants, caller, cfg.kickPermission) && Named(w.players, args).Some?
    requires forall i :: 1 <= i < |args| ==> ' ' !in args[i]
    ensures var r := OnKick(w, cfg, caller, args);
            r[|r| - 1].ScheduleKick? &&
            (|args| == 1 ==> r[|r| - 1].reason == NoReason) &&
            (|args| > 1 ==> Text.Fields(r[|r| - 1].reason, ' ') == args[1..])
  {
    if |args| > 1 {
      ReasonWords(args, 1);
    }
  }

  // ----- goto and bring -----

  /** `OnGotoCommand`: the sending player is moved next to the target. */
  function OnGoto(w: World, cfg: Config, caller: Caller, args: seq<string>): (r: seq<Effect>)
    ensures Moves(r) <==>
              HasPermission(w.grants, caller, cfg.gotoPermission) && caller.ByPlayer? &&
              Named(w.players, args).Some? && Named(w.players, args).value.slot != caller.player.slot &&
              caller.player.pawnValid && Named(w.players, args).value.pawnValid
    ensures Moves(r) ==> r[0] == Teleport(caller.player.slot)
  {
    if !HasPermission(w.grants, caller, cfg.gotoPermission) then [Reply("no_permission")]
    else if caller.Console? then [Reply("player_only_command")]
    else
      var c := CheckTarget(w, cfg.gotoPermission, caller, args, 1, "goto_usage");
      RefusalIsQuiet(c);
      if c.Refused? then c.effects
      else
        var admin := caller.player;
        if admin.slot == c.player.slot then [Reply("cannot_target_self_goto")]
        else if !admin.pawnValid || !c.player.pawnValid then [Reply("both_must_be_alive")]
        else
          var first := [Teleport(admin.slot), Chat(admin.slot, "goto_success")];
          assert Moves(first) by { assert first[0].Teleport?; }
          ThenBroadcast(first, w.players, "goto_notification")
  }

  /** `OnBringCommand`: the target is moved to where the sending player
      aims. `aim` is whether the engine's trace from the sender's eyes found
      a position. */
  function OnBring(w: World, cfg: Config, caller: Caller, args: seq<string>, aim: bool): (r: seq<Effect>)
    ensures Moves(r) <==>
              HasPermission(w.grants, caller, cfg.bringPermission) && caller.ByPlayer? &&
              Named(w.players, args).Some? && Named(w.players, args).value.slot != caller.player.slot &&
              Named(w.players, args).value.pawnValid && aim
    ensures Moves(r) ==> r[0] == Teleport(Named(w.players, args).value.slot)
  {
    if !HasPermission(w.grants, caller, cfg.bringPermission) then [Reply("no_permission")]
    else if caller.Console? then [Reply("player_only_command")]
    else
      var c := CheckTarget(w, cfg.bringPermission, caller, args, 1, "bring_usage");
      RefusalIsQuiet(c);
      if c.Refused? then c.effects
      else
        var t := c.player;
        if caller.player.slot == t.slot then [Reply("cannot_target_self_bring")]
        else if !t.pawnValid then [Reply("target_must_be_alive")]
        else if !aim then [Reply("no_valid_position")]
        else
          var first := [Teleport(t.slot), Chat(t.slot, "bring_success")];
          assert Moves(first) by { assert first[0].Teleport?; }
          ThenBroadcast(first, w.players, "bring_notification")
  }

  /** A player who names themself is refused by both commands with the
      matching reply, whatever the state of their pawns. */
  lemma SelfTargetRejected(w: World, cfg: Config, p: Player, args: seq<string>, aim: bool)
    requires Named(w.players, args).Some? && Named(w.players, args).value.slot == p.slot
    ensures HasPermission(w.grants, ByPlayer(p), cfg.gotoPermission) ==>
              OnGoto(w, cfg, ByPlayer(p), args) == [Reply("cannot_target_self_goto")]
    ensures HasPermission(w.grants, ByPlayer(p), cfg.bringPermission) ==>
              OnBring(w, cfg, ByPlayer(p), args, aim) == [Reply("cannot_target_self_bring")]
  {
  }

  // ----- noclip -----

  /** `OnNoclipCommand`: a target with noclip from the plugin loses it,
      any other target gets it. */
  function OnNoclip(s: Sets, w: World, cfg: Config, caller: Caller, args: seq<string>): (r: (Sets, seq<Effect>))
    ensures r.0.frozen == s.frozen
    ensures Named(w.players, args).None? || !HasPermission(w.grants, caller, cfg.noClipPermission) ==> r.0 == s
    ensures Named(w.players, args).Some? && HasPermission(w.grants, caller, cfg.noClipPermission) ==>
              var slot := Named(w.players, args).value.slot;
              (slot in r.0.noclip <==> slot !in s.noclip) &&
              r.0.noclip - {slot} == s.noclip - {slot} &&
              |r.1| > 0 && r.1[0] == SetNoclip(slot, slot in r.0.noclip)
  {
    var c := CheckTarget(w, cfg.noClipPermission, caller, args, 1, "noclip_usage");
    if c.Refused? then (s, c.effects)
    else
      var slot := c.player.slot;
      var noclip := Toggle(s.noclip, slot);
      var r := ThenBroadcast([SetNoclip(slot, slot in noclip), Chat(slot, "noclip_toggled_personal")],
                             w.players, "noclip_toggled_notification");
      assert r[0] == SetNoclip(slot, slot in noclip);
      (s.(noclip := noclip), r)
  }

  /** A slot in the set leaves it, any other slot joins it. */
  function Toggle(xs: set<int>, x: int): (r: set<int>)
    ensures x in r <==> x !in xs
    ensures r - {x} == xs - {x}
  {
    if x in xs then xs - {x} else xs + {x}
  }

  /** Toggling twice, with the same players, gives back the sets it started
      from. */
  lemma NoclipTwice(s: Sets, w: World, cfg: Config, caller: Caller, args: seq<string>)
    ensures OnNoclip(OnNoclip(s, w, cfg, caller, args).0, w, cfg, caller, args).0 == s
  {
    var s1 := OnNoclip(s, w, cfg, caller, args).0;
    var s2 := OnNoclip(s1, w, cfg, caller, args).0;
    if Named(w.players, args).Some? && HasPermission(w.grants, caller, cfg.noClipPermission) {
      var slot := Named(w.players, args).value.slot;
      assert s2.noclip - {slot} == s.noclip - {slot};
      assert slot in s2.noclip <==> slot in s.noclip;
      assert s2.noclip == s.noclip by {
        forall x
          ensures x in s2.noclip <==> x in s.noclip
        {
          if x != slot {
            assert x in s2.noclip <==> x in s2.noclip - {slot};
            assert x in s.noclip <==> x in s.noclip - {slot};
          }
        }
      }
    }
  }

  // ----- freeze and unfreeze -----

  /** The players a freeze or unfreeze acts on: the living ones only for a
      freeze, dead ones too for an unfreeze. A lookup that throws acts on
      nobody. */
  function Targets(w: World, args: seq<string>, includeDead: bool): (r: seq<Player>)
    ensures forall p :: p in r ==> p in w.players && p.isValid
  {
    if |args| == 0 then []
    else
      match PlayerUtils.FindPlayersByTarget(w.players, args[0], includeDead)
      case Throws => []
      case Done(ps) => ps
  }

  /** The delay of the timed unfreeze: the second argument, when it reads
      as an `int` above zero. */
  function UnfreezeDelay(args: seq<string>): (d: Option<int>)
    ensures d.Some? ==> 0 < d.value <= Numbers.Int32Max
    ensures d.Some? <==> |args| >= 2 && Numbers.TryParseInt32(args[1]).Some? && Numbers.TryParseInt32(args[1]).value > 0
  {
    if |args| >= 2 then
      var parsed := Numbers.TryParseInt32(args[1]);
      if parsed.Some? && parsed.value > 0 then parsed else None
    else None
  }

  /** A second argument written as digits gives a timed unfreeze exactly
      when it is positive and fits an `int`. */
  lemma UnfreezeDelayDigits(target: string, n: nat)
    ensures UnfreezeDelay([target, Numbers.ShowNat(n)]) == if 0 < n <= Numbers.Int32Max then Some(n) else None
  {
    Numbers.ParseShowNat(n, Numbers.Int32Min, Numbers.Int32Max);
  }

  /** `PlayerUtils.Freeze` on each target, each followed by its timed
      unfreeze when there is a delay. */
  function FreezeEach(targets: seq<Player>, delay: Option<int>): (r: seq<Effect>)
    ensures forall i :: 0 <= i < |targets| ==> Freeze(targets[i].slot) in r
    ensures delay.Some? ==> forall i :: 0 <= i < |targets| ==> ScheduleUnfreeze(targets[i].slot, delay.value) in r
    ensures forall e :: e in r ==> e.Freeze? || (e.ScheduleUnfreeze? && delay == Some(e.delaySeconds))
  {
    if |targets| == 0 then []
    else
      var timer := if delay.Some? then [ScheduleUnfreeze(targets[0].slot, delay.value)] else [];
      var rest := FreezeEach(targets[1..], delay);
      assert forall i :: 1 <= i < |targets| ==> targets[i] == targets[1..][i - 1];
      [Freeze(targets[0].slot)] + timer + rest
  }

  /** `PlayerUtils.Unfreeze` on each target. */
  function UnfreezeEach(targets: seq<Player>): (r: seq<Effect>)
    ensures |r| == |targets|
    ensures forall i :: 0 <= i < |r| ==> r[i] == Unfreeze(targets[i].slot)
    ensures forall e :: e in r ==> e.Unfreeze?
  {
    if |targets| == 0 then [] else [Unfreeze(targets[0].slot)] + UnfreezeEach(targets[1..])
  }

  /** The line everyone sees: one naming the target, or one with a count. */
  function TargetsNotice(ps: seq<Player>, targets: seq<Player>, single: string, multiple: string): (r: seq<Effect>)
    ensures forall e :: e in r ==> e.Chat?
  {
    BroadcastIsChat(ps, single);
    BroadcastIsChat(ps, multiple);
    Broadcast(ps, if |targets| == 1 then single else multiple)
  }

  lemma ChatAllIsChat(ps: seq<Player>, key: string)
    ensures forall e :: e in ChatAll(ps, key) ==> e.Chat?
  {
  }

  /** `OnFreezeCommand`: `<target> [seconds]`, living players only. */
  function OnFreeze(s: Sets, w: World, cfg: Config, caller: Caller, args: seq<string>): (r: (Sets, seq<Effect>))
    ensures r.0.noclip == s.noclip
    ensures r.0.frozen == if HasPermission(w.grants, caller, cfg.freezePermission)
                          then s.frozen + Slots(Targets(w, args, false)) else s.frozen
    ensures forall e :: e in r.1 && e.ScheduleUnfreeze? ==>
              e.slot in Slots(Targets(w, args, false)) && UnfreezeDelay(args) == Some(e.delaySeconds)
    ensures HasPermission(w.grants, caller, cfg.freezePermission) && UnfreezeDelay(args).Some? ==>
              forall p :: p in Targets(w, args, false) ==> ScheduleUnfreeze(p.slot, UnfreezeDelay(args).value) in r.1
  {
    if !HasPermission(w.grants, caller, cfg.freezePermission) then (s, [Reply("no_permission")])
    else if |args| < 1 then (s, [Reply("freeze_usage")])
    else
      var found := PlayerUtils.FindPlayersByTarget(w.players, args[0], false);
      assert Slots([]) == {};
      if found.Throws? then (s, [Fault])
      else if |found.value| == 0 then (s, [Reply("no_valid_targets")])
      else FreezeAll(s, w.players, found.value, UnfreezeDelay(args))
  }

  /** A freeze that goes ahead: each target is frozen and joins the frozen
      set, with its timed unfreeze when there is a delay, then the notices. */
  function FreezeAll(s: Sets, ps: seq<Player>, targets: seq<Player>, delay: Option<int>): (r: (Sets, seq<Effect>))
    ensures r.0 == s.(frozen := s.frozen + Slots(targets))
    ensures forall e :: e in r.1 && e.ScheduleUnfreeze? ==> e.slot in Slots(targets) && delay == Some(e.delaySeconds)
    ensures delay.Some? ==> forall p :: p in targets ==> ScheduleUnfreeze(p.slot, delay.value) in r.1
  {
    var freezes := FreezeEach(targets, delay);
    var notices := ChatAll(targets, "frozen_personal") +
                   TargetsNotice(ps, targets, "freeze_notification_single", "freeze_notification_multiple");
    ChatAllIsChat(targets, "frozen_personal");
    FreezeEachSlots(targets, delay);
    assert forall p :: p in targets ==> exists i :: 0 <= i < |targets| && targets[i] == p;
    (s.(frozen := s.frozen + Slots(targets)), freezes + notices)
  }

  /** The timed unfreezes a freeze schedules are for its own targets. */
  lemma {:induction false} FreezeEachSlots(targets: seq<Player>, delay: Option<int>)
    ensures forall e :: e in FreezeEach(targets, delay) && e.ScheduleUnfreeze? ==> e.slot in Slots(targets)
    decreases |targets|
  {
    if |targets| > 0 {
      FreezeEachSlots(targets[1..], delay);
      assert Slots(targets[1..]) <= Slots(targets) by {
        forall x | x in Slots(targets[1..])
          ensures x in Slots(targets)
        {
          var p :| p in targets[1..] && p.slot == x;
          assert p in targets;
        }
      }
    }
  }

  /** `OnUnfreezeCommand`: `<target>`, dead players included. */
  function OnUnfreeze(s: Sets, w: World, cfg: Config, caller: Caller, args: seq<string>): (r: (Sets, seq<Effect>))
    ensures r.0.noclip == s.noclip
    ensures r.0.frozen == if HasPermission(w.grants, caller, cfg.unfreezePermission)
                          then s.frozen - Slots(Targets(w, args, true)) else s.frozen
    ensures forall e :: e in r.1 ==> e.Unfreeze? || e.Chat? || e.Reply? || e.Fault?
  {
    if !HasPermission(w.grants, caller, cfg.unfreezePermission) then (s, [Reply("no_permission")])
    else if |args| < 1 then (s, [Reply("unfreeze_usage")])
    else
      match PlayerUtils.FindPlayersByTarget(w.players, args[0], true)
      case Throws => (s, [Fault])
      case Done(targets) =>
        if |targets| == 0 then (s, [Reply("no_valid_targets")])
        else
          var notices := ChatAll(targets, "unfrozen_personal") +
                         TargetsNotice(w.players, targets, "unfreeze_notification_single", "unfreeze_notification_multiple");
          ChatAllIsChat(targets, "unfrozen_personal");
          var unfreezes := UnfreezeEach(targets);
          assert forall e :: e in unfreezes + notices ==> e in unfreezes || e in notices;
          (s.(frozen := s.frozen - Slots(targets)), unfreezes + notices)
  }

  /** The scheduled unfreeze when it fires: it acts only on a slot that a
      valid player still holds and that is still in the frozen set. */
  function FireUnfreeze(s: Sets, ps: seq<Player>, slot: int): (r: (Sets, seq<Effect>))
    ensures r.0.noclip == s.noclip
    ensures r.1 != [] <==> slot in s.frozen && exists p :: p in ps && p.isValid && p.slot == slot
    ensures r.1 != [] ==> r.1 == [Unfreeze(slot)] && r.0.frozen == s.frozen - {slot}
    ensures r.1 == [] ==> r.0 == s
  {
    var player := FirstOf(ps, (p: Player) => p.isValid && p.slot == slot);
    if player.None? then (s, [])
    else if slot in s.frozen then (s.(frozen := s.frozen - {slot}), [Unfreeze(slot)])
    else (s, [])
  }

  /** `OnPlayerDisconnect`: the slot leaves both sets. */
  function OnPlayerDisconnect(s: Sets, slot: int): (r: Sets)
    ensures slot !in r.noclip && slot !in r.frozen
    ensures forall x :: x != slot ==> (x in r.noclip <==> x in s.noclip) && (x in r.frozen <==> x in s.frozen)
  {
    Sets(s.noclip - {slot}, s.frozen - {slot})
  }

  // ----- how the pieces fit -----

  /** A single player frozen with a timer and still connected is released
      when the timer fires. */
  lemma TimedFreezeReleases(s: Sets, w: World, cfg: Config, caller: Caller, args: seq<string>, p: Player)
    requires HasPermission(w.grants, caller, cfg.freezePermission)
    requires p in Targets(w, args, false)
    ensures var (s1, effects) := OnFreeze(s, w, cfg, caller, args);
            p.slot in s1.frozen &&
            FireUnfreeze(s1, w.players, p.slot) == (s1.(frozen := s1.frozen - {p.slot}), [Unfreeze(p.slot)])
  {
    var s1 := OnFreeze(s, w, cfg, caller, args).0;
    assert p.slot in Slots(Targets(w, args, false));
    assert p in w.players && p.isValid;
  }

  /** An unfreeze or a disconnect in between leaves the timer nothing to do. */
  lemma TimerCancelled(s: Sets, ps: seq<Player>, slot: int)
    requires slot !in s.frozen
    ensures FireUnfreeze(s, ps, slot) == (s, [])
  {
  }

  /** Whoever a freeze target selects, the same unfreeze target selects too,
      so an unfreeze with the freeze's target releases every player it
      froze. */
  lemma {:induction false} FreezeTargetsUnfrozen(w: World, args: seq<string>)
    ensures forall p :: p in Targets(w, args, false) ==> p in Targets(w, args, true)
  {
    if |args| > 0 {
      var g := PlayerUtils.GroupOf(Text.Lower(args[0]));
      if g.Some? {
        var alive := PlayerUtils.Pool(w.players, false);
        var all := PlayerUtils.Pool(w.players, true);
        forall p | p in PlayerUtils.SelectGroup(alive, g.value)
          ensures p in PlayerUtils.SelectGroup(all, g.value)
        {
          assert p in alive;
          assert p in all;
        }
      } else {
        PlayerUtils.SingleTargetIgnoresAlive(w.players, args[0]);
      }
    }
  }

  /** Freezing and then unfreezing with the same target, while the players
      stay the same, leaves none of the frozen targets in the frozen set. */
  lemma FreezeThenUnfreeze(s: Sets, w: World, cfg: Config, caller: Caller, args: seq<string>)
    requires HasPermission(w.grants, caller, cfg.freezePermission)
    requires HasPermission(w.grants, caller, cfg.unfreezePermission)
    ensures var s1 := OnFreeze(s, w, cfg, caller, args).0;
            var s2 := OnUnfreeze(s1, w, cfg, caller, args).0;
            s2.noclip == s.noclip &&
            forall p :: p in Targets(w, args, false) ==> p.slot !in s2.frozen
  {
    FreezeTargetsUnfrozen(w, args);
    var s1 := OnFreeze(s, w, cfg, caller, args).0;
    var s2 := OnUnfreeze(s1, w, cfg, caller, args).0;
    forall p | p in Targets(w, args, false)
      ensures p.slot !in s2.frozen
    {
      assert p in Targets(w, args, true);
      assert p.slot in Slots(Targets(w, args, true));
    }
  }
}

=== FILE: player_utils.dfy ===
/**
 * Target resolution for commands: reading a SteamID in any of its three
 * textual forms, finding one player or a group of players from a command
 * argument, and the team names and aliases.
 */
module PlayerUtils {
  import opened Wrappers
  import opened Numbers
  import Text
  import opened Session

  /** The SteamID64 of account 0 in the public universe. */
  const SteamIdBase: nat := 76561197960265728

  /** The outcome of `TryParseSteamId`: `Overflow` is the exception
      `ulong.Parse` throws for a digit run above `ulong.MaxValue`. */
  datatype SteamIdParse = Parsed(id: nat) | NotParsed | Overflow

  // ----- the two regular expressions -----

  /** The length of the run of ASCII digits starting at `i` (the greedy `\d+`). */
  function DigitRun(s: string, i: nat): (n: nat)
    requires i <= |s|
    ensures i + n <= |s|
    ensures forall k :: i <= k < i + n ==> IsDigit(s[k])
    ensures i + n == |s| || !IsDigit(s[i + n])
    decreases |s| - i
  {
    if i < |s| && IsDigit(s[i]) then 1 + DigitRun(s, i + 1) else 0
  }

  /** `STEAM_(\d):(\d):(\d+)` matches at `i`. */
  predicate Steam2At(s: string, i: nat) {
    i + 11 <= |s| && s[i..i + 6] == "STEAM_" && IsDigit(s[i + 6]) && s[i + 7] == ':'
    && IsDigit(s[i + 8]) && s[i + 9] == ':' && IsDigit(s[i + 10])
  }

  /** `\[U:1:(\d+)\]` matches at `i`. */
  predicate Steam3At(s: string, i: nat) {
    i + 6 <= |s| && s[i..i + 5] == "[U:1:" && IsDigit(s[i + 5])
    && i + 5 + DigitRun(s, i + 5) < |s| && s[i + 5 + DigitRun(s, i + 5)] == ']'
  }

  /** The leftmost position in `from..n` where `at` holds (`Regex.Match`). */
  function Leftmost(n: nat, from: nat, at: nat -> bool): (r: Option<nat>)
    requires from <= n
    ensures r.Some? ==> from <= r.value <= n && at(r.value)
    ensures r.Some? ==> forall k :: from <= k < r.value ==> !at(k)
    ensures r.None? <==> forall k :: from <= k <= n ==> !at(k)
    decreases n - from
  {
    if at(from) then Some(from)
    else if from == n then None
    else Leftmost(n, from + 1, at)
  }

  /** `ulong.Parse` of a digit run followed by unchecked `ulong` arithmetic. */
  function Wrapped(base: nat, digits: nat, scale: nat, extra: nat): (r: SteamIdParse)
    ensures r.Parsed? ==> r.id <= UInt64Max
    ensures r.Overflow? <==> digits > UInt64Max
  {
    if digits > UInt64Max then Overflow
    else Parsed((base + digits * scale + extra) % UInt64Modulus)
  }

  /** The value of the leftmost `[U:1:N]`, if any. */
  function Steam3Match(input: string): (r: SteamIdParse)
    ensures r.Parsed? ==> r.id <= UInt64Max
  {
    match Leftmost(|input|, 0, (i: nat) => Steam3At(input, i))
    case Some(j) =>
      var n := DigitRun(input, j + 5);
      Wrapped(SteamIdBase, DigitsValue(input[j + 5..j + 5 + n]), 1, 0)
    case None => NotParsed
  }

  /** The value of the leftmost `STEAM_X:Y:Z`, else of the leftmost `[U:1:N]`. */
  function PatternMatch(input: string): (r: SteamIdParse)
    ensures r.Parsed? ==> r.id <= UInt64Max
  {
    match Leftmost(|input|, 0, (i: nat) => Steam2At(input, i))
    case Some(j) =>
      var n := DigitRun(input, j + 10);
      Wrapped(SteamIdBase, DigitsValue(input[j + 10..j + 10 + n]), 2, DigitValue(input[j + 8]))
    case None => Steam3Match(input)
  }

  /** `TryParseSteamId`: blank text fails; a plain number is accepted only
      above the base; otherwise the leftmost `STEAM_X:Y:Z` gives
      base + 2Z + Y and the leftmost `[U:1:N]` gives base + N. */
  function TryParseSteamId(input: string): (r: SteamIdParse)
    ensures Text.IsNullOrWhiteSpace(input) ==> r == NotParsed
    ensures r.Parsed? ==> r.id <= UInt64Max
  {
    if Text.IsNullOrWhiteSpace(input) then NotParsed
    else
      var direct := TryParseUInt64(input);
      if direct.Some? && direct.value > SteamIdBase then Parsed(direct.value)
      else PatternMatch(input)
  }

  /** `STEAM_X:Y:Z` text as the legacy format writes it. */
  function Steam2Text(x: nat, y: nat, z: nat): string
    requires x < 10 && y < 10
  {
    "STEAM_" + [DigitChar(x)] + ":" + [DigitChar(y)] + ":" + ShowNat(z)
  }

  /** `[U:1:N]` text. */
  function Steam3Text(account: nat): string {
    "[U:1:" + ShowNat(account) + "]"
  }

  /** The legacy rendering of the SteamID64 of `account`: the low bit is Y
      and the rest is Z. */
  function RenderSteam2(account: nat): string {
    Steam2Text(1, account % 2, account / 2)
  }

  lemma MatchStarts(s: string, i: nat)
    ensures Steam2At(s, i) ==> s[i] == 'S'
    ensures Steam3At(s, i) ==> s[i] == '['
  {
    if Steam2At(s, i) {
      assert s[i] == s[i..i + 6][0];
    }
    if Steam3At(s, i) {
      assert s[i] == s[i..i + 5][0];
    }
  }

  /** Text without an `S` or a `[` matches neither pattern. */
  lemma NoPatternMatch(s: string)
    requires forall k :: 0 <= k < |s| ==> s[k] != 'S' && s[k] != '['
    ensures PatternMatch(s) == NotParsed
  {
    forall i: nat | i <= |s|
      ensures !Steam2At(s, i) && !Steam3At(s, i)
    {
      MatchStarts(s, i);
    }
    var a := Leftmost(|s|, 0, (i: nat) => Steam2At(s, i));
    var b := Leftmost(|s|, 0, (i: nat) => Steam3At(s, i));
    assert a.None? && b.None?;
  }

  lemma NotBlank(s: string, k: nat)
    requires k < |s| && !Text.IsWhiteSpace(s[k])
    ensures !Text.IsNullOrWhiteSpace(s)
  {
  }

  /** Text opening with a pattern's first character is no plain number, so
      only the patterns are tried. */
  lemma PatternOnly(s: string)
    requires |s| > 0 && (s[0] == 'S' || s[0] == '[')
    ensures TryParseSteamId(s) == PatternMatch(s)
  {
    NotBlank(s, 0);
    ParseRejectsNonNumericStart(s, 0, UInt64Max);
  }

  /** A run of digits ends at the first non-digit. */
  lemma {:induction false} DigitRunSpan(s: string, i: nat, j: nat)
    requires i <= j < |s|
    requires forall k :: i <= k < j ==> IsDigit(s[k])
    requires !IsDigit(s[j])
    ensures DigitRun(s, i) == j - i
    decreases j - i
  {
    if i < j {
      DigitRunSpan(s, i + 1, j);
    }
  }

  /** A plain decimal SteamID64 above the base reads back as itself; at or
      below the base it is not a SteamID at all. */
  lemma SteamIdDecimal(n: nat)
    requires n <= UInt64Max
    ensures TryParseSteamId(ShowNat(n)) == if n > SteamIdBase then Parsed(n) else NotParsed
  {
    var s := ShowNat(n);
    NotBlank(s, 0);
    ParseShowNat(n, 0, UInt64Max);
    assert TryParseUInt64(s) == Some(n);
    if n <= SteamIdBase {
      assert forall k :: 0 <= k < |s| ==> IsDigit(s[k]);
      NoPatternMatch(s);
      assert TryParseSteamId(s) == PatternMatch(s);
    }
  }

  /** The leftmost `STEAM_X:Y:Z` of the rendered text is at its start. */
  lemma Steam2TextMatch(x: nat, y: nat, z: nat)
    requires x < 10 && y < 10
    ensures |Steam2Text(x, y, z)| > 0 && Steam2Text(x, y, z)[0] == 'S'
    ensures PatternMatch(Steam2Text(x, y, z)) == Wrapped(SteamIdBase, z, 2, y)
  {
    var s := Steam2Text(x, y, z);
    var d := ShowNat(z);
    assert s[0..6] == "STEAM_";
    assert forall k :: 10 <= k < |s| ==> s[k] == d[k - 10];
    assert Steam2At(s, 0);
    var m := Leftmost(|s|, 0, (i: nat) => Steam2At(s, i));
    assert m == Some(0);
    var n := DigitRun(s, 10);
    assert 10 + n == |s|;
    assert s[10..10 + n] == d;
    ShowNatValue(z);
    assert DigitValue(s[8]) == y;
  }

  /** `STEAM_X:Y:Z`: the universe digit X is ignored and the result is
      base + 2Z + Y, wrapped to 64 bits; a Z above `ulong.MaxValue` throws. */
  lemma SteamId2Form(x: nat, y: nat, z: nat)
    requires x < 10 && y < 10
    ensures TryParseSteamId(Steam2Text(x, y, z)) == Wrapped(SteamIdBase, z, 2, y)
  {
    Steam2TextMatch(x, y, z);
    PatternOnly(Steam2Text(x, y, z));
  }

  /** The leftmost `[U:1:N]` of the rendered text is at its start. */
  lemma Steam3TextMatch(account: nat)
    ensures |Steam3Text(account)| > 0 && Steam3Text(account)[0] == '['
    ensures Steam3Match(Steam3Text(account)) == Wrapped(SteamIdBase, account, 1, 0)
  {
    var s := Steam3Text(account);
    var d := ShowNat(account);
    assert forall k :: 5 <= k < |s| - 1 ==> s[k] == d[k - 5];
    assert forall k :: 5 <= k < |s| - 1 ==> IsDigit(s[k]);
    DigitRunSpan(s, 5, |s| - 1);
    var n := DigitRun(s, 5);
    assert s[0..5] == "[U:1:";
    assert Steam3At(s, 0);
    var m := Leftmost(|s|, 0, (i: nat) => Steam3At(s, i));
    assert m == Some(0);
    assert s[5..5 + n] == d;
    ShowNatValue(account);
  }

  /** The rendered `[U:1:N]` text holds no `STEAM_X:Y:Z`. */
  lemma Steam3TextNoSteam2(account: nat)
    ensures PatternMatch(Steam3Text(account)) == Steam3Match(Steam3Text(account))
  {
    var s := Steam3Text(account);
    assert forall k :: 5 <= k < |s| - 1 ==> s[k] == ShowNat(account)[k - 5];
    forall i: nat | i <= |s|
      ensures !Steam2At(s, i)
    {
      MatchStarts(s, i);
    }
    var a := Leftmost(|s|, 0, (i: nat) => Steam2At(s, i));
    assert a.None?;
  }

  /** `[U:1:N]` gives base + N, wrapped to 64 bits; an N above
      `ulong.MaxValue` throws. */
  lemma SteamId3Form(account: nat)
    ensures TryParseSteamId(Steam3Text(account)) == Wrapped(SteamIdBase, account, 1, 0)
  {
    Steam3TextMatch(account);
    PatternOnly(Steam3Text(account));
    Steam3TextNoSteam2(account);
  }

  /** Every SteamID64 at or above the base, the SteamID64 of some account,
      survives the round trip through the legacy text and through the
      `[U:1:N]` text. */
  lemma SteamIdTextRoundTrip(account: nat)
    requires SteamIdBase + account <= UInt64Max
    ensures TryParseSteamId(RenderSteam2(account)) == Parsed(SteamIdBase + account)
    ensures TryParseSteamId(Steam3Text(account)) == Parsed(SteamIdBase + account)
  {
    SteamId2Form(1, account % 2, account / 2);
    WrappedInRange(SteamIdBase, account / 2, 2, account % 2, SteamIdBase + account);
    SteamId3Form(account);
    WrappedInRange(SteamIdBase, account, 1, 0, SteamIdBase + account);
  }

  /** Without overflow the unchecked arithmetic is the plain sum. */
  lemma WrappedInRange(base: nat, digits: nat, scale: nat, extra: nat, id: nat)
    requires scale >= 1
    requires base + digits * scale + extra == id <= UInt64Max
    ensures Wrapped(base, digits, scale, extra) == Parsed(id)
  {
    assert digits <= digits * scale by {
      assert digits * scale == digits + digits * (scale - 1);
    }
    assert 0 <= id < UInt64Modulus;
    assert id % UInt64Modulus == id;
  }


  // ----- finding players -----

  /** A target lookup either completes or throws out of the handler. */
  datatype Lookup<T> = Done(value: T) | Throws

  /** `FindPlayerByTarget`: among the valid players, a number is a slot, then
      a SteamID, then a name equal ignoring case, then the only name that
      contains the target ignoring case. */
  function FindPlayerByTarget(ps: seq<Player>, target: string): (r: Lookup<Option<Player>>)
    ensures r.Done? && r.value.Some? ==> r.value.value in ps && r.value.value.isValid
    ensures r.Throws? <==> TryParseInt32(target).None? && TryParseSteamId(target).Overflow?
  {
    var valid := ValidPlayers(ps);
    var slot := TryParseInt32(target);
    if slot.Some? then Done(FirstOf(valid, (p: Player) => p.slot == slot.value))
    else
      match TryParseSteamId(target)
      case Overflow => Throws
      case Parsed(id) => Done(FirstOf(valid, (p: Player) => p.steamId == id))
      case NotParsed =>
        var exact := FirstOf(valid, (p: Player) => Text.EqualsIgnoreCase(p.name, target));
        if exact.Some? then Done(exact)
        else
          var partial := Filter(valid, (p: Player) => Text.ContainsIgnoreCase(p.name, target));
          if |partial| == 1 then Done(Some(partial[0])) else Done(None)
  }

  /** A slot number finds the valid player in that slot, or nobody when no
      valid player has it. */
  lemma FindBySlot(ps: seq<Player>, slot: nat)
    requires slot <= Int32Max
    ensures FindPlayerByTarget(ps, ShowNat(slot)).Done?
    ensures var r := FindPlayerByTarget(ps, ShowNat(slot)).value;
            (r.Some? ==> r.value.slot == slot) &&
            (r.None? <==> forall p :: p in ps && p.isValid ==> p.slot != slot)
  {
    ParseShowNat(slot, Int32Min, Int32Max);
  }

  /** A SteamID64 above the base finds the valid player with that SteamID, or
      nobody; it is never taken for a slot. */
  lemma FindBySteamId(ps: seq<Player>, id: nat)
    requires SteamIdBase < id <= UInt64Max
    ensures FindPlayerByTarget(ps, ShowNat(id)).Done?
    ensures var r := FindPlayerByTarget(ps, ShowNat(id)).value;
            (r.Some? ==> r.value.steamId == id) &&
            (r.None? <==> forall p :: p in ps && p.isValid ==> p.steamId != id)
  {
    ParseShowNat(id, Int32Min, Int32Max);
    SteamIdDecimal(id);
  }

  /** A name is matched before any partial match: the only valid player whose
      name equals the target ignoring case is found, whatever else contains it. */
  lemma FindByExactName(ps: seq<Player>, target: string, p: Player)
    requires TryParseInt32(target).None? && TryParseSteamId(target).NotParsed?
    requires p in ps && p.isValid && Text.EqualsIgnoreCase(p.name, target)
    requires forall q :: q in ps && q.isValid && Text.EqualsIgnoreCase(q.name, target) ==> q == p
    ensures FindPlayerByTarget(ps, target) == Done(Some(p))
  {
  }

  /** Two different valid players whose names contain the target, and no exact
      name: the lookup finds nobody. */
  lemma FindByAmbiguousName(ps: seq<Player>, target: string, p: Player, q: Player)
    requires TryParseInt32(target).None? && TryParseSteamId(target).NotParsed?
    requires forall x :: x in ps && x.isValid ==> !Text.EqualsIgnoreCase(x.name, target)
    requires p in ps && p.isValid && Text.ContainsIgnoreCase(p.name, target)
    requires q in ps && q.isValid && Text.ContainsIgnoreCase(q.name, target)
    requires p != q
    ensures FindPlayerByTarget(ps, target) == Done(None)
  {
    var valid := ValidPlayers(ps);
    assert FirstOf(valid, (x: Player) => Text.EqualsIgnoreCase(x.name, target)).None?;
    var partial := Filter(valid, (x: Player) => Text.ContainsIgnoreCase(x.name, target));
    TwoMembers(partial, p, q);
  }

  /** A sequence holding two different elements has at least two. */
  lemma TwoMembers<T>(xs: seq<T>, p: T, q: T)
    requires p in xs && q in xs && p != q
    ensures |xs| >= 2
  {
    var i :| 0 <= i < |xs| && xs[i] == p;
    var j :| 0 <= j < |xs| && xs[j] == q;
    assert i != j;
  }

  /** No player appears twice among the connected players. */
  predicate Distinct<T(==)>(xs: seq<T>) {
    forall i, j :: 0 <= i < j < |xs| ==> xs[i] != xs[j]
  }

  lemma {:induction false} FilterSingle<T(!new)>(xs: seq<T>, f: T -> bool, x: T)
    requires Distinct(xs) && x in xs && f(x)
    requires forall y :: y in xs && f(y) ==> y == x
    ensures Filter(xs, f) == [x]
  {
    if xs[0] == x {
      assert forall y :: y in xs[1..] ==> y != x;
      var rest := Filter(xs[1..], f);
      if |rest| > 0 {
        assert rest[0] in rest;
      }
    } else {
      FilterSingle(xs[1..], f, x);
    }
  }

  lemma {:induction false} FilterDistinct<T(!new)>(xs: seq<T>, f: T -> bool)
    requires Distinct(xs)
    ensures Distinct(Filter(xs, f))
  {
    if |xs| > 0 {
      FilterDistinct(xs[1..], f);
      var rest := Filter(xs[1..], f);
      if f(xs[0]) {
        assert xs[0] !in xs[1..];
        assert xs[0] !in rest;
        var r := [xs[0]] + rest;
        forall i, j | 0 <= i < j < |r|
          ensures r[i] != r[j]
        {
          if i == 0 {
            assert r[j] in rest;
          } else {
            assert r[i] == rest[i - 1] && r[j] == rest[j - 1];
          }
        }
      }
    }
  }

  /** The only valid player whose name contains the target is found when no
      name equals it. */
  lemma FindByUniquePartialName(ps: seq<Player>, target: string, p: Player)
    requires Distinct(ps)
    requires TryParseInt32(target).None? && TryParseSteamId(target).NotParsed?
    requires forall x :: x in ps && x.isValid ==> !Text.EqualsIgnoreCase(x.name, target)
    requires p in ps && p.isValid && Text.ContainsIgnoreCase(p.name, target)
    requires forall x :: x in ps && x.isValid && Text.ContainsIgnoreCase(x.name, target) ==> x == p
    ensures FindPlayerByTarget(ps, target) == Done(Some(p))
  {
    var valid := ValidPlayers(ps);
    FilterDistinct(ps, (x: Player) => x.isValid);
    FilterSingle(valid, (x: Player) => Text.ContainsIgnoreCase(x.name, target), p);
  }

  /** The `@` group targets. */
  datatype Group = All | Terrorists | CounterTerrorists | Alive | Dead | Bots | Humans

  /** The group a lower-cased target names, if any. */
  function GroupOf(key: string): Option<Group> {
    if key == "@all" then Some(All)
    else if key == "@t" || key == "@terrorists" then Some(Terrorists)
    else if key == "@ct" || key == "@counterterrorists" then Some(CounterTerrorists)
    else if key == "@alive" then Some(Alive)
    else if key == "@dead" then Some(Dead)
    else if key == "@bots" then Some(Bots)
    else if key == "@humans" then Some(Humans)
    else None
  }

  predicate IsGroupTarget(key: string) {
    GroupOf(key).Some?
  }

  /** The members of `pool` a group selects. */
  function SelectGroup(pool: seq<Player>, g: Group): (r: seq<Player>)
    ensures forall p :: p in r ==> p in pool
  {
    match g
    case All => pool
    case Terrorists => Filter(pool, (p: Player) => p.team == 2)
    case CounterTerrorists => Filter(pool, (p: Player) => p.team == 3)
    case Alive => Filter(pool, (p: Player) => p.IsAlive())
    case Dead => Filter(pool, (p: Player) => !p.IsAlive())
    case Bots => Filter(pool, (p: Player) => p.isBot)
    case Humans => Filter(pool, (p: Player) => !p.isBot)
  }

  /** The valid players, restricted to the living ones unless dead players
      are included. */
  function Pool(ps: seq<Player>, includeDead: bool): (r: seq<Player>)
    ensures forall p :: p in r <==> p in ps && p.isValid && (includeDead || p.IsAlive())
  {
    var valid := ValidPlayers(ps);
    if includeDead then valid else Filter(valid, (p: Player) => p.IsAlive())
  }

  /** `FindPlayersByTarget`: a group target selects from the valid players
      (the living ones unless dead players are included); any other target
      is a single-player lookup over all valid players. */
  function FindPlayersByTarget(ps: seq<Player>, target: string, includeDead: bool): (r: Lookup<seq<Player>>)
    ensures r.Done? ==> forall p :: p in r.value ==> p in ps && p.isValid
  {
    var g := GroupOf(Text.Lower(target));
    if g.Some? then Done(SelectGroup(Pool(ps, includeDead), g.value))
    else
      match FindPlayerByTarget(ps, target)
      case Throws => Throws
      case Done(found) => Done(if found.Some? then [found.value] else [])
  }

  /** Group targets never throw and honour the living-only restriction. */
  lemma GroupTargetsRespectAlive(ps: seq<Player>, target: string)
    requires IsGroupTarget(Text.Lower(target))
    ensures FindPlayersByTarget(ps, target, false).Done?
    ensures forall p :: p in FindPlayersByTarget(ps, target, false).value ==> p.IsAlive()
  {
  }

  /** A single-player target ignores the living-only restriction: the same
      player is found, dead or alive. */
  lemma SingleTargetIgnoresAlive(ps: seq<Player>, target: string)
    requires !IsGroupTarget(Text.Lower(target))
    ensures FindPlayersByTarget(ps, target, false) == FindPlayersByTarget(ps, target, true)
    ensures FindPlayersByTarget(ps, target, true) ==
            match FindPlayerByTarget(ps, target)
            case Throws => Throws
            case Done(found) => Done(if found.Some? then [found.value] else [])
  {
  }

  lemma GroupLookup(ps: seq<Player>, target: string, includeDead: bool, g: Group)
    requires GroupOf(Text.Lower(target)) == Some(g)
    ensures FindPlayersByTarget(ps, target, includeDead) == Done(SelectGroup(Pool(ps, includeDead), g))
  {
  }

  /** A group target written in any case selects its group. */
  lemma GroupTarget(ps: seq<Player>, target: string, key: string, includeDead: bool, g: Group)
    requires Text.Lower(target) == key && GroupOf(key) == Some(g)
    ensures FindPlayersByTarget(ps, target, includeDead) == Done(SelectGroup(Pool(ps, includeDead), g))
  {
    GroupLookup(ps, target, includeDead, g);
  }

  /** `p` is among the players a target resolves to. */
  predicate Selects(ps: seq<Player>, target: string, includeDead: bool, p: Player) {
    var r := FindPlayersByTarget(ps, target, includeDead);
    r.Done? && p in r.value
  }

  /** `@t` and `@terrorists`, in any case, select exactly the pool's terrorists. */
  lemma TerroristTargets(ps: seq<Player>, target: string, includeDead: bool)
    requires Text.Lower(target) == "@t" || Text.Lower(target) == "@terrorists"
    ensures forall p :: Selects(ps, target, includeDead, p) <==>
                        p in Pool(ps, includeDead) && p.team == 2
  {
    GroupTarget(ps, target, Text.Lower(target), includeDead, Terrorists);
  }

  /** `@ct` and `@counterterrorists`, in any case, select exactly the pool's
      counter-terrorists. */
  lemma CounterTerroristTargets(ps: seq<Player>, target: string, includeDead: bool)
    requires Text.Lower(target) == "@ct" || Text.Lower(target) == "@counterterrorists"
    ensures forall p :: Selects(ps, target, includeDead, p) <==>
                        p in Pool(ps, includeDead) && p.team == 3
  {
    GroupTarget(ps, target, Text.Lower(target), includeDead, CounterTerrorists);
  }

  /** `@all` selects the whole pool. */
  lemma AllTarget(ps: seq<Player>, target: string, includeDead: bool)
    requires Text.Lower(target) == "@all"
    ensures FindPlayersByTarget(ps, target, includeDead) == Done(Pool(ps, includeDead))
  {
    GroupTarget(ps, target, "@all", includeDead, All);
  }

  lemma SelectSplits(pool: seq<Player>)
    ensures forall p :: p in pool ==> (p in SelectGroup(pool, Alive) <==> p !in SelectGroup(pool, Dead))
    ensures forall p :: p in pool ==> (p in SelectGroup(pool, Bots) <==> p !in SelectGroup(pool, Humans))
  {
  }

  lemma TwoGroupTargets(ps: seq<Player>, t1: string, k1: string, g1: Group, t2: string, k2: string, g2: Group,
                        includeDead: bool)
    requires Text.Lower(t1) == k1 && GroupOf(k1) == Some(g1)
    requires Text.Lower(t2) == k2 && GroupOf(k2) == Some(g2)
    ensures FindPlayersByTarget(ps, t1, includeDead).value == SelectGroup(Pool(ps, includeDead), g1)
    ensures FindPlayersByTarget(ps, t2, includeDead).value == SelectGroup(Pool(ps, includeDead), g2)
  {
    GroupTarget(ps, t1, k1, includeDead, g1);
    GroupTarget(ps, t2, k2, includeDead, g2);
  }

  /** `@alive` and `@dead` split the pool. */
  lemma AliveDeadSplit(ps: seq<Player>, alive: string, dead: string, includeDead: bool)
    requires Text.Lower(alive) == "@alive" && Text.Lower(dead) == "@dead"
    ensures forall p :: p in Pool(ps, includeDead) ==>
              (Selects(ps, alive, includeDead, p) <==>
               !Selects(ps, dead, includeDead, p))
  {
    TwoGroupTargets(ps, alive, "@alive", Alive, dead, "@dead", Dead, includeDead);
    SelectSplits(Pool(ps, includeDead));
  }

  /** `@bots` and `@humans` split the pool. */
  lemma BotsHumansSplit(ps: seq<Player>, bots: string, humans: string, includeDead: bool)
    requires Text.Lower(bots) == "@bots" && Text.Lower(humans) == "@humans"
    ensures forall p :: p in Pool(ps, includeDead) ==>
              (Selects(ps, bots, includeDead, p) <==>
               !Selects(ps, humans, includeDead, p))
  {
    TwoGroupTargets(ps, bots, "@bots", Bots, humans, "@humans", Humans, includeDead);
    SelectSplits(Pool(ps, includeDead));
  }

  // ----- teams -----

  /** The teams a player can be moved to. */
  datatype Team = Spectator | T | CT

  function TeamNumber(t: Team): int {
    match t
    case Spectator => 1
    case T => 2
    case CT => 3
  }

  /** `GetTeamName`: the localization key of a team number. */
  function GetTeamName(teamNum: int): (key: string)
    ensures key == "team_unknown" <==> !(0 <= teamNum <= 3)
  {
    match teamNum
    case 0 => "team_unassigned"
    case 1 => "team_spectator"
    case 2 => "team_terrorist"
    case 3 => "team_ct"
    case _ => "team_unknown"
  }

  /** The accepted spellings of each team, lower case. */
  function TeamAliases(t: Team): seq<string> {
    match t
    case T => ["t", "terrorist", "terrorists", "2"]
    case CT => ["ct", "counterterrorist", "counterterrorists", "3"]
    case Spectator => ["spec", "spectator", "spectators", "1"]
  }

  /** `ParseTeam`: the team whose alias the lower-cased input is. */
  function ParseTeam(input: string): Option<Team> {
    var key := Text.Lower(input);
    if key in TeamAliases(T) then Some(T)
    else if key in TeamAliases(CT) then Some(CT)
    else if key in TeamAliases(Spectator) then Some(Spectator)
    else None
  }

  lemma LowerIdempotent(s: string)
    ensures Text.Lower(Text.Lower(s)) == Text.Lower(s)
  {
  }

  /** `ParseTeam` recognises exactly the aliases of a team, ignoring case;
      the numeric alias is the team number, whose name is a known team. */
  lemma ParseTeamAliases(input: string, t: Team)
    ensures ParseTeam(input) == Some(t) <==> Text.Lower(input) in TeamAliases(t)
    ensures ParseTeam(ShowNat(TeamNumber(t))) == Some(t)
    ensures GetTeamName(TeamNumber(t)) != "team_unknown"
  {
    TeamNumberText(t);
    var key := Text.Lower(input);
    match t
    case T =>
    case CT =>
      assert key in TeamAliases(CT) ==> key !in TeamAliases(T);
    case Spectator =>
      assert key in TeamAliases(Spectator) ==> key !in TeamAliases(T) && key !in TeamAliases(CT);
  }

  /** A team number, written as its one digit, parses back to the team. */
  lemma TeamNumberText(t: Team)
    ensures ParseTeam(ShowNat(TeamNumber(t))) == Some(t)
  {
    var n := TeamNumber(t);
    assert ShowNat(n) == [DigitChar(n)];
    assert Text.Lower([DigitChar(n)]) == [DigitChar(n)];
  }
}

=== FILE: records.dfy ===
/**
 * The persisted records: a sanction (ban, mute or gag — the three classes
 * are identical apart from the name of the revoked status) and an admin
 * grant. Time is an explicit integer clock `now`, in seconds since
 * 0001-01-01 UTC, instead of the `DateTime.UtcNow` the properties read.
 */
module Records {
  import opened Wrappers
  import Text

  /** Seconds since 0001-01-01 of `DateTime.MaxValue` (9999-12-31 23:59:59). */
  const MaxTime: int := 315537897599
  /** Seconds since 0001-01-01 of the largest MySQL `TIMESTAMP`
      (2038-01-19 03:14:07 UTC), the type of every `expires_at` column. */
  const TimestampMax: int := 64283080447
  const SecondsPerMinute: int := 60
  const SecondsPerDay: int := 86400

  /** A reading of `DateTime.UtcNow`. */
  predicate ValidTime(t: int) {
    0 <= t <= MaxTime
  }

  /** `BanStatus`, `MuteStatus`, `GagStatus`: `Revoked` stands for
      `Unbanned`, `Unmuted` and `Ungagged`. */
  datatype Status = Active | Expired | Revoked

  /** The `status` column text of a status: `'active'`, `'expired'` or the
      kind's revoked name (`'unbanned'`, `'unmuted'`, `'ungagged'`). */
  function StatusColumn(s: Status, revokedName: string): string {
    match s
    case Active => "active"
    case Expired => "expired"
    case Revoked => revokedName
  }

  /** Reading the column back into the enum: the value must name a member,
      ignoring case (Dapper's `Enum.Parse(type, value, true)`); any other
      text makes the read fail. */
  function ParseStatusColumn(text: string, revokedName: string): Option<Status> {
    if Text.EqualsIgnoreCase(text, "active") then Some(Active)
    else if Text.EqualsIgnoreCase(text, "expired") then Some(Expired)
    else if Text.EqualsIgnoreCase(text, revokedName) then Some(Revoked)
    else None
  }

  /** The revoked names the three tables use. */
  predicate DistinctRevokedName(revokedName: string) {
    !Text.EqualsIgnoreCase(revokedName, "active") && !Text.EqualsIgnoreCase(revokedName, "expired")
  }

  lemma EqualsIgnoreCaseTrans(a: string, b: string, c: string)
    requires Text.EqualsIgnoreCase(a, b) && Text.EqualsIgnoreCase(b, c)
    ensures Text.EqualsIgnoreCase(a, c)
  {
  }

  /** Writing a status and reading it back gives the status, and a text reads
      as a status exactly when it spells that status's column value in some
      case. */
  lemma StatusColumnRoundTrip(s: Status, text: string, revokedName: string)
    requires DistinctRevokedName(revokedName)
    ensures ParseStatusColumn(StatusColumn(s, revokedName), revokedName) == Some(s)
    ensures ParseStatusColumn(text, revokedName) == Some(s) <==>
            Text.EqualsIgnoreCase(text, StatusColumn(s, revokedName))
  {
    if Text.EqualsIgnoreCase(text, StatusColumn(s, revokedName)) {
      if s != Active && Text.EqualsIgnoreCase(text, "active") {
        EqualsIgnoreCaseTrans(StatusColumn(s, revokedName), text, "active");
        assert false;
      }
      if s == Revoked && Text.EqualsIgnoreCase(text, "expired") {
        EqualsIgnoreCaseTrans(revokedName, text, "expired");
        assert false;
      }
    }
  }

  /** The `expires_at` an insert computes from the clock and a duration in
      seconds: a positive duration is added to the clock (`DateTime.AddMinutes`
      / `AddDays`, which throw past `DateTime.MaxValue`), anything else means
      permanent. An expiry past the `TIMESTAMP` range is refused by the
      column (strict SQL mode), so the insert fails as well. */
  datatype Expiry = Permanent | Until(at: int) | OutOfRange {
    function AsOption(): Option<int>
      requires !OutOfRange?
    {
      if Until? then Some(at) else None
    }
  }

  function ExpiryAfter(now: int, seconds: int): (e: Expiry)
    ensures seconds <= 0 <==> e.Permanent?
    ensures e.OutOfRange? <==> seconds > 0 && now + seconds > TimestampMax
    ensures e.Until? ==> e.at == now + seconds && now < e.at <= TimestampMax
  {
    if seconds <= 0 then Permanent
    else if now + seconds > MaxTime then OutOfRange
    else if now + seconds > TimestampMax then OutOfRange
    else Until(now + seconds)
  }

  /** The acting administrator recorded with a mutation. */
  datatype AdminContext = AdminContext(name: string, steamId: nat)

  /** A row of `t3_bans`, `t3_mutes` or `t3_gags`. */
  datatype Sanction = Sanction(
    id: int,
    steamId: nat,
    adminName: string,
    adminSteamId: nat,
    reason: string,
    createdAt: int,
    expiresAt: Option<int>,
    status: Status,
    revokedBy: Option<string>,
    revokedBySteamId: Option<nat>,
    revokeReason: Option<string>,
    revokedAt: Option<int>)
  {
    predicate IsPermanent() {
      expiresAt.None?
    }

    /** Strict: the record is still unexpired at `now == expiresAt`. */
    predicate IsExpired(now: int) {
      expiresAt.Some? && now > expiresAt.value
    }

    predicate IsActive(now: int) {
      status == Active && !IsExpired(now)
    }

    /** `ExpiresAt - UtcNow`, negative once expired, absent when permanent. */
    function TimeRemaining(now: int): Option<int> {
      if expiresAt.Some? then Some(expiresAt.value - now) else None
    }
  }

  /** A sanction object built with only its identifying fields set: the
      property initialisers leave `Status` at `Active`. */
  function NewSanction(steamId: nat, ctx: AdminContext, reason: string, createdAt: int,
                       expiresAt: Option<int>): (s: Sanction)
    ensures s.status == Active && s.revokedBy.None? && s.revokedAt.None?
    ensures s.steamId == steamId && s.expiresAt == expiresAt && s.createdAt == createdAt
    ensures s.adminName == ctx.name && s.adminSteamId == ctx.steamId && s.reason == reason
  {
    Sanction(0, steamId, ctx.name, ctx.steamId, reason, createdAt, expiresAt, Active,
             None, None, None, None)
  }

  /** A row of `t3_admins`. `flags` is the comma-separated token list. */
  datatype AdminRecord = AdminRecord(
    id: int,
    steamId: nat,
    name: string,
    flags: string,
    immunity: int,
    createdAt: int,
    expiresAt: Option<int>,
    addedBy: Option<string>,
    addedBySteamId: Option<nat>)
  {
    predicate IsPermanent() {
      expiresAt.None?
    }

    predicate IsExpired(now: int) {
      expiresAt.Some? && now > expiresAt.value
    }

    /** There is no status column: an admin is active until it expires. */
    predicate IsActive(now: int) {
      !IsExpired(now)
    }
  }

  /** An admin object with only its key set: `Flags` defaults to the empty
      string and `Immunity` to 0. */
  function NewAdmin(steamId: nat, name: string, createdAt: int): (a: AdminRecord)
    ensures a.flags == [] && a.immunity == 0 && a.steamId == steamId
    ensures a.IsPermanent() && a.addedBy.None? && a.addedBySteamId.None?
  {
    AdminRecord(0, steamId, name, [], 0, createdAt, None, None, None)
  }

  // ----- the lifecycle of a sanction -----

  /** A sanction is active exactly when its status is `Active` and the clock
      has not passed `expiresAt`; an `Expired` or revoked record is never
      active, and a permanent one never expires. */
  lemma SanctionActiveIff(s: Sanction, now: int)
    ensures s.IsActive(now) <==>
            s.status == Active && (s.expiresAt.None? || now <= s.expiresAt.value)
    ensures s.status != Active ==> !s.IsActive(now)
    ensures s.IsPermanent() ==> !s.IsExpired(now)
  {
  }

  /** The expiry boundary: still active at `expiresAt`, inactive one second later. */
  lemma SanctionExpiryBoundary(s: Sanction)
    requires s.status == Active && s.expiresAt.Some?
    ensures s.IsActive(s.expiresAt.value)
    ensures !s.IsActive(s.expiresAt.value + 1)
  {
  }

  /** Once inactive, a fixed record stays inactive as the clock advances. */
  lemma SanctionInactiveStays(s: Sanction, t: int, t': int)
    requires t <= t' && !s.IsActive(t)
    ensures !s.IsActive(t')
  {
  }

  /** `TimeRemaining` is absent exactly for permanent records, otherwise it
      is the signed distance to `expiresAt`: non-negative while unexpired,
      negative after. */
  lemma SanctionTimeRemaining(s: Sanction, now: int)
    ensures s.TimeRemaining(now).None? <==> s.IsPermanent()
    ensures s.TimeRemaining(now).Some? ==>
            s.TimeRemaining(now).value == s.expiresAt.value - now &&
            (s.TimeRemaining(now).value < 0 <==> s.IsExpired(now))
  {
  }

  // ----- the lifecycle of an admin grant -----

  /** An admin is active exactly when unexpired; a permanent admin is always
      active; the expiry is strict. */
  lemma AdminActiveIff(a: AdminRecord, now: int)
    ensures a.IsActive(now) <==> a.expiresAt.None? || now <= a.expiresAt.value
    ensures a.IsPermanent() ==> a.IsActive(now)
    ensures a.expiresAt.Some? ==> a.IsActive(a.expiresAt.value) && !a.IsActive(a.expiresAt.value + 1)
  {
  }

  /** Once inactive, an admin grant stays inactive as the clock advances. */
  lemma AdminInactiveStays(a: AdminRecord, t: int, t': int)
    requires t <= t' && !a.IsActive(t)
    ensures !a.IsActive(t')
  {
  }
}

=== FILE: sanction_store.dfy ===
/**
 * The sanction store shared by `BanManager`, `MuteManager` and
 * `GagManager`: one table of rows (`t3_bans`, `t3_mutes` or `t3_gags`),
 * a per-kind cache `steamId -> record` and one cohort-wide
 * `lastCacheUpdate` stamp with a five-minute lifetime.
 *
 * The SQL statements become functions over `seq<Sanction>` that follow
 * their `WHERE`/`SET` clauses. `online` stands for the database being
 * reachable: when it is not, every statement throws, the manager catches
 * the exception and answers false, null, 0 or nothing, leaving the state
 * as it was.
 */
module SanctionStore {
  import opened Wrappers
  import opened Records

  /** `_cacheLifetime`: five minutes. */
  const CacheLifetime: int := 300

  datatype Store = Store(
    rows: seq<Sanction>,
    nextId: int,
    cache: map<nat, Sanction>,
    /** `_lastCacheUpdate`; it starts at `DateTime.MinValue`, which is 0 on this clock. */
    lastCacheUpdate: int,
    online: bool)

  /** A store as the plugin constructs it: an existing table, empty cache. */
  function Initial(rows: seq<Sanction>, nextId: int, online: bool): Store {
    Store(rows, nextId, map[], 0, online)
  }

  /** `UtcNow - _lastCacheUpdate < _cacheLifetime`: one stamp for every key. */
  predicate Fresh(st: Store, now: int) {
    now - st.lastCacheUpdate < CacheLifetime
  }

  /** `SetAdminContext`: a missing name falls back to the localized console
      name, a missing SteamID to 0. */
  function SetAdminContext(name: Option<string>, steamId: Option<nat>, consoleName: string): (c: AdminContext)
    ensures name.Some? ==> c.name == name.value
    ensures name.None? ==> c.name == consoleName
    ensures c.steamId == steamId.GetOr(0)
  {
    AdminContext(name.GetOr(consoleName), steamId.GetOr(0))
  }

  // ----- the SQL predicates -----

  /** `WHERE steamid = @SteamId AND status = 'active'
       AND (expires_at IS NULL OR expires_at > UTC_TIMESTAMP())` */
  predicate Live(row: Sanction, steamId: nat, now: int) {
    row.steamId == steamId && row.status == Active &&
    (row.expiresAt.None? || row.expiresAt.value > now)
  }

  /** `WHERE status = 'active' AND expires_at IS NOT NULL AND expires_at <= UTC_TIMESTAMP()` */
  predicate Due(row: Sanction, now: int) {
    row.status == Active && row.expiresAt.Some? && row.expiresAt.value <= now
  }

  /** `WHERE steamid = @SteamId AND status = 'active'` */
  predicate Revocable(row: Sanction, steamId: nat) {
    row.steamId == steamId && row.status == Active
  }

  /** The `SET status = 'unbanned', unban_admin_name = ..., unban_date = UTC_TIMESTAMP()` update. */
  function RevokeRow(row: Sanction, ctx: AdminContext, reason: string, now: int): Sanction {
    row.(status := Revoked, revokedBy := Some(ctx.name), revokedBySteamId := Some(ctx.steamId),
         revokeReason := Some(reason), revokedAt := Some(now))
  }

  /** A cached copy stands for `row`: equal in every column except, possibly,
      the id (the insert path caches an object whose `Id` was never set). */
  predicate Mirrors(cached: Sanction, row: Sanction) {
    cached.(id := row.id) == row
  }

  /** The cache only holds `Active` copies of current rows, under their own key. */
  ghost predicate Valid(st: Store) {
    forall k :: k in st.cache ==>
      && st.cache[k].steamId == k
      && st.cache[k].status == Active
      && exists i :: 0 <= i < |st.rows| && Mirrors(st.cache[k], st.rows[i])
  }

  // ----- row-level helpers -----

  /** The row `LIMIT 1` picks: the first live row of the player. */
  function FirstLive(rows: seq<Sanction>, steamId: nat, now: int): (r: Option<Sanction>)
    ensures r.Some? ==> r.value in rows && Live(r.value, steamId, now)
    ensures r.None? <==> forall i :: 0 <= i < |rows| ==> !Live(rows[i], steamId, now)
  {
    if |rows| == 0 then None
    else if Live(rows[0], steamId, now) then Some(rows[0])
    else FirstLive(rows[1..], steamId, now)
  }

  /** The `UPDATE ... WHERE steamid = @SteamId AND status = 'active'` of a revocation. */
  function RevokeRows(rows: seq<Sanction>, steamId: nat, ctx: AdminContext, reason: string, now: int): (r: seq<Sanction>)
    ensures |r| == |rows|
    ensures forall i :: 0 <= i < |rows| ==>
              r[i] == if Revocable(rows[i], steamId) then RevokeRow(rows[i], ctx, reason, now) else rows[i]
  {
    if |rows| == 0 then []
    else
      [if Revocable(rows[0], steamId) then RevokeRow(rows[0], ctx, reason, now) else rows[0]]
      + RevokeRows(rows[1..], steamId, ctx, reason, now)
  }

  /** The `UPDATE ... SET status = 'expired'` of the expiry cleanup. */
  function ExpireRows(rows: seq<Sanction>, now: int): (r: seq<Sanction>)
    ensures |r| == |rows|
    ensures forall i :: 0 <= i < |rows| ==>
              r[i] == if Due(rows[i], now) then rows[i].(status := Expired) else rows[i]
  {
    if |rows| == 0 then []
    else [if Due(rows[0], now) then rows[0].(status := Expired) else rows[0]] + ExpireRows(rows[1..], now)
  }

  predicate AnyRevocable(rows: seq<Sanction>, steamId: nat) {
    exists i :: 0 <= i < |rows| && Revocable(rows[i], steamId)
  }

  predicate AnyDue(rows: seq<Sanction>, now: int) {
    exists i :: 0 <= i < |rows| && Due(rows[i], now)
  }

  /** `SELECT COUNT(*) ... WHERE steamid = @SteamId`. */
  function CountFor(rows: seq<Sanction>, steamId: nat): (n: nat)
    ensures n <= |rows|
    ensures n == 0 <==> forall i :: 0 <= i < |rows| ==> rows[i].steamId != steamId
  {
    if |rows| == 0 then 0
    else (if rows[0].steamId == steamId then 1 else 0) + CountFor(rows[1..], steamId)
  }

  // ----- the manager operations -----

  /** What `AddBanAsync`/`AddMuteAsync`/`AddGagAsync` promise. */
  ghost predicate AddOutcome(st: Store, ctx: AdminContext, steamId: nat, durationMinutes: int,
                             reason: string, now: int, st': Store, ok: bool)
  {
    var e := ExpiryAfter(now, durationMinutes * SecondsPerMinute);
    && (ok <==> st.online && !e.OutOfRange?)
    && (!ok ==> st' == st)
    && (ok ==> |st'.rows| == |st.rows| + 1)
    && (ok ==>
          var row := st'.rows[|st.rows|];
          && st'.rows[..|st.rows|] == st.rows
          && row.id == st.nextId && st'.nextId == st.nextId + 1
          && row.steamId == steamId && row.status == Active && row.reason == reason
          && row.adminName == ctx.name && row.adminSteamId == ctx.steamId
          && row.createdAt == now
          && row.expiresAt == (if durationMinutes > 0 then Some(now + durationMinutes * SecondsPerMinute) else None)
          && row.revokedBy.None? && row.revokedAt.None?
          && st'.cache.Keys == st.cache.Keys + {steamId}
          && Mirrors(st'.cache[steamId], row) && st'.cache[steamId].id == 0
          && (forall k :: k in st.cache && k != steamId ==> st'.cache[k] == st.cache[k])
          && st'.lastCacheUpdate == st.lastCacheUpdate
          && st'.online)
  }

  /** `Add*Async`: inserts one `Active` row attributed to `ctx`; it does not
      look for an existing active row. On success the cache entry of the
      player is overwritten; `lastCacheUpdate` is left alone. */
  function Add(st: Store, ctx: AdminContext, steamId: nat, durationMinutes: int, reason: string, now: int): (r: (Store, bool))
    ensures AddOutcome(st, ctx, steamId, durationMinutes, reason, now, r.0, r.1)
  {
    var e := ExpiryAfter(now, durationMinutes * SecondsPerMinute);
    if !st.online || e.OutOfRange? then (st, false)
    else
      var cached := NewSanction(steamId, ctx, reason, now, e.AsOption());
      var row := cached.(id := st.nextId);
      (st.(rows := st.rows + [row], nextId := st.nextId + 1, cache := st.cache[steamId := cached]), true)
  }

  /** What `UnbanAsync`/`UnmuteAsync`/`UngagAsync` promise. */
  ghost predicate RevokeOutcome(st: Store, ctx: AdminContext, steamId: nat, reason: string, now: int,
                                st': Store, ok: bool)
  {
    && (ok <==> st.online && AnyRevocable(st.rows, steamId))
    && (!st.online ==> st' == st)
    && (st.online ==>
          && |st'.rows| == |st.rows|
          && (forall i :: 0 <= i < |st.rows| ==>
                st'.rows[i] == if Revocable(st.rows[i], steamId) then RevokeRow(st.rows[i], ctx, reason, now)
                               else st.rows[i])
          && st'.cache == (if ok then st.cache - {steamId} else st.cache)
          && st'.lastCacheUpdate == st.lastCacheUpdate
          && st'.nextId == st.nextId && st'.online)
  }

  /** `Unban`/`Unmute`/`Ungag`: every `Active` row of the player (expired by
      the clock or not) becomes revoked with the revocation metadata; the
      answer is whether any row changed, and only then is the key evicted. */
  function Revoke(st: Store, ctx: AdminContext, steamId: nat, reason: string, now: int): (r: (Store, bool))
    ensures RevokeOutcome(st, ctx, steamId, reason, now, r.0, r.1)
  {
    if !st.online then (st, false)
    else
      var changed := AnyRevocable(st.rows, steamId);
      var rows' := RevokeRows(st.rows, steamId, ctx, reason, now);
      (st.(rows := rows', cache := if changed then st.cache - {steamId} else st.cache), changed)
  }

  /** What `GetActive*Async` promises. */
  ghost predicate GetActiveOutcome(st: Store, steamId: nat, now: int, st': Store, r: Option<Sanction>)
  {
    && st'.rows == st.rows && st'.nextId == st.nextId && st'.online == st.online
    && (r.Some? ==> r.value.IsActive(now))
    && (steamId in st.cache && Fresh(st, now) ==>
          // cache path: no store read
          && st'.lastCacheUpdate == st.lastCacheUpdate
          && (r.Some? <==> st.cache[steamId].IsActive(now))
          && (r.Some? ==> r.value == st.cache[steamId] && st'.cache == st.cache)
          && (r.None? ==> st'.cache == st.cache - {steamId}))
    && (!(steamId in st.cache && Fresh(st, now)) && !st.online ==> st' == st && r.None?)
    && (!(steamId in st.cache && Fresh(st, now)) && st.online ==>
          // store path
          && (r.Some? <==> exists i :: 0 <= i < |st.rows| && Live(st.rows[i], steamId, now))
          && (r.Some? ==> r.value in st.rows && Live(r.value, steamId, now)
                          && st'.cache == st.cache[steamId := r.value] && st'.lastCacheUpdate == now)
          && (r.None? ==> st'.cache == st.cache - {steamId} && st'.lastCacheUpdate == st.lastCacheUpdate))
  }

  /** `GetActive*Async`. Within the cohort lifetime a cached key is answered
      from the cache alone (an entry no longer active is evicted and null
      returned); otherwise the store is asked for a live row, a hit is cached
      and refreshes the stamp for every key, and a miss evicts the key. */
  function GetActive(st: Store, steamId: nat, now: int): (r: (Store, Option<Sanction>))
    ensures GetActiveOutcome(st, steamId, now, r.0, r.1)
  {
    if steamId in st.cache && Fresh(st, now) then
      var cached := st.cache[steamId];
      if cached.IsExpired(now) || cached.status != Active then (st.(cache := st.cache - {steamId}), None)
      else (st, Some(cached))
    else if !st.online then (st, None)
    else
      match FirstLive(st.rows, steamId, now)
      case Some(row) => (st.(cache := st.cache[steamId := row], lastCacheUpdate := now), Some(row))
      case None => (st.(cache := st.cache - {steamId}), None)
  }

  /** `GetActive*FromCache`: a read-only lookup that returns only entries
      active at `now`. */
  function GetActiveFromCache(st: Store, steamId: nat, now: int): (r: Option<Sanction>)
    ensures r.Some? <==> steamId in st.cache && st.cache[steamId].IsActive(now)
    ensures r.Some? ==> r.value == st.cache[steamId]
  {
    if steamId in st.cache && st.cache[steamId].IsActive(now) then Some(st.cache[steamId]) else None
  }

  /** `GetTotal*Async`: every row of the player whatever its status; 0 on a fault. */
  function GetTotal(st: Store, steamId: nat): (n: nat)
    ensures !st.online ==> n == 0
    ensures st.online ==> n == CountFor(st.rows, steamId)
  {
    if st.online then CountFor(st.rows, steamId) else 0
  }

  /** What the expiry cleanup promises. */
  ghost predicate CleanupOutcome(st: Store, now: int, st': Store)
  {
    && (!st.online ==> st' == st)
    && (st.online ==>
          && |st'.rows| == |st.rows|
          && (forall i :: 0 <= i < |st.rows| ==>
                st'.rows[i] == if Due(st.rows[i], now) then st.rows[i].(status := Expired) else st.rows[i])
          && (forall i :: 0 <= i < |st'.rows| ==> !Due(st'.rows[i], now))
          && st'.cache == (if AnyDue(st.rows, now) then map[] else st.cache)
          && st'.lastCacheUpdate == st.lastCacheUpdate
          && st'.nextId == st.nextId && st'.online)
  }

  /** `CleanupExpiredBansAsync`/`UpdateExpiredMutesAsync`/`CleanupExpiredGagsAsync`:
      exactly the `Active` rows with `expires_at <= now` become `Expired`;
      the whole cache is cleared iff at least one row changed. */
  function CleanupExpired(st: Store, now: int): (st': Store)
    ensures CleanupOutcome(st, now, st')
  {
    if !st.online then st
    else
      var rows' := ExpireRows(st.rows, now);
      st.(rows := rows', cache := if AnyDue(st.rows, now) then map[] else st.cache)
  }

  /** `ClearCache`. */
  function ClearCache(st: Store): (st': Store)
    ensures st'.cache == map[] && st'.rows == st.rows && st'.lastCacheUpdate == st.lastCacheUpdate
  {
    st.(cache := map[])
  }

  // ----- the cache invariant -----

  lemma AddPreservesValid(st: Store, ctx: AdminContext, steamId: nat, durationMinutes: int, reason: string, now: int)
    ensures Valid(st) ==> Valid(Add(st, ctx, steamId, durationMinutes, reason, now).0)
  {
    if Valid(st) {
      var (st', ok) := Add(st, ctx, steamId, durationMinutes, reason, now);
      if ok {
        forall k | k in st'.cache
          ensures exists i :: 0 <= i < |st'.rows| && Mirrors(st'.cache[k], st'.rows[i])
        {
          if k == steamId {
            assert Mirrors(st'.cache[k], st'.rows[|st.rows|]);
          } else {
            var i :| 0 <= i < |st.rows| && Mirrors(st.cache[k], st.rows[i]);
            assert st'.rows[i] == st.rows[i];
          }
        }
      }
    }
  }

  lemma RevokePreservesValid(st: Store, ctx: AdminContext, steamId: nat, reason: string, now: int)
    ensures Valid(st) ==> Valid(Revoke(st, ctx, steamId, reason, now).0)
  {
    if Valid(st) {
      var (st', ok) := Revoke(st, ctx, steamId, reason, now);
      if st.online {
        if steamId in st.cache {
          // a cached key of the player means an active row, so the call succeeded
          var i :| 0 <= i < |st.rows| && Mirrors(st.cache[steamId], st.rows[i]);
          assert Revocable(st.rows[i], steamId);
        }
        forall k | k in st'.cache
          ensures exists i :: 0 <= i < |st'.rows| && Mirrors(st'.cache[k], st'.rows[i])
        {
          var i :| 0 <= i < |st.rows| && Mirrors(st.cache[k], st.rows[i]);
          assert st'.rows[i] == st.rows[i];
        }
      }
    }
  }

  lemma GetActivePreservesValid(st: Store, steamId: nat, now: int)
    ensures Valid(st) ==> Valid(GetActive(st, steamId, now).0)
  {
    if Valid(st) {
      var (st', r) := GetActive(st, steamId, now);
      if !(steamId in st.cache && Fresh(st, now)) && st.online && r.Some? {
        forall k | k in st'.cache
          ensures exists i :: 0 <= i < |st'.rows| && Mirrors(st'.cache[k], st'.rows[i])
        {
          if k == steamId {
            var i :| 0 <= i < |st.rows| && st.rows[i] == r.value;
            assert Mirrors(st'.cache[k], st'.rows[i]);
          }
        }
      }
    }
  }

  lemma CleanupPreservesValid(st: Store, now: int)
    ensures Valid(st) ==> Valid(CleanupExpired(st, now))
  {
    if Valid(st) {
      var st' := CleanupExpired(st, now);
      if st.online && !AnyDue(st.rows, now) {
        forall k | k in st'.cache
          ensures exists i :: 0 <= i < |st'.rows| && Mirrors(st'.cache[k], st'.rows[i])
        {
          var i :| 0 <= i < |st.rows| && Mirrors(st.cache[k], st.rows[i]);
          assert st'.rows[i] == st.rows[i];
        }
      }
    }
  }

  // ----- the history of a table -----

  /** One call into a manager, with the clock reading it runs at. */
  datatype Op =
    | AddOp(ctx: AdminContext, steamId: nat, durationMinutes: int, reason: string, now: int)
    | RevokeOp(ctx: AdminContext, steamId: nat, reason: string, now: int)
    | GetActiveOp(steamId: nat, now: int)
    | CleanupOp(now: int)
    | ClearCacheOp

  function Step(st: Store, op: Op): Store {
    match op
    case AddOp(ctx, sid, d, reason, now) => Add(st, ctx, sid, d, reason, now).0
    case RevokeOp(ctx, sid, reason, now) => Revoke(st, ctx, sid, reason, now).0
    case GetActiveOp(sid, now) => GetActive(st, sid, now).0
    case CleanupOp(now) => CleanupExpired(st, now)
    case ClearCacheOp => ClearCache(st)
  }

  function Run(st: Store, ops: seq<Op>): Store
    decreases |ops|
  {
    if |ops| == 0 then st else Run(Step(st, ops[0]), ops[1..])
  }

  /** How a table may change: rows are only appended, a row keeps its key
      columns, and a row that left `Active` never changes again (expired and
      revoked are final). */
  ghost predicate Evolves(rows: seq<Sanction>, rows': seq<Sanction>) {
    && |rows| <= |rows'|
    && (forall i :: 0 <= i < |rows| ==>
          && rows'[i].id == rows[i].id && rows'[i].steamId == rows[i].steamId
          && rows'[i].createdAt == rows[i].createdAt && rows'[i].expiresAt == rows[i].expiresAt
          && rows'[i].reason == rows[i].reason && rows'[i].adminName == rows[i].adminName
          && (rows[i].status != Active ==> rows'[i] == rows[i]))
  }

  lemma StepEvolves(st: Store, op: Op)
    ensures Evolves(st.rows, Step(st, op).rows)
    ensures Valid(st) ==> Valid(Step(st, op))
    ensures Step(st, op).online == st.online
  {
    match op
    case AddOp(ctx, sid, d, reason, now) =>
      AddPreservesValid(st, ctx, sid, d, reason, now);
    case RevokeOp(ctx, sid, reason, now) =>
      RevokePreservesValid(st, ctx, sid, reason, now);
    case GetActiveOp(sid, now) =>
      GetActivePreservesValid(st, sid, now);
    case CleanupOp(now) =>
      CleanupPreservesValid(st, now);
    case ClearCacheOp =>
  }

  /** Over any sequence of calls the cache invariant holds and the table only
      evolves as described. */
  lemma {:induction false} RunEvolves(st: Store, ops: seq<Op>)
    requires Valid(st)
    ensures Valid(Run(st, ops))
    ensures Evolves(st.rows, Run(st, ops).rows)
    decreases |ops|
  {
    if |ops| > 0 {
      var mid := Step(st, ops[0]);
      StepEvolves(st, ops[0]);
      RunEvolves(mid, ops[1..]);
    }
  }

  // ----- observable behaviour -----

  /** A store-side live row is active by the record's own clock test; the
      converse fails only at `now == expiresAt`, where the row is active,
      not live, and due for cleanup. */
  lemma LiveVersusActive(row: Sanction, now: int)
    ensures Live(row, row.steamId, now) ==> row.IsActive(now)
    ensures row.IsActive(now) && !Live(row, row.steamId, now) <==>
            row.status == Active && row.expiresAt == Some(now)
    ensures row.status == Active && row.expiresAt == Some(now) ==> Due(row, now)
  {
  }

  /** After a revocation on a reachable store, no active sanction of the
      player is reported, from the cache or from the table. */
  lemma RevokeThenGetActiveNone(st: Store, ctx: AdminContext, steamId: nat, reason: string, now: int, later: int)
    requires Valid(st) && st.online
    ensures GetActive(Revoke(st, ctx, steamId, reason, now).0, steamId, later).1 == None
  {
    var (st', ok) := Revoke(st, ctx, steamId, reason, now);
    if steamId in st.cache {
      // a cached key of the player means an active row, so the key is evicted
      var i :| 0 <= i < |st.rows| && Mirrors(st.cache[steamId], st.rows[i]);
      assert Revocable(st.rows[i], steamId);
    }
    assert steamId !in st'.cache;
    forall i | 0 <= i < |st'.rows|
      ensures !Live(st'.rows[i], steamId, later)
    {
    }
  }

  /** Right after a successful insert the sanction is reported for as long
      as it lasts (strictly before its expiry). */
  lemma AddThenGetActiveSome(st: Store, ctx: AdminContext, steamId: nat, durationMinutes: int, reason: string,
                             now: int, later: int)
    requires Add(st, ctx, steamId, durationMinutes, reason, now).1
    requires now <= later
    requires durationMinutes <= 0 || later < now + durationMinutes * SecondsPerMinute
    ensures GetActive(Add(st, ctx, steamId, durationMinutes, reason, now).0, steamId, later).1.Some?
  {
    var st' := Add(st, ctx, steamId, durationMinutes, reason, now).0;
    if !Fresh(st', later) {
      assert Live(st'.rows[|st.rows|], steamId, later);
    }
  }

  /** While the cohort is fresh, the synchronous cache lookup and
      `GetActive` agree. */
  lemma FromCacheAgreesWithGetActive(st: Store, steamId: nat, now: int)
    requires steamId in st.cache && Fresh(st, now)
    ensures GetActiveFromCache(st, steamId, now) == GetActive(st, steamId, now).1
  {
  }

  /** A reported sanction is reported again at the same instant, from the cache. */
  lemma GetActiveStable(st: Store, steamId: nat, now: int)
    requires GetActive(st, steamId, now).1.Some?
    ensures GetActive(GetActive(st, steamId, now).0, steamId, now) == GetActive(st, steamId, now)
  {
  }

  /** After a miss the next lookup at the same instant asks the table: a
      cached entry that is no longer active answers null once, even when the
      table holds another live row of the player, which the second call finds. */
  lemma GetActiveAfterMiss(st: Store, steamId: nat, now: int)
    requires GetActive(st, steamId, now).1.None?
    ensures GetActive(GetActive(st, steamId, now).0, steamId, now).1 ==
            if st.online then FirstLive(st.rows, steamId, now) else None
  {
  }

  /** After a cleanup no row is due, and every row still `Active` is live. */
  lemma CleanupLeavesLiveRows(st: Store, now: int)
    requires st.online
    ensures forall i :: 0 <= i < |CleanupExpired(st, now).rows| ==>
              CleanupExpired(st, now).rows[i].status == Active ==>
              Live(CleanupExpired(st, now).rows[i], CleanupExpired(st, now).rows[i].steamId, now)
  {
  }

  /** A second cleanup at the same instant changes nothing. */
  lemma CleanupIdempotent(st: Store, now: int)
    ensures CleanupExpired(CleanupExpired(st, now), now) == CleanupExpired(st, now)
  {
    var st' := CleanupExpired(st, now);
    if st.online {
      assert !AnyDue(st'.rows, now);
      assert ExpireRows(st'.rows, now) == st'.rows;
    }
  }

  // ----- totals -----

  lemma {:induction false} CountForAppend(rows: seq<Sanction>, row: Sanction, steamId: nat)
    ensures CountFor(rows + [row], steamId) == CountFor(rows, steamId) + (if row.steamId == steamId then 1 else 0)
    decreases |rows|
  {
    if |rows| > 0 {
      assert (rows + [row])[1..] == rows[1..] + [row];
      CountForAppend(rows[1..], row, steamId);
    }
  }

  lemma {:induction false} CountForSameKeys(rows: seq<Sanction>, rows': seq<Sanction>, steamId: nat)
    requires |rows| == |rows'|
    requires forall i :: 0 <= i < |rows| ==> rows'[i].steamId == rows[i].steamId
    ensures CountFor(rows', steamId) == CountFor(rows, steamId)
    decreases |rows|
  {
    if |rows| > 0 {
      CountForSameKeys(rows[1..], rows'[1..], steamId);
    }
  }

  /** The total counts every sanction ever recorded: an insert adds one to
      its player's total only, and revocations and cleanups change none. */
  lemma TotalsCountHistory(st: Store, op: Op, steamId: nat)
    requires st.online
    ensures op.AddOp? && Add(st, op.ctx, op.steamId, op.durationMinutes, op.reason, op.now).1 ==>
              GetTotal(Step(st, op), steamId) == GetTotal(st, steamId) + (if op.steamId == steamId then 1 else 0)
    ensures !(op.AddOp? && Add(st, op.ctx, op.steamId, op.durationMinutes, op.reason, op.now).1) ==>
              GetTotal(Step(st, op), steamId) == GetTotal(st, steamId)
  {
    var st' := Step(st, op);
    match op
    case AddOp(ctx, sid, d, reason, now) =>
      if Add(st, ctx, sid, d, reason, now).1 {
        assert st'.rows == st.rows + [st'.rows[|st.rows|]];
        CountForAppend(st.rows, st'.rows[|st.rows|], steamId);
      }
    case RevokeOp(ctx, sid, reason, now) =>
      CountForSameKeys(st.rows, st'.rows, steamId);
    case GetActiveOp(sid, now) =>
    case CleanupOp(now) =>
      CountForSameKeys(st.rows, st'.rows, steamId);
    case ClearCacheOp =>
  }
}

=== FILE: server_commands.dfy ===
/**
 * The server commands: `!map` and `!wsmap` change the level after a short
 * delay, `!restart` restarts the round, `!rcon` runs a console command and
 * `!cvar` reads or sets a console variable. The level and console commands
 * are recorded as `ServerCommand` effects with the text handed to the
 * engine.
 */
module ServerCommands {
  import opened Wrappers
  import Text
  import Numbers
  import opened Session

  /** Seconds between the announcement and the level change. */
  const ChangeDelay: int := 3

  /** The restart delay when none is given. */
  const DefaultRestartSeconds: int := 2

  /** Whether some effect hands a command to the engine. */
  predicate Executes(r: seq<Effect>) {
    exists i :: 0 <= i < |r| && r[i].ServerCommand?
  }


  /** The index of the first element satisfying `p`. */
  function FirstIndex<T>(xs: seq<T>, p: T -> bool): (r: Option<nat>)
    ensures r.Some? ==> r.value < |xs| && p(xs[r.value]) && forall j :: 0 <= j < r.value ==> !p(xs[j])
    ensures r.None? ==> forall j :: 0 <= j < |xs| ==> !p(xs[j])
  {
    if |xs| == 0 then None
    else if p(xs[0]) then Some(0)
    else
      var rest := FirstIndex(xs[1..], p);
      assert forall j :: 1 <= j < |xs| ==> xs[j] == xs[1..][j - 1];
      if rest.Some? then Some(rest.value + 1) else None
  }

  /** Lower-casing a name first does not change whether it equals another
      ignoring case. */
  lemma LowerIgnored(key: string, input: string)
    ensures Text.EqualsIgnoreCase(key, Text.Lower(input)) <==> Text.EqualsIgnoreCase(key, input)
  {
    forall i | 0 <= i < |input|
      ensures Text.FoldChar(Text.Lower(input)[i]) == Text.FoldChar(input[i])
    {
    }
  }

  // ----- map -----

  /** The engine command that loads a map. */
  function ChangeLevel(key: string): string {
    "changelevel " + key
  }

  /** The configured map the input names: the first key equal to the
      lower-cased input, ignoring case. */
  function MapIndex(maps: seq<(string, string)>, input: string): (r: Option<nat>)
    ensures r.Some? ==> r.value < |maps| && Text.EqualsIgnoreCase(maps[r.value].0, input) &&
                        forall j :: 0 <= j < r.value ==> !Text.EqualsIgnoreCase(maps[j].0, input)
    ensures r.None? ==> forall j :: 0 <= j < |maps| ==> !Text.EqualsIgnoreCase(maps[j].0, input)
  {
    var lowered := Text.Lower(input);
    forall j | 0 <= j < |maps|
      ensures Text.EqualsIgnoreCase(maps[j].0, lowered) <==> Text.EqualsIgnoreCase(maps[j].0, input)
    {
      LowerIgnored(maps[j].0, input);
    }
    FirstIndex(maps, (m: (string, string)) => Text.EqualsIgnoreCase(m.0, lowered))
  }

  /** `OnMapCommand`: `<map>`, one of the configured maps. */
  function OnMap(w: World, cfg: Config, caller: Caller, args: seq<string>): (r: seq<Effect>)
    ensures Executes(r) <==>
              HasPermission(w.grants, caller, cfg.changeMapPermission) && |args| >= 1 &&
              exists j :: 0 <= j < |cfg.gameMaps| && Text.EqualsIgnoreCase(cfg.gameMaps[j].0, args[0])
    ensures Executes(r) ==>
              exists j :: 0 <= j < |cfg.gameMaps| &&
                r[|r| - 1] == ServerCommand(ChangeLevel(cfg.gameMaps[j].0), ChangeDelay) &&
                Text.EqualsIgnoreCase(cfg.gameMaps[j].0, args[0]) &&
                forall k :: 0 <= k < j ==> !Text.EqualsIgnoreCase(cfg.gameMaps[k].0, args[0])
  {
    if !HasPermission(w.grants, caller, cfg.changeMapPermission) then [Reply("no_permission")]
    else if |args| < 1 then [Reply("map_usage"), Reply("map_available")]
    else
      var found := MapIndex(cfg.gameMaps, args[0]);
      if found.None? then [Reply("map_not_found")]
      else ChangeAfterNotice(w.players, "map_changing", ChangeLevel(cfg.gameMaps[found.value].0))
  }

  /** Everyone is told, then the engine runs `command` after the delay. */
  function ChangeAfterNotice(ps: seq<Player>, key: string, command: string): (r: seq<Effect>)
    ensures Executes(r) && r[|r| - 1] == ServerCommand(command, ChangeDelay)
    ensures forall i :: 0 <= i < |r| - 1 ==> r[i].Chat?
  {
    var all := Broadcast(ps, key);
    var r := all + [ServerCommand(command, ChangeDelay)];
    assert r[|r| - 1].ServerCommand?;
    r
  }

  // ----- wsmap -----

  /** The engine command that loads a workshop map. */
  function HostWorkshopMap(id: nat): string {
    "host_workshop_map " + Numbers.ShowNat(id)
  }

  /** The workshop id the input names: the input itself when it reads as a
      `uint`, otherwise the id of the first configured name containing it,
      ignoring case. */
  function WorkshopId(maps: seq<(string, nat)>, input: string): (r: Option<nat>)
    ensures Numbers.TryParseUInt32(input).Some? ==> r == Some(Numbers.TryParseUInt32(input).value as nat)
    ensures Numbers.TryParseUInt32(input).None? ==>
              (r.None? <==> forall j :: 0 <= j < |maps| ==> !Text.ContainsIgnoreCase(maps[j].0, input))
    ensures Numbers.TryParseUInt32(input).None? && r.Some? ==>
              exists j :: 0 <= j < |maps| && r.value == maps[j].1 && Text.ContainsIgnoreCase(maps[j].0, input) &&
                forall k :: 0 <= k < j ==> !Text.ContainsIgnoreCase(maps[k].0, input)
  {
    var parsed := Numbers.TryParseUInt32(input);
    if parsed.Some? then Some(parsed.value as nat)
    else
      var found := FirstIndex(maps, (m: (string, nat)) => Text.ContainsIgnoreCase(m.0, input));
      if found.None? then None else Some(maps[found.value].1)
  }

  /** `OnWSMapCommand`: `<workshop id | name>`. */
  function OnWsMap(w: World, cfg: Config, caller: Caller, args: seq<string>): (r: seq<Effect>)
    ensures Executes(r) <==>
              HasPermission(w.grants, caller, cfg.changeWsMapPermission) && |args| >= 1 &&
              WorkshopId(cfg.workshopMaps, args[0]).Some?
    ensures Executes(r) ==>
              r[|r| - 1] == ServerCommand(HostWorkshopMap(WorkshopId(cfg.workshopMaps, args[0]).value), ChangeDelay)
  {
    if !HasPermission(w.grants, caller, cfg.changeWsMapPermission) then [Reply("no_permission")]
    else if |args| < 1 then [Reply("wsmap_usage"), Reply("wsmap_available")]
    else
      var id := WorkshopId(cfg.workshopMaps, args[0]);
      if id.None? then [Reply("wsmap_not_found")]
      else ChangeAfterNotice(w.players, "wsmap_changing", HostWorkshopMap(id.value))
  }

  /** A workshop id written in digits is loaded as written, configured or
      not. */
  lemma WsMapById(w: World, cfg: Config, caller: Caller, id: nat)
    requires HasPermission(w.grants, caller, cfg.changeWsMapPermission)
    requires id <= Numbers.UInt32Max
    ensures var r := OnWsMap(w, cfg, caller, [Numbers.ShowNat(id)]);
            |r| > 0 && r[|r| - 1] == ServerCommand(HostWorkshopMap(id), ChangeDelay)
  {
    Numbers.ParseShowNat(id, 0, Numbers.UInt32Max);
  }

  // ----- restart -----

  /** The restart delay: the first argument when it reads as an `int`
      above zero, otherwise two seconds. */
  function RestartSeconds(args: seq<string>): (s: int)
    ensures 0 < s <= Numbers.Int32Max
    ensures s != DefaultRestartSeconds ==> |args| >= 1 && Numbers.TryParseInt32(args[0]) == Some(s)
  {
    if |args| >= 1 then
      var parsed := Numbers.TryParseInt32(args[0]);
      if parsed.Some? && parsed.value > 0 then parsed.value else DefaultRestartSeconds
    else DefaultRestartSeconds
  }

  /** A delay written in digits is used when it is positive and fits an
      `int`; otherwise, and with no argument, the delay is two seconds. */
  lemma RestartSecondsDigits(n: nat, rest: seq<string>)
    ensures RestartSeconds([Numbers.ShowNat(n)] + rest) == if 0 < n <= Numbers.Int32Max then n else DefaultRestartSeconds
    ensures RestartSeconds([]) == DefaultRestartSeconds
  {
    Numbers.ParseShowNat(n, Numbers.Int32Min, Numbers.Int32Max);
  }

  /** The engine command that restarts the game. */
  function RestartGame(seconds: nat): string {
    "mp_restartgame " + Numbers.ShowNat(seconds)
  }

  /** `OnRestartCommand`: `[seconds]`. */
  function OnRestart(w: World, cfg: Config, caller: Caller, args: seq<string>): (r: seq<Effect>)
    ensures Executes(r) <==> HasPermission(w.grants, caller, cfg.restartPermission)
    ensures Executes(r) ==> r[|r| - 1] == ServerCommand(RestartGame(RestartSeconds(args)), 0)
  {
    if !HasPermission(w.grants, caller, cfg.restartPermission) then [Reply("no_permission")]
    else
      var all := Broadcast(w.players, "restart_notification");
      var r := all + [ServerCommand(RestartGame(RestartSeconds(args)), 0)];
      assert r[|r| - 1].ServerCommand?;
      r
  }

  // ----- rcon and cvar -----

  /** The valid players holding `permission`. */
  function Holders(ps: seq<Player>, grants: Grants, permission: string): (r: seq<Player>)
    ensures forall p :: p in r <==> p in ps && p.isValid && (p.steamId, permission) in grants
  {
    Filter(ValidPlayers(ps), (p: Player) => (p.steamId, permission) in grants)
  }

  /** The engine runs `command` at once, then every valid player holding
      `permission` is told. */
  function RunAndTellHolders(w: World, permission: string, command: string, key: string): (r: seq<Effect>)
    ensures |r| == |Holders(w.players, w.grants, permission)| + 1 && r[0] == ServerCommand(command, 0)
    ensures forall i :: 1 <= i < |r| ==> r[i] == Chat(Holders(w.players, w.grants, permission)[i - 1].slot, key)
    ensures forall p :: p in w.players && p.isValid && (p.steamId, permission) in w.grants ==> Chat(p.slot, key) in r[1..]
  {
    var holders := Holders(w.players, w.grants, permission);
    var chats := ChatAll(holders, key);
    assert forall p :: p in holders ==> exists i :: 0 <= i < |holders| && holders[i] == p;
    assert ([ServerCommand(command, 0)] + chats)[1..] == chats;
    [ServerCommand(command, 0)] + chats
  }

  /** `OnRconCommand`: `<command...>`, the arguments joined by spaces. */
  function OnRcon(w: World, cfg: Config, caller: Caller, args: seq<string>): (r: seq<Effect>)
    ensures Executes(r) <==> HasPermission(w.grants, caller, cfg.rconPermission) && |args| >= 1
    ensures Executes(r) ==> r[0] == ServerCommand(Text.Join(args, ' '), 0)
  {
    if !HasPermission(w.grants, caller, cfg.rconPermission) then [Reply("no_permission")]
    else if |args| < 1 then [Reply("rcon_usage")]
    else
      var r := RunAndTellHolders(w, cfg.rconPermission, Text.Join(args, ' '), "rcon_executed");
      assert r[0].ServerCommand?;
      r
  }

  /** `OnCvarCommand`: `<name>` reads a variable, `<name> <value...>` sets
      it. `convars` holds the engine's console variables and their values. */
  function OnCvar(w: World, cfg: Config, caller: Caller, args: seq<string>, convars: map<string, string>)
    : (r: seq<Effect>)
    ensures Executes(r) <==> HasPermission(w.grants, caller, cfg.cvarPermission) && |args| >= 2
    ensures Executes(r) ==> r[0] == ServerCommand(args[0] + " " + Text.Join(args[1..], ' '), 0)
    ensures HasPermission(w.grants, caller, cfg.cvarPermission) && |args| == 1 ==>
              r == [Reply(if args[0] in convars then "cvar_value" else "cvar_not_found")]
  {
    if !HasPermission(w.grants, caller, cfg.cvarPermission) then [Reply("no_permission")]
    else if |args| < 1 then [Reply("cvar_usage")]
    else if |args| == 1 then
      if args[0] in convars then [Reply("cvar_value")] else [Reply("cvar_not_found")]
    else
      var r := RunAndTellHolders(w, cfg.cvarPermission, args[0] + " " + Text.Join(args[1..], ' '), "cvar_set");
      assert r[0].ServerCommand?;
      r
  }

  /** Setting a variable hands the engine the same text as `!rcon` with the
      same arguments would. */
  lemma {:induction false} CvarSetIsRcon(w: World, cfg: Config, caller: Caller, args: seq<string>, convars: map<string, string>)
    requires HasPermission(w.grants, caller, cfg.cvarPermission) && HasPermission(w.grants, caller, cfg.rconPermission)
    requires |args| >= 2
    ensures OnCvar(w, cfg, caller, args, convars)[0] == OnRcon(w, cfg, caller, args)[0]
  {
    assert args[1..][0] == args[1];
    assert Text.Join(args, ' ') == args[0] + [' '] + Text.Join(args[1..], ' ');
  }

  /** When no argument holds a space, the set command splits back into the
      variable's name and the words of its value. */
  lemma CvarSetWords(w: World, cfg: Config, caller: Caller, args: seq<string>, convars: map<string, string>)
    requires HasPermission(w.grants, caller, cfg.cvarPermission) && |args| >= 2
    requires forall i :: 0 <= i < |args| ==> ' ' !in args[i]
    ensures OnCvar(w, cfg, caller, args, convars)[0].ServerCommand?
    ensures Text.Fields(OnCvar(w, cfg, caller, args, convars)[0].command, ' ') == args
  {
    assert Text.Join(args, ' ') == args[0] + [' '] + Text.Join(args[1..], ' ');
    Text.FieldsJoin(args, ' ');
  }

  /** The console passes every permission check: from the console `!rcon`
      runs whatever it is given. */
  lemma ConsoleBypass(w: World, cfg: Config, args: seq<string>)
    requires |args| >= 1
    ensures OnRcon(w, cfg, Console, args)[0] == ServerCommand(Text.Join(args, ' '), 0)
  {
    var r := OnRcon(w, cfg, Console, args);
    assert HasPermission(w.grants, Console, cfg.rconPermission);
    assert Executes(r);
  }
}

=== FILE: session.dfy ===
/**
 * What the command and event handlers see of the running server: the
 * connected players, who issued a command, the permission grants of the
 * host framework, the plugin's configuration defaults, and the effects a
 * handler has on the game (chat lines, voice flags, kicks, server
 * commands), which are recorded rather than performed.
 */
module Session {
  import opened Wrappers
  import Text
  import Numbers
  import Records
  import SanctionStore
  import AdminDbManager

  /** A connected client as the handlers read it. */
  datatype Player = Player(
    slot: int,          // `PlayerID`
    steamId: nat,
    name: string,       // `Controller.PlayerName`
    team: int,          // `Controller.TeamNum`
    pawnValid: bool,    // `PlayerPawn?.IsValid == true`
    health: int,
    isBot: bool,        // `IsFakeClient`
    isValid: bool)
  {
    /** `PlayerPawn?.IsValid == true && PlayerPawn.Health > 0` */
    predicate IsAlive() {
      pawnValid && health > 0
    }
  }

  /** `VoiceFlagValue.Normal` / `VoiceFlagValue.Muted`. */
  datatype VoiceFlag = Normal | Muted

  /** `ICommandContext.Sender`: the server console or a player. */
  datatype Caller = Console | ByPlayer(player: Player)

  /** Localized strings are represented by their keys. */
  const ConsoleName: string := "console_name"
  const NoReason: string := "no_reason"

  /** `context.Sender?.Controller.PlayerName ?? Localizer["console_name"]` */
  function AdminName(c: Caller): string
  {
    match c
    case Console => ConsoleName
    case ByPlayer(p) => p.name
  }

  /** `context.Sender?.SteamID`: absent for the console. */
  function SenderSteamId(c: Caller): Option<nat>
  {
    match c
    case Console => None
    case ByPlayer(p) => Some(p.steamId)
  }

  /** `SetAdminContext(adminName, adminSteamId)` as the commands call it:
      the sender's name or the console name, the sender's SteamID or 0. */
  function ContextOf(c: Caller): (ctx: Records.AdminContext)
    ensures ctx.name == AdminName(c)
    ensures c.Console? <==> ctx.steamId == 0 && ctx.name == ConsoleName && SenderSteamId(c).None?
  {
    SanctionStore.SetAdminContext(if c.ByPlayer? then Some(c.player.name) else None, SenderSteamId(c), ConsoleName)
  }

  /** The free-text reason after the first `k` arguments: the remaining
      arguments joined by single spaces, or the no-reason text. */
  function ReasonFrom(args: seq<string>, k: nat): (r: string)
  {
    if |args| > k then Text.Join(args[k..], ' ') else NoReason
  }

  /** The reason keeps the words it was given: splitting it on spaces gives
      back the arguments, when none of them holds a space. */
  lemma ReasonWords(args: seq<string>, k: nat)
    requires |args| > k
    requires forall i :: k <= i < |args| ==> ' ' !in args[i]
    ensures Text.Fields(ReasonFrom(args, k), ' ') == args[k..]
  {
    Text.FieldsJoin(args[k..], ' ');
  }

  /** `int.TryParse(arg, out d) && d >= 0`: a duration in minutes, 0 meaning
      permanent. */
  function ParseDuration(arg: string): (r: Option<int>)
    ensures r.Some? <==> Numbers.TryParseInt32(arg).Some? && Numbers.TryParseInt32(arg).value >= 0
    ensures r.Some? ==> 0 <= r.value <= Numbers.Int32Max && r == Numbers.TryParseInt32(arg)
  {
    var d := Numbers.TryParseInt32(arg);
    if d.Some? && d.value >= 0 then d else None
  }

  /** A duration written as decimal digits is read back exactly when it fits
      an `int`. */
  lemma ParseDurationDigits(n: nat)
    ensures ParseDuration(Numbers.ShowNat(n)) == if n <= Numbers.Int32Max then Some(n) else None
  {
    Numbers.ParseShowNat(n, Numbers.Int32Min, Numbers.Int32Max);
  }

  /** `Permission.PlayerHasPermission` over the granted (SteamID, permission) pairs. */
  type Grants = set<(nat, string)>

  /** The handlers' `HasPermission`: the console always passes, a player
      needs the permission granted to their SteamID. */
  predicate HasPermission(grants: Grants, c: Caller, permission: string) {
    c.Console? || (c.player.steamId, permission) in grants
  }

  /** The permission tokens of a comma-separated flag list:
      `Split(',', RemoveEmptyEntries)`, each token trimmed. */
  function FlagTokens(flags: string): (r: seq<string>)
    ensures |r| == |Text.SplitRemoveEmpty(flags, ',')|
    ensures forall i :: 0 <= i < |r| ==> r[i] == Text.Trim(Text.SplitRemoveEmpty(flags, ',')[i])
  {
    TrimAll(Text.SplitRemoveEmpty(flags, ','))
  }

  function TrimAll(xs: seq<string>): (r: seq<string>)
    ensures |r| == |xs|
    ensures forall i :: 0 <= i < |r| ==> r[i] == Text.Trim(xs[i])
  {
    if |xs| == 0 then [] else [Text.Trim(xs[0])] + TrimAll(xs[1..])
  }

  /** `AddPermission(steamId, token)` for every token, in order. */
  function GrantAll(grants: Grants, steamId: nat, tokens: seq<string>): (r: Grants)
    ensures forall g :: g in r <==> g in grants || (g.0 == steamId && g.1 in tokens)
    decreases |tokens|
  {
    if |tokens| == 0 then grants else GrantAll(grants + {(steamId, tokens[0])}, steamId, tokens[1..])
  }

  /** `RemovePermission(steamId, token)` for every token, in order. */
  function RevokeAll(grants: Grants, steamId: nat, tokens: seq<string>): (r: Grants)
    ensures forall g :: g in r <==> g in grants && !(g.0 == steamId && g.1 in tokens)
    decreases |tokens|
  {
    if |tokens| == 0 then grants else RevokeAll(grants - {(steamId, tokens[0])}, steamId, tokens[1..])
  }

  /** An effect of a handler on the game, in the order the handler causes it. */
  datatype Effect =
    | Reply(key: string)                           // `context.Reply`
    | Chat(slot: int, key: string)                 // `SendChat` / `SendNotification` to one player
    | ChatMinutes(slot: int, key: string, minutes: int)
    | SetVoice(slot: int, flag: VoiceFlag)         // `VoiceFlags = ...`
    | Kick(slot: int, key: string, remaining: Option<int>, reason: string)
    | ScheduleKick(steamId: nat, reason: string, delaySeconds: int)
    | JoinSummary(recipient: int, subject: nat, bans: nat, mutes: nat, gags: nat,
                  activeBan: bool, activeMute: bool, activeGag: bool)
    | ServerCommand(command: string, delaySeconds: int)   // `Engine.ExecuteCommand`
    | ScheduleUnfreeze(slot: int, delaySeconds: int)
    | SetNoclip(slot: int, enabled: bool)          // `PlayerUtils.SetNoclip`
    | Freeze(slot: int)                            // `PlayerUtils.Freeze`
    | Unfreeze(slot: int)                          // `PlayerUtils.Unfreeze`
    | Teleport(slot: int)                          // `PlayerPawn.Teleport`
    | ReplyCount(key: string, count: int)           // a reply carrying a count
    | AdminEntry(admin: Records.AdminRecord)        // one line of the admin list
    | OpenMenu(slot: int)
    | Fault                                        // an exception escapes the handler

  /** The state the handlers share: the players, the four stores and the
      permission grants. */
  datatype World = World(
    players: seq<Player>,
    bans: SanctionStore.Store,
    mutes: SanctionStore.Store,
    gags: SanctionStore.Store,
    admins: AdminDbManager.Store,
    grants: Grants)

  /** The configured command aliases and permissions the handlers read. */
  datatype Config = Config(
    asay: seq<string>, say: seq<string>, psay: seq<string>, csay: seq<string>, hsay: seq<string>,
    banPermission: string, unbanPermission: string, mutePermission: string, gagPermission: string,
    silencePermission: string, addAdminPermission: string, removeAdminPermission: string,
    adminMenuPermission: string, listAdminsPermission: string, listPlayersPermission: string,
    noClipPermission: string, freezePermission: string, unfreezePermission: string,
    kickPermission: string, gotoPermission: string, bringPermission: string,
    changeMapPermission: string, changeWsMapPermission: string, restartPermission: string,
    rconPermission: string, cvarPermission: string,
    gameMaps: seq<(string, string)>, workshopMaps: seq<(string, nat)>)

  /** The configuration defaults. */
  const DefaultConfig: Config := Config(
    ["asay"], ["say"], ["psay"], ["csay"], ["hsay"],
    "admin.ban", "admin.unban", "admin.mute", "admin.chat",
    "admin.silence", "admin.root", "admin.root",
    "admin.menu", "admin.menu", "admin.generic",
    "admin.cheats", "admin.freeze", "admin.freeze",
    "admin.kick", "admin.goto", "admin.bring",
    "admin.map", "admin.map", "admin.generic",
    "admin.rcon", "admin.cvar",
    [("de_dust2", "Dust 2"), ("de_mirage", "Mirage"), ("de_inferno", "Inferno"),
     ("de_ancient", "Ancient"), ("de_anubis", "Anubis"), ("de_train", "Train"),
     ("de_nuke", "Nuke"), ("de_overpass", "Overpass"), ("de_vertigo", "Vertigo")],
    [("Inferno Online", 3549919360)])

  // ----- sequences of players -----

  /** The elements of `xs` satisfying `p`, in order (`Where`). */
  function Filter<T(!new)>(xs: seq<T>, p: T -> bool): (r: seq<T>)
    ensures |r| <= |xs|
    ensures forall x :: x in r <==> x in xs && p(x)
  {
    if |xs| == 0 then []
    else if p(xs[0]) then [xs[0]] + Filter(xs[1..], p)
    else Filter(xs[1..], p)
  }

  /** The first element of `xs` satisfying `p` (`FirstOrDefault`). */
  function FirstOf<T(!new)>(xs: seq<T>, p: T -> bool): (r: Option<T>)
    ensures r.Some? ==> r.value in xs && p(r.value)
    ensures r.None? <==> forall x :: x in xs ==> !p(x)
  {
    if |xs| == 0 then None
    else if p(xs[0]) then Some(xs[0])
    else FirstOf(xs[1..], p)
  }

  /** `GetAllPlayers().Where(p => p.IsValid)` */
  function ValidPlayers(ps: seq<Player>): (r: seq<Player>)
    ensures forall p :: p in r <==> p in ps && p.isValid
  {
    Filter(ps, (p: Player) => p.isValid)
  }

  /** `GetAllPlayers().FirstOrDefault(p => p.IsValid && p.SteamID == steamId)` */
  function OnlineBySteamId(ps: seq<Player>, steamId: nat): (r: Option<Player>)
    ensures r.Some? ==> r.value in ps && r.value.isValid && r.value.steamId == steamId
    ensures r.None? <==> forall p :: p in ps ==> !(p.isValid && p.steamId == steamId)
  {
    FirstOf(ps, (p: Player) => p.isValid && p.steamId == steamId)
  }

  /** One chat line with `key` to every valid player, in player order. */
  function Broadcast(ps: seq<Player>, key: string): (r: seq<Effect>)
    ensures |r| == |ValidPlayers(ps)|
    ensures forall i :: 0 <= i < |r| ==> r[i] == Chat(ValidPlayers(ps)[i].slot, key)
  {
    ChatAll(ValidPlayers(ps), key)
  }

  /** Every valid player is among the recipients of a broadcast. */
  lemma BroadcastReaches(ps: seq<Player>, key: string, q: Player)
    requires q in ps && q.isValid
    ensures Chat(q.slot, key) in Broadcast(ps, key)
  {
    var vs := ValidPlayers(ps);
    assert q in vs;
    var i :| 0 <= i < |vs| && vs[i] == q;
    assert Broadcast(ps, key)[i] == Chat(q.slot, key);
  }

  function ChatAll(ps: seq<Player>, key: string): (r: seq<Effect>)
    ensures |r| == |ps|
    ensures forall i :: 0 <= i < |r| ==> r[i] == Chat(ps[i].slot, key)
  {
    if |ps| == 0 then [] else [Chat(ps[0].slot, key)] + ChatAll(ps[1..], key)
  }
}

=== FILE: target_check.dfy ===
/**
 * The checks a single-target command makes before acting: the sender's
 * permission, the number of arguments and a connected target named by the
 * first argument.
 */
module TargetCheck {
  import opened Wrappers
  import opened Session
  import PlayerUtils

  /** The player the first argument names, when there is one. */
  function Named(ps: seq<Player>, args: seq<string>): Option<Player> {
    if |args| == 0 then None
    else
      match PlayerUtils.FindPlayerByTarget(ps, args[0])
      case Throws => None
      case Done(found) => found
  }

  /** The checks a command runs before it acts: permission,
      argument count and a connected target, or the reply to stop with. */
  datatype Checked = Refused(effects: seq<Effect>) | Target(player: Player)

  function CheckTarget(w: World, permission: string, caller: Caller, args: seq<string>, minArgs: nat, usage: string)
    : (r: Checked)
    ensures !HasPermission(w.grants, caller, permission) ==> r == Refused([Reply("no_permission")])
    ensures HasPermission(w.grants, caller, permission) && |args| < minArgs ==> r == Refused([Reply(usage)])
    ensures r.Target? <==>
              (HasPermission(w.grants, caller, permission) && |args| >= minArgs && |args| > 0 &&
               PlayerUtils.FindPlayerByTarget(w.players, args[0]).Done? &&
               PlayerUtils.FindPlayerByTarget(w.players, args[0]).value.Some?)
    ensures r.Target? ==> r.player in w.players && r.player.isValid
    ensures r.Target? ==> |args| >= minArgs && Named(w.players, args) == Some(r.player)
    ensures HasPermission(w.grants, caller, permission) && |args| >= minArgs && Named(w.players, args).Some? ==> r.Target?
    ensures r.Refused? ==> |r.effects| == 1 && (r.effects[0].Reply? || r.effects[0].Fault?)
  {
    if !HasPermission(w.grants, caller, permission) then Refused([Reply("no_permission")])
    else if |args| < minArgs || |args| == 0 then Refused([Reply(usage)])
    else
      match PlayerUtils.FindPlayerByTarget(w.players, args[0])
      case Throws => Refused([Fault])
      case Done(None) => Refused([Reply("player_not_found")])
      case Done(Some(p)) => Target(p)
  }
}

=== FILE: text.dfy ===
/**
 * The .NET string operations the plugin relies on: white-space tests,
 * `Trim`, ordinal case-insensitive comparison, `Split(char)` and
 * `string.Join(" ", ...)`. Strings are `seq<char>`.
 */
module Text {

  /** `char.IsWhiteSpace`: the Unicode White_Space characters. */
  predicate IsWhiteSpace(c: char) {
    || ('\U{9}' <= c <= '\U{D}') || c == ' ' || c == '\U{85}' || c == '\U{A0}'
    || c == '\U{1680}' || ('\U{2000}' <= c <= '\U{200A}') || c == '\U{2028}'
    || c == '\U{2029}' || c == '\U{202F}' || c == '\U{205F}' || c == '\U{3000}'
  }

  /** `string.IsNullOrWhiteSpace` (a null string is modelled as the empty one). */
  predicate IsNullOrWhiteSpace(s: string) {
    forall i :: 0 <= i < |s| ==> IsWhiteSpace(s[i])
  }

  /** Drops the leading characters that satisfy `white`. */
  function TrimStartBy(s: string, white: char -> bool): (r: string)
    ensures |r| <= |s| && r == s[|s| - |r|..]
    ensures forall i :: 0 <= i < |s| - |r| ==> white(s[i])
    ensures |r| > 0 ==> !white(r[0])
  {
    if |s| > 0 && white(s[0]) then TrimStartBy(s[1..], white) else s
  }

  /** Drops the trailing characters that satisfy `white`. */
  function TrimEndBy(s: string, white: char -> bool): (r: string)
    ensures |r| <= |s| && r == s[..|r|]
    ensures forall i :: |r| <= i < |s| ==> white(s[i])
    ensures |r| > 0 ==> !white(r[|r| - 1])
  {
    if |s| > 0 && white(s[|s| - 1]) then TrimEndBy(s[..|s| - 1], white) else s
  }

  /** `string.Trim()`: strips white space at both ends. */
  function Trim(s: string): string {
    TrimEndBy(TrimStartBy(s, IsWhiteSpace), IsWhiteSpace)
  }

  /** Case folding used by `StringComparison.OrdinalIgnoreCase` and
      `ToLowerInvariant`, restricted to ASCII letters. */
  function FoldChar(c: char): char {
    if 'A' <= c <= 'Z' then (c as int + 32) as char else c
  }

  /** `ToLowerInvariant` on ASCII letters. */
  function Lower(s: string): (r: string)
    ensures |r| == |s|
    ensures forall i :: 0 <= i < |s| ==> r[i] == FoldChar(s[i])
  {
    if |s| == 0 then [] else [FoldChar(s[0])] + Lower(s[1..])
  }

  /** `a.Equals(b, StringComparison.OrdinalIgnoreCase)`. */
  predicate EqualsIgnoreCase(a: string, b: string) {
    |a| == |b| && forall i :: 0 <= i < |a| ==> FoldChar(a[i]) == FoldChar(b[i])
  }

  /** `hay.Contains(needle, StringComparison.OrdinalIgnoreCase)`. */
  predicate ContainsIgnoreCase(hay: string, needle: string) {
    exists i :: 0 <= i <= |hay| - |needle| && MatchesAt(hay, needle, i)
  }

  /** `needle` occurs in `hay` at position `i`, ignoring case. */
  predicate MatchesAt(hay: string, needle: string, i: int)
    requires 0 <= i <= |hay| - |needle|
  {
    EqualsIgnoreCase(hay[i..i + |needle|], needle)
  }

  /** `s.StartsWith(prefix)` for the one-character prefixes the plugin uses. */
  predicate StartsWith(s: string, prefix: string) {
    |prefix| <= |s| && s[..|prefix|] == prefix
  }

  /** Index of the first `c` in `s`. */
  function IndexOf(s: string, c: char): (r: nat)
    requires c in s
    ensures r < |s| && s[r] == c && c !in s[..r]
  {
    if s[0] == c then 0 else 1 + IndexOf(s[1..], c)
  }

  /** `s.Split(sep)`: every field between separators, empty ones included. */
  function Fields(s: string, sep: char): (r: seq<string>)
    ensures |r| >= 1
    ensures forall i :: 0 <= i < |r| ==> sep !in r[i]
    decreases |s|
  {
    if sep !in s then [s]
    else
      var i := IndexOf(s, sep);
      [s[..i]] + Fields(s[i + 1..], sep)
  }

  /** Keeps the non-empty strings of `xs`, in order. */
  function NonEmpty(xs: seq<string>): (r: seq<string>)
    ensures |r| <= |xs|
    ensures forall i :: 0 <= i < |r| ==> r[i] != [] && r[i] in xs
    ensures forall x :: x in xs && x != [] ==> x in r
  {
    if |xs| == 0 then []
    else if xs[0] == [] then NonEmpty(xs[1..])
    else [xs[0]] + NonEmpty(xs[1..])
  }

  /** `s.Split(sep, StringSplitOptions.RemoveEmptyEntries)`. */
  function SplitRemoveEmpty(s: string, sep: char): (r: seq<string>)
    ensures forall i :: 0 <= i < |r| ==> r[i] != [] && sep !in r[i]
  {
    NonEmpty(Fields(s, sep))
  }

  /** `string.Join(sep, xs)` with a one-character separator. */
  function Join(xs: seq<string>, sep: char): string {
    if |xs| == 0 then []
    else if |xs| == 1 then xs[0]
    else xs[0] + [sep] + Join(xs[1..], sep)
  }

  /** Splitting and re-joining with the same separator gives back the text. */
  lemma {:induction false} JoinFields(s: string, sep: char)
    ensures Join(Fields(s, sep), sep) == s
    decreases |s|
  {
    if sep in s {
      var i := IndexOf(s, sep);
      var rest := s[i + 1..];
      JoinFields(rest, sep);
      assert Fields(s, sep) == [s[..i]] + Fields(rest, sep);
      assert s == s[..i] + [sep] + rest;
    }
  }

  /** Joining separator-free fields and splitting again gives back the fields. */
  lemma {:induction false} FieldsJoin(xs: seq<string>, sep: char)
    requires |xs| >= 1
    requires forall i :: 0 <= i < |xs| ==> sep !in xs[i]
    ensures Fields(Join(xs, sep), sep) == xs
    decreases |xs|
  {
    if |xs| > 1 {
      FieldsJoin(xs[1..], sep);
      FieldsOfHead(xs[0], Join(xs[1..], sep), sep);
      assert xs == [xs[0]] + xs[1..];
    }
  }

  /** A separator-free head is the first field of `a + [sep] + b`. */
  lemma FieldsOfHead(a: string, b: string, sep: char)
    requires sep !in a
    ensures Fields(a + [sep] + b, sep) == [a] + Fields(b, sep)
  {
    var s := a + [sep] + b;
    assert s[|a|] == sep;
    assert s[..|a|] == a;
    IndexOfAfterPrefix(s, sep, a);
    assert s[..|a|] == a && s[|a| + 1..] == b;
  }

  /** The first separator after a separator-free prefix sits right after it. */
  lemma {:induction false} IndexOfAfterPrefix(s: string, c: char, p: string)
    requires |p| < |s| && s[..|p|] == p && c !in p && s[|p|] == c
    ensures IndexOf(s, c) == |p|
    decreases |p|
  {
    if |p| > 0 {
      assert s[0] == p[0];
      assert s[1..][..|p| - 1] == p[1..];
      IndexOfAfterPrefix(s[1..], c, p[1..]);
    }
  }
}

=== FILE: wrappers.dfy ===
/** The nullable values of the C# source (`T?`, `FirstOrDefault`, `out` parameters). */
module Wrappers {

  datatype Option<+T> = None | Some(value: T) {

    /** The value, or `default` when there is none (C#'s `??`). */
    function GetOr(default: T): T {
      match this
      case Some(v) => v
      case None => default
    }
  }
}
